=== FILE: README.md ===
# OPIc mock-test app: a Dafny model of its question and answer core

The app is a mock-test trainer for the OPIc speaking exam. It reads the
lesson documents of a commercial course and turns them into practice
questions. It keeps a store of sample answers keyed by question id and
serves that store over an HTTP route. It also summarises a learner's past
tests into per-topic progress. This project models that core as pure
Dafny functions over immutable values and proves properties of it:

- `TopicCategories`: the fixed table of 33 lesson topics (`lib/topic-categories.ts`) and its lookups.
  Topic ids, document names and recording names are proved pairwise distinct, so every lookup finds
  exactly its own entry.
- `AudioManager`: the public paths of the lesson recordings (`lib/audio-manager.ts`).
- `Patterns`: the marker patterns of the document parser and a scanner that finds their matches the
  way `String.prototype.matchAll` does with the `gis` flags. It also models the splitter used for
  expression lists.
- `PdfParser`: `lib/pdf-parser.ts`, i.e. question, sample-answer and expression extraction, and the
  parsing of one lesson document and of a whole directory. The document's text is a parameter.
- `OpicQuestions`: the built-in question bank and its queries, plus the merge of parsed questions
  into it (`lib/opic-questions.ts`). The bank is a value, and merging returns a new bank.
- `SampleAnswers`: the sample-answer store (`lib/sample-answers.ts`), modelled as a
  `map<string, SampleAnswerData>`. Time stamps are parameters.
- `SampleAnswersRoute`: the five handlers of `app/api/sample-answers/route.ts`. Each maps
  (store, request fields) to (response, new store).
- `ProgressTracker`: per-topic and overall learning progress computed from past test results
  (`lib/progress-tracker.ts`).
- `Types`, `Strings`, `Seqs`, `Wrappers`: the records of `types/index.ts` and shared helpers.
  The helpers are trimming, ASCII lower-casing, substring search, decimal numerals, filtering,
  first-occurrence de-duplication and flattening.

JavaScript semantics are written out where they matter:

- An optional string is "truthy" when it is present and non-empty.
- `a || b` defaults pick `b` for a missing or empty `a`.
- `!lastPracticed` also treats a stored date of `0` as unset.
- Object spread takes the incoming field whenever it is present.

## Model

| member | source | states |
|---|---|---|
| TopicCategories.LecturesUpTo | lib/topic-categories.ts:11-243 | the table's lecture entries are numbered 1, 2, … in order, each with document `<n>강_<Korean name>_unlocked-ocr.pdf` and recording `<n>강_<Korean name>.mp3` |
| TopicCategories.TopicIdsDistinct | lib/topic-categories.ts:11-243 | the table has 33 topics and no two share an id |
| TopicCategories.LecturePdfInjective | lib/topic-categories.ts:11-243 | two lecture document names that are equal have the same lecture number |
| TopicCategories.LectureAudioInjective | lib/topic-categories.ts:11-243 | two lecture recording names that are equal have the same lecture number |
| TopicCategories.TopicFilesDistinct | lib/topic-categories.ts:11-243 | every topic has a document and a recording; no two topics share either |
| TopicCategories.GetTopicById | lib/topic-categories.ts:245-247 | the result is a table entry with that id; it is absent exactly when no entry has the id |
| TopicCategories.GetTopicByPdfFileName | lib/topic-categories.ts:249-251 | the result is an entry with that document name; absent exactly when none has it |
| TopicCategories.GetTopicByAudioFileName | lib/topic-categories.ts:253-255 | the result is an entry with that recording name; absent exactly when none has it |
| TopicCategories.GetTopicByIdOfEntry | lib/topic-categories.ts:245-247 | looking up any entry's id returns that very entry |
| TopicCategories.GetTopicByPdfFileNameOfEntry | lib/topic-categories.ts:249-251 | looking up any entry's document name returns that entry |
| TopicCategories.GetTopicByAudioFileNameOfEntry | lib/topic-categories.ts:253-255 | looking up any entry's recording name returns that entry |
| TopicCategories.GetAllTopics | lib/topic-categories.ts:257-259 | all 33 entries in table order |
| TopicCategories.GetTopicsByCategory | lib/topic-categories.ts:261-275 | every table entry of the category, in table order, each exactly once; empty for an unknown category |
| TopicCategories.MainIsRest | lib/topic-categories.ts:261-275 | a topic is "main" exactly when it is neither surprise, role-play nor summary |
| AudioManager.GetAudioPath | lib/audio-manager.ts:6-8 | the path is the audio directory followed by the file name |
| AudioManager.AudioPathRoundTrip | lib/audio-manager.ts:6-8 | stripping the directory from a path recovers the file name |
| AudioManager.GetAudioPathByTopicId | lib/audio-manager.ts:13-19 | a path comes only from a topic with that id that has a recording; an unknown id gives none |
| AudioManager.AudioPathByTopicIdOfEntry | lib/audio-manager.ts:13-19 | for every table topic the result is the path of its own recording |
| AudioManager.GetAudioPathByFileName | lib/audio-manager.ts:24-30 | a path exists exactly when a non-empty name is some topic's recording, and it is that name's path |
| AudioManager.AudioEntries | lib/audio-manager.ts:35-43 | one entry per topic with a recording, carrying its id, path and name |
| AudioManager.GetAllAudioPaths | lib/audio-manager.ts:35-43 | 33 entries, the k-th being topic k's id, recording path and name |
| AudioManager.AllHaveAudio | lib/audio-manager.ts:35-43 | filtering topics that all have recordings keeps them all |
| AudioManager.AudioEntriesOfRecorded | lib/audio-manager.ts:35-43 | when every topic has a recording, the k-th row is the k-th topic's id, recording path and Korean name |
| AudioManager.AllTopicsRecorded | lib/topic-categories.ts:11-243 | every topic of the table names a recording |
| Patterns.SkipDigits | lib/pdf-parser.ts:36-40 | `\d+` consumes the maximal run of digits |
| Patterns.MatchAtAppend | lib/pdf-parser.ts:36-40 | matching a concatenated pattern is matching its halves in turn |
| Patterns.WordMatchLength | lib/pdf-parser.ts:36-40 | a literal matches exactly its own length |
| Patterns.BodyEnd | lib/pdf-parser.ts:36-40 | the lazy body ends at the first position where a stop pattern or end of text matches |
| Patterns.MatchFrom | lib/pdf-parser.ts:36-40 | a match has a non-empty body that runs to a stop, with no stop inside it |
| Patterns.NextMatch | lib/pdf-parser.ts:44-46 | the next match starts at the first marker at or after the position; none when there is no marker |
| Patterns.Spans | lib/pdf-parser.ts:44-46 | successive matches are valid and do not overlap |
| Patterns.SpansComplete | lib/pdf-parser.ts:44-46 | no marker is skipped between successive matches or after the last |
| Patterns.QuestionFamiliesValid | lib/pdf-parser.ts:36-40 | each question pattern's marker starts with a literal character, so every match consumes text |
| Patterns.AnswerFamiliesValid | lib/pdf-parser.ts:83-87 | each answer pattern is well formed in the same sense |
| Patterns.ExpressionFamiliesValid | lib/pdf-parser.ts:110-114 | each expression pattern is well formed in the same sense |
| Patterns.SampleAnswerMarkerIsAnswerMarker | lib/pdf-parser.ts:84-86 | inside a "Sample Answer n:" marker the third answer pattern also matches, with the same end |
| Patterns.SeparatorAt | lib/pdf-parser.ts:123 | a separator match starts exactly at a bullet, dash, star or newline |
| Patterns.SplitFromCuts | lib/pdf-parser.ts:122-123 | the pieces produced from a position are the slices of the rest of the text between successive separator matches, the last one running to its end |
| Patterns.Split | lib/pdf-parser.ts:122-123 | the pieces are the slices between successive separator matches, in order, from the start of the text to its end; none contains a separator; a single piece exactly when the text has none |
| Strings.Trim | lib/pdf-parser.ts:47 | the result is trimmed and is the input with leading and trailing white space removed |
| Strings.TrimIdempotent | lib/pdf-parser.ts:124 | trimming twice is trimming once |
| Strings.TrimOfTrimmed | lib/pdf-parser.ts:124 | a trimmed string is left alone |
| Strings.LowerAscii | lib/pdf-parser.ts:51 | no capital A-Z is left; each capital becomes its small letter and every other character is kept |
| Strings.Includes | lib/pdf-parser.ts:51 | true exactly when the substring occurs somewhere |
| Strings.NatToString | lib/pdf-parser.ts:62 | a counter prints as a non-empty string of digits |
| Strings.ParseNatToString | lib/pdf-parser.ts:62 | reading back a printed counter gives the counter |
| Strings.NatToStringInjective | lib/pdf-parser.ts:62 | different counters print differently |
| Seqs.Dedup | lib/pdf-parser.ts:131 | no duplicates, the same elements as the input, kept in first-occurrence order |
| Seqs.Filter | lib/pdf-parser.ts:193 | keeps exactly the elements satisfying the test |
| Seqs.FilterSelects | lib/pdf-parser.ts:193 | the result picks, at increasing positions, every element that passes the test and no other |
| Seqs.FilterCount | lib/pdf-parser.ts:193 | each value occurs as often as in the input when it passes the test, and not at all otherwise |
| Seqs.FilterAppend | lib/pdf-parser.ts:193 | filtering distributes over concatenation |
| Seqs.FilterOne | lib/pdf-parser.ts:193 | a one-element list is kept whole when its element passes the test and emptied otherwise |
| Seqs.Find | lib/opic-questions.ts:144-153 | returns the first element satisfying the test, none exactly when no element does |
| Seqs.IndexWhere | lib/opic-questions.ts:174 | returns the first index satisfying the test, none exactly when no index does |
| Seqs.FlattenAppend | lib/pdf-parser.ts:199-201 | mapping-and-concatenating distributes over concatenation |
| Seqs.FlattenMember | lib/pdf-parser.ts:116-126 | an element of the concatenation comes from the image of some input, and every image element is in it |
| Seqs.FlattenOne | lib/pdf-parser.ts:199-201 | a one-element list maps-and-concatenates to exactly its element's image |
| PdfParser.QuestionTexts | lib/pdf-parser.ts:44-48 | of the trimmed captures of the three question patterns, exactly those longer than 10 characters, in capture order and with repetitions |
| PdfParser.Classify | lib/pdf-parser.ts:50-59 | role-play iff "role"/"역할"; else narration iff "describe"/"설명"; else summary iff "summarize"/"요약"; else warm-up iff "introduce"/"소개"; otherwise opinion |
| PdfParser.CapitalisedRoleIsRoleplay | lib/pdf-parser.ts:51 | a text containing "Role" is role-play, as lower-casing finds it |
| PdfParser.TimeLimitFor | lib/pdf-parser.ts:67 | 90 s exactly for role-play, 60 s exactly for warm-up, 120 s otherwise |
| PdfParser.QuestionIdInjective | lib/pdf-parser.ts:62 | two ids `<topic>-q<n>` of one topic are equal only for equal n |
| PdfParser.ExtractQuestions | lib/pdf-parser.ts:32-74 | one question per kept text, k-th with id `<topic>-q<k+1>`, that text, its classified type and time limit, the level and topic |
| PdfParser.NumberedIdsDistinct | lib/pdf-parser.ts:42 | the numbered questions have pairwise distinct ids |
| PdfParser.ExtractedQuestionIdsDistinct | lib/pdf-parser.ts:42-62 | the questions of one document have pairwise distinct ids across all three patterns |
| PdfParser.AnswerTexts | lib/pdf-parser.ts:90-94 | of the trimmed captures of the three answer patterns, exactly those longer than 10 characters, in capture order and with repetitions |
| PdfParser.AnswerKeyInjective | lib/pdf-parser.ts:95 | keys `answer-<n>` are equal only for equal n |
| PdfParser.NumberAnswers | lib/pdf-parser.ts:89-95 | keys are exactly `answer-<n>` for the counter range, each holding the n-th text |
| PdfParser.ExtractSampleAnswers | lib/pdf-parser.ts:79-101 | keys are exactly `answer-1`…`answer-m` for the m kept texts, `answer-n` holding the n-th |
| PdfParser.AnswerKeyPresent | lib/pdf-parser.ts:89-95 | `answer-n` is present iff n is at most the number of kept texts, and then holds the n-th |
| PdfParser.Pieces | lib/pdf-parser.ts:122-124 | the trimmed pieces of a block contain no separator |
| PdfParser.BlockExpressions | lib/pdf-parser.ts:122-125 | of the block's trimmed pieces, exactly those longer than 3 characters, in order; each is trimmed and separator-free |
| PdfParser.BodyExpressions | lib/pdf-parser.ts:119-126 | a body that trims to nothing contributes no expressions; otherwise exactly its block's pieces longer than 3, in order |
| PdfParser.TrimKeepsNoSeparator | lib/pdf-parser.ts:124 | trimming cannot introduce a separator |
| PdfParser.AllExpressions | lib/pdf-parser.ts:116-129 | every expression collected is trimmed, longer than 3 and free of separators |
| PdfParser.AllExpressionsAppend | lib/pdf-parser.ts:116-129 | the expressions of two runs of captures are those of each run in turn |
| PdfParser.AllExpressionsOne | lib/pdf-parser.ts:119-126 | one capture yields its trimmed block's expressions, or none when it trims to nothing |
| PdfParser.AllExpressionsMember | lib/pdf-parser.ts:116-129 | a string is collected exactly when some capture contributes it |
| PdfParser.ExtractUsefulExpressions | lib/pdf-parser.ts:106-132 | each collected expression exactly once and nothing else, in order of first occurrence; each trimmed, longer than 3 and separator-free |
| PdfParser.ExpressionsOfBodies | lib/pdf-parser.ts:106-132 | a string is a useful expression exactly when some captured body contributes it |
| PdfParser.AttachedByPosition | lib/pdf-parser.ts:157-166 | the i-th question gets the (i+1)-th sample answer when there is one, and the expressions only when there are any |
| PdfParser.AttachedAudioPath | lib/pdf-parser.ts:163-165 | a question without audio gets the topic's recording path when the topic has one, and none otherwise |
| PdfParser.ParsePdfFile | lib/pdf-parser.ts:137-180 | a result exists iff the document names a table topic and its text can be read; it carries that topic's id, one question per kept question text, and the extracted sample answers and expressions |
| PdfParser.ParseTopicFile | lib/pdf-parser.ts:144-180 | once the topic is known, a result exists iff the text can be read, and it is what that text yields for the topic |
| PdfParser.ParseText | lib/pdf-parser.ts:150-175 | the parsed document carries the topic's id, one question per kept question text, and exactly the extracted sample answers and expressions |
| PdfParser.ParsedQuestion | lib/pdf-parser.ts:150-175 | the i-th parsed question is the i-th extracted question with its positional answer, expressions and recording path |
| PdfParser.TopicOfPdfAudio | lib/pdf-parser.ts:163-165 | the recording path attached equals the path looked up by the topic's id |
| PdfParser.FileQuestionsBelong | lib/pdf-parser.ts:137-175 | every question parsed from a file has the requested level and a topic of the table |
| PdfParser.ParseAllPdfs | lib/pdf-parser.ts:185-208 | an unreadable directory yields no questions |
| PdfParser.ParseAllPdfsOne | lib/pdf-parser.ts:193-201 | a one-file listing yields that file's questions when its name ends in `.pdf`, nothing otherwise |
| PdfParser.NonPdfNamesIgnored | lib/pdf-parser.ts:193 | a name not ending in `.pdf` does not change the result |
| PdfParser.ParseAllPdfsAppend | lib/pdf-parser.ts:193-201 | results of a directory listing split at any point concatenate |
| PdfParser.BatchAppend | lib/pdf-parser.ts:193-201 | for any per-file parser, the questions of a listing split at any point concatenate |
| PdfParser.BatchOne | lib/pdf-parser.ts:193-201 | for any per-file parser, a one-file listing yields that file's questions when its name ends in `.pdf`, nothing otherwise |
| OpicQuestions.GetQuestionsForLevel | lib/opic-questions.ts:138-142 | the list the bank keeps for the level; by `WithLevel`'s contract it reads back a list just stored for that level and is unaffected by a store to the other level |
| OpicQuestions.WithLevel | lib/opic-questions.ts:3-136 | replacing one level's list leaves the other level's list alone |
| OpicQuestions.InitialLevelsConsistent | lib/opic-questions.ts:3-136 | every built-in question is filed under its own level |
| OpicQuestions.InitialQuestionFields | lib/opic-questions.ts:3-136 | every built-in question has a description and a time limit and no topic |
| OpicQuestions.InitialIds | lib/opic-questions.ts:3-136 | the built-in ids are the listed `ih-*` and `al-*` ids |
| OpicQuestions.InitialUniqueIds | lib/opic-questions.ts:3-136 | no id occurs twice across both levels of the built-in bank |
| OpicQuestions.GetQuestionById | lib/opic-questions.ts:144-153 | the first IH question with that id when there is one, otherwise the first AL question with it; none exactly when neither level has the id |
| OpicQuestions.GetQuestionByIdFindsEach | lib/opic-questions.ts:144-153 | in a bank with unique ids every question is found by its own id |
| OpicQuestions.GetQuestionsByTopic | lib/opic-questions.ts:155-159 | every question of the level with that topic, in list order, each exactly once |
| OpicQuestions.TopicsOf | lib/opic-questions.ts:161-167 | every non-empty topic of the list appears and nothing else does |
| OpicQuestions.GetAllTopics | lib/opic-questions.ts:161-167 | the distinct non-empty topics of the level |
| OpicQuestions.TopicsOfOrder | lib/opic-questions.ts:161-166 | a topic listed earlier first occurs earlier in the question list |
| OpicQuestions.GetAllTopicsFirstUse | lib/opic-questions.ts:161-167 | the topics come in the order of their first use in the level |
| OpicQuestions.NoTopicsNoMatches | lib/opic-questions.ts:155-167 | a level without topics has no topic matches and no topics |
| OpicQuestions.TopicsOfNone | lib/opic-questions.ts:161-167 | questions without topics list none |
| OpicQuestions.InitialBankHasNoTopics | lib/opic-questions.ts:3-167 | the built-in bank answers every topic query with nothing |
| OpicQuestions.MergeFields | lib/opic-questions.ts:178-181 | id, type, text and level come from the incoming question; each of the eight optional fields comes from it when present and is kept otherwise |
| OpicQuestions.MergeFieldsIdempotent | lib/opic-questions.ts:178-181 | merging the same question twice is merging it once |
| OpicQuestions.IdIndex | lib/opic-questions.ts:174 | the first position with that id, none exactly when absent |
| OpicQuestions.Upsert | lib/opic-questions.ts:172-185 | the other level is untouched; at the first position with the id the merged question replaces the old one and every other position is kept; a new id is appended at the end |
| OpicQuestions.UpsertIdempotent | lib/opic-questions.ts:172-185 | inserting the same question twice is inserting it once |
| OpicQuestions.UpsertKeepsIdsDistinct | lib/opic-questions.ts:172-185 | a level with distinct ids keeps distinct ids |
| OpicQuestions.MergeHackersQuestions | lib/opic-questions.ts:170-187 | merging nothing leaves the bank unchanged |
| OpicQuestions.MergeOne | lib/opic-questions.ts:172-185 | merging a single question is one insertion |
| OpicQuestions.MergeKeepsUntouched | lib/opic-questions.ts:170-187 | an existing question whose id no incoming question of its level carries is left exactly as it was |
| OpicQuestions.MergeAppend | lib/opic-questions.ts:170-187 | merging a + b is merging a then b |
| OpicQuestions.MergeKeepsIds | lib/opic-questions.ts:170-187 | existing questions keep their positions and ids |
| OpicQuestions.MergeKeepsId | lib/opic-questions.ts:170-187 | an id present before is present after |
| OpicQuestions.MergeAddsIds | lib/opic-questions.ts:170-187 | every incoming question's id ends up in its level |
| OpicQuestions.MergeKeepsIdsDistinct | lib/opic-questions.ts:170-187 | a level with distinct ids keeps distinct ids |
| OpicQuestions.MergeGrowth | lib/opic-questions.ts:170-187 | the level's id set grows by exactly the incoming ids, and its length by the number of new ones |
| OpicQuestions.UpsertGrowth | lib/opic-questions.ts:172-185 | one insertion adds at most its own id, lengthening the list only when the id is new |
| OpicQuestions.LevelAdds | lib/opic-questions.ts:172-185 | one question contributes at most one id to a level |
| SampleAnswers.GetSampleAnswer | lib/sample-answers.ts:61-64 | present exactly when the id is stored, and then the stored entry |
| SampleAnswers.NewEntry | lib/sample-answers.ts:76-84 | text, source, quality and update time are the new ones; the first extraction time is kept when set, otherwise it is now |
| SampleAnswers.SaveSampleAnswer | lib/sample-answers.ts:69-87 | adds or replaces exactly the one key; every other entry is unchanged |
| SampleAnswers.SaveKeepsFirstExtraction | lib/sample-answers.ts:82 | saving twice keeps the first extraction time and the second text |
| SampleAnswers.SaveSampleAnswers | lib/sample-answers.ts:99-119 | keys are old keys plus batch keys; batch keys get new entries; others are unchanged |
| SampleAnswers.SaveSampleAnswersIsSaveEach | lib/sample-answers.ts:106-116 | the batch equals saving its entries one by one, in any enumeration order |
| SampleAnswers.SaveBatchStep | lib/sample-answers.ts:106-116 | saving one entry then the rest is saving the whole batch |
| SampleAnswers.SaveEachIgnoresRemoved | lib/sample-answers.ts:106-116 | one-by-one saving only reads the answers it visits |
| SampleAnswers.MatchAnswersToQuestions | lib/sample-answers.ts:124-138 | keys are exactly the question ids with a non-empty answer, each holding that answer |
| SampleAnswers.LoadSampleAnswersForQuestions | lib/sample-answers.ts:143-158 | stored questions get text, source and quality of their entry with nothing else changed; others are unchanged |
| SampleAnswers.LoadIdempotent | lib/sample-answers.ts:143-158 | loading twice is loading once |
| SampleAnswers.SaveThenLoad | lib/sample-answers.ts:69-158 | a saved answer is what loading shows for its question |
| SampleAnswers.DeleteSampleAnswer | lib/sample-answers.ts:163-171 | true exactly when the id was stored; removes exactly that key |
| SampleAnswers.DeleteUndoesSave | lib/sample-answers.ts:69-171 | deleting a freshly saved id restores the store |
| SampleAnswers.GetUnverifiedAnswers | lib/sample-answers.ts:176-181 | exactly the unverified entries, each once with its stored data |
| SampleAnswers.UpdateAnswerQuality | lib/sample-answers.ts:186-198 | true exactly when stored; only that entry's quality and update time change |
| SampleAnswers.UpdateQualityDecidesListing | lib/sample-answers.ts:176-198 | after an update, the updated entry meets the unverified listing's membership condition exactly when the new quality is unverified; every other id keeps its membership; the text is untouched |
| SampleAnswersRoute.GetOne | app/api/sample-answers/route.ts:22-36 | 200 with the entry exactly when stored, otherwise 404 |
| SampleAnswersRoute.Get | app/api/sample-answers/route.ts:16-54 | by id when one is given; `unverified=true` lists exactly the unverified entries, each id once, with their count; otherwise the whole store and its size |
| SampleAnswersRoute.Post | app/api/sample-answers/route.ts:71-103 | 400 exactly when id or answer is missing or empty, store unchanged; otherwise saved with defaults manual and unverified |
| SampleAnswersRoute.PostThenGet | app/api/sample-answers/route.ts:71-103 | a posted answer is then served with source manual and quality unverified |
| SampleAnswersRoute.ItemsMapLastWins | app/api/sample-answers/route.ts:124-129 | the batch holds exactly the ids of items with id and answer, each with its last such item's answer |
| SampleAnswersRoute.Put | app/api/sample-answers/route.ts:109-158 | 400 exactly when the list is missing or has no valid item, store unchanged; otherwise the batch is saved and its size reported |
| SampleAnswersRoute.PutLastItemWins | app/api/sample-answers/route.ts:124-147 | the last valid item for an id is the one stored |
| SampleAnswersRoute.Delete | app/api/sample-answers/route.ts:164-205 | 400 without an id, 404 for an unknown id, otherwise 200 and exactly that key removed |
| SampleAnswersRoute.DeleteThenGet | app/api/sample-answers/route.ts:164-205 | after a delete the id is not found, and a second delete is a 404 |
| SampleAnswersRoute.ParseQuality | app/api/sample-answers/route.ts:226-234 | accepts exactly "verified" and "unverified" |
| SampleAnswersRoute.Patch | app/api/sample-answers/route.ts:211-263 | 400 for missing id or quality or an invalid quality, 404 for an unknown id, otherwise that entry gets the new quality and update time and every other entry is unchanged |
| SampleAnswersRoute.PatchKeepsOthers | app/api/sample-answers/route.ts:211-263 | verifying one entry keeps its text and leaves other entries alone |
| ProgressTracker.CountedIgnores | lib/progress-tracker.ts:29 | results of another level or not completed do not count |
| ProgressTracker.TopicAnswerCount | lib/progress-tracker.ts:38-41 | a test has no more topic answers than answers |
| ProgressTracker.Step | lib/progress-tracker.ts:43-52 | a test without topic answers changes nothing; otherwise answers add up, a scored test is counted, and a date is recorded |
| ProgressTracker.LatestContribution | lib/progress-tracker.ts:49-51 | the latest date among tests with topic answers, none exactly when there is no such test |
| ProgressTracker.LatestCons | lib/progress-tracker.ts:49-51 | the latest contributing date of a list is the later of its first result's own date, when that result answered the topic, and the latest of the rest |
| ProgressTracker.MaxOpt | lib/progress-tracker.ts:49-51 | the larger of two optional dates |
| ProgressTracker.CalculateTopicProgress | lib/progress-tracker.ts:25-63 | id and name are the topic id, total is 0, and a last-practised date exists exactly when something was answered; the average's value is given by `TopicAverage` |
| ProgressTracker.TallyAnsweredLatest | lib/progress-tracker.ts:36-53 | the fold counts every topic answer and records a date exactly when it counted any |
| ProgressTracker.StepLatest | lib/progress-tracker.ts:49-51 | for non-negative dates the falsy-or-greater test keeps the maximum |
| ProgressTracker.TallyLatest | lib/progress-tracker.ts:36-53 | for non-negative dates the fold's date is the latest contributing date |
| ProgressTracker.TopicProgressCounts | lib/progress-tracker.ts:25-63 | answered is the number of topic answers in counted tests; last practised is the latest such test's date |
| ProgressTracker.TallyScored | lib/progress-tracker.ts:43-47 | a score is recorded exactly when a contributing test has feedback |
| ProgressTracker.TopicProgressScored | lib/progress-tracker.ts:25-63 | an average score exists exactly when some counted test with topic answers has feedback |
| ProgressTracker.StepScores | lib/progress-tracker.ts:43-47 | one loop step adds the result's overall score and counts it exactly when the result answered the topic and has an evaluation |
| ProgressTracker.TallyScores | lib/progress-tracker.ts:33-52 | the loop's score count is the number of evaluated results that answered the topic, and its score total is the sum of their overall scores |
| ProgressTracker.TopicAverage | lib/progress-tracker.ts:45-60 | the topic's average score is the mean overall score of the counted, evaluated results that answered it, and absent when there are none |
| ProgressTracker.TopicAverageBounds | lib/progress-tracker.ts:60 | overall scores within `[0, hi]` give a topic average within `[0, hi]` |
| ProgressTracker.TopicEntriesSpec | lib/progress-tracker.ts:79-99 | one entry per distinct topic in first-seen order, with its question and answered counts |
| ProgressTracker.TopicEntriesInvariant | lib/progress-tracker.ts:79-99 | after every observation the topic map has one entry per distinct topic seen, in first-seen order, with its counts |
| ProgressTracker.CountAbsent | lib/progress-tracker.ts:79-99 | a topic never seen has zero counts |
| ProgressTracker.CountStep | lib/progress-tracker.ts:92-97 | one more question adds one to its topic and one more answered when it was answered |
| ProgressTracker.DedupStep | lib/progress-tracker.ts:84-91 | a new topic is appended to the entry order, a known one leaves it alone |
| ProgressTracker.KeepEntry | lib/progress-tracker.ts:79-99 | an observation of another topic leaves an entry's counts correct |
| ProgressTracker.AddNewTopic | lib/progress-tracker.ts:84-97 | adding an observation of an unseen topic keeps the map invariant |
| ProgressTracker.AddNewTopicIds | lib/progress-tracker.ts:84-92 | an unseen topic's observation appends its id, which keeps the ids in first-seen order |
| ProgressTracker.AddNewTopicCounts | lib/progress-tracker.ts:84-97 | after an unseen topic's observation, every entry, old or new, carries the right counts |
| ProgressTracker.AddKnownTopic | lib/progress-tracker.ts:91-97 | adding an observation of a known topic keeps the map invariant |
| ProgressTracker.BumpedEntries | lib/progress-tracker.ts:91-97 | bumping the entry of the observed topic keeps every entry's counts correct |
| ProgressTracker.CountAnsweredAtMost | lib/progress-tracker.ts:92-97 | answered never exceeds total for a topic |
| ProgressTracker.CountPresent | lib/progress-tracker.ts:84-92 | a seen topic has at least one question |
| ProgressTracker.ClassifyUnscored | lib/progress-tracker.ts:105-119 | with no average scores there are no strong topics, and the weak topics are exactly the unanswered ones in order |
| ProgressTracker.CalculateLearningProgress | lib/progress-tracker.ts:68-129 | level as asked; tests are the counted results; average 0 without tests; at most one entry per observed question |
| ProgressTracker.LearningTopics | lib/progress-tracker.ts:79-128 | topics are the distinct topics seen, counts match, 1 ≤ total, answered ≤ total, no strong topics, weak = unanswered topics |
| ProgressTracker.ScoreSumBounds | lib/progress-tracker.ts:73-75 | scores within [0, hi] sum to within [0, hi·n] |
| ProgressTracker.AverageScoreBounds | lib/progress-tracker.ts:71-76 | scores within [0, hi] give an average within [0, hi] |
| ProgressTracker.MeanBounds | lib/progress-tracker.ts:73-76 | the mean of scores within [0, hi] lies within [0, hi] |
| ProgressTracker.GetTopicCompletionRate | lib/progress-tracker.ts:134-137 | 0 with no questions; within [0, 100] when answered ≤ total; 100 iff all answered; 0 iff none |

## Left out

- File and network I/O are outside the model. This covers `pdf-parse`, `fs.readFileSync`/`writeFileSync`, `readdir`, the browser's local storage behind `getAllTestResults`, and the HTTP request parsing.
  - A document's text is the parameter `extract`, and a directory listing is an `Option<seq<string>>`. A failed read is `None`.
  - The sample-answer store is a value passed in and returned, and past test results are a parameter.
  - The store's file loading and saving (`loadStore`/`saveStore`, `lib/sample-answers.ts:28-56`) is not modelled.
- The clock is a parameter `now`. `saveSampleAnswer` calls `new Date()` twice, and both calls are modelled as the same instant.
- The JavaScript regular-expression engine is replaced by the `Patterns` scanner. It matches the same spans for the marker patterns the parser uses, but it is not a general regex engine.
- PdfParser.Classify: the keywords are searched in `LowerAscii(q)` where the source uses `toLowerCase()`, which also lowers non-ASCII letters. The two agree on the four keywords: the only non-ASCII characters whose lower case contains an ASCII letter are U+0130 (to "i̇") and U+212A (to "k"), and neither can complete "role", "describe", "summarize" or "introduce".
- Lengths are counted in code points. JavaScript counts UTF-16 code units, which differ only for characters outside the Basic Multilingual Plane.
- The texts of the 16 built-in questions are a parameter of the bank. Their ids, types, levels and time limits are modelled as written, and every property is proved for any texts.
- `path.basename` is not modelled: the document's file name is passed in.
- `checkAudioExists` (`lib/audio-manager.ts:48-57`) performs a network request and is not modelled.
- `getAllSampleAnswers` returns the whole store; in this model that is the store value itself, as used by `SampleAnswersRoute.Get`.
- The error paths that return `500` or `null` from a `catch` are not modelled, because they are reached only through I/O failures. Two of them are modelled: `parseAllPDFs` swallowing a listing error and returning `[]`, and `parsePDFFile` returning `null` when `extractTextFromPDF` rethrows a read error (`extract(fileName) == None` gives `None`).
- JSON bodies are assumed well typed:
  - fields are strings or missing, and `source`/`quality` of POST and PUT are one of the enumerated values;
  - the routes do not validate those two fields, and a foreign string would be stored as given;
  - an explicitly `undefined` field in an object spread is treated as missing.
- Object-key corner cases are not modelled: a store is a finite map, so keys such as `__proto__` behave like any other key.
- Scores are reals, so floating-point rounding, `NaN` and infinities are not modelled.
- `Object.entries` order is not modelled. `getUnverifiedAnswers` is specified as a duplicate-free listing of exactly the unverified entries.
- SampleAnswers.GetUnverifiedAnswers: the order of the listing is left unspecified, where the source follows the insertion order of the store's keys.
- ProgressTracker.TopicProgressCounts: the latest-date property is proved for non-negative test dates only. With a stored date of 0 followed by a negative date, the source's `!lastPracticed` test takes the later negative date rather than the maximum.
- ProgressTracker.AverageScoreBounds: the bounds are stated for scores that are already in range. A result without feedback contributes 0, as `|| 0` does.
- The other routes, the pages and the UI components of the app are not part of this model.

Behaviour of the code worth noting:

- Extracted questions are neither sorted nor de-duplicated.
- Question ids come from one running counter across the three question patterns, and answers are keyed `answer-<n>` by a second counter.
- Answers are attached to questions by position, not by topic or number.
- There is no validation of answer quality beyond the PATCH handler's two accepted values.
- `parseAllPDFs` returns `[]` when the directory cannot be read.
- `calculateLearningProgress` never sets a topic's average score, so its strong-topic list is always empty and its weak topics are exactly the unanswered ones (`ProgressTracker.LearningTopics`).

=== FILE: audio_manager.dfy ===
/** Audio-path derivation of lib/audio-manager.ts: every lesson recording is served
    from one directory, addressed by the topic table. */
module AudioManager {
  import opened Wrappers
  import opened Strings
  import opened Seqs
  import opened TopicCategories

  /** The directory the recordings are served from. */
  const AudioDir: string := "/audio/hackers/"

  /** `getAudioPath`: the served path of a recording. */
  function GetAudioPath(audioFileName: string): (path: string)
    ensures StartsWith(path, AudioDir)
    ensures path[|AudioDir|..] == audioFileName
  {
    AudioDir + audioFileName
  }

  /** Recovers the recording name from a served path. */
  function AudioFileOfPath(path: string): Option<string> {
    if StartsWith(path, AudioDir) then Some(path[|AudioDir|..]) else None
  }

  /** A served path names its recording: deriving a path and reading it back is the identity,
      so distinct recordings never share a path. */
  lemma AudioPathRoundTrip(audioFileName: string)
    ensures AudioFileOfPath(GetAudioPath(audioFileName)) == Some(audioFileName)
  {
  }

  /** The path of a topic's recording, when the topic names a non-empty one. */
  function TopicAudioPath(t: Topic): Option<string> {
    if Truthy(t.audioFileName) then Some(GetAudioPath(t.audioFileName.value)) else None
  }

  /** `getAudioPathByTopicId`: the recording path of the first topic with that id
      (the search `getTopicById` makes), when it names a recording. */
  function GetAudioPathByTopicId(topicId: string): (r: Option<string>)
    ensures r.Some? ==> (exists i :: 0 <= i < |TopicTable| && TopicTable[i].id == topicId
                          && Truthy(TopicTable[i].audioFileName)
                          && r.value == GetAudioPath(TopicTable[i].audioFileName.value))
    ensures (forall i :: 0 <= i < |TopicTable| ==> TopicTable[i].id != topicId) ==> r.None?
  {
    match GetTopicById(topicId)
    case None => None
    case Some(t) => TopicAudioPath(t)
  }

  /** For a topic of the table, the lookup by id yields that topic's recording path. */
  lemma AudioPathByTopicIdOfEntry(i: nat)
    requires i < |TopicTable|
    ensures GetAudioPathByTopicId(TopicTable[i].id) == TopicAudioPath(TopicTable[i])
    ensures GetAudioPathByTopicId(TopicTable[i].id) == Some(GetAudioPath(TopicTable[i].audioFileName.value))
  {
    GetTopicByIdOfEntry(i);
    TopicFilesDistinct();
  }

  /** `getAudioPathByFileName`: the served path of `fileName` when some topic
      names that recording, otherwise nothing. */
  function GetAudioPathByFileName(fileName: string): (r: Option<string>)
    ensures r.Some? <==> fileName != "" && exists i :: 0 <= i < |TopicTable| && TopicTable[i].audioFileName == Some(fileName)
    ensures r.Some? ==> r.value == GetAudioPath(fileName)
  {
    match GetTopicByAudioFileName(fileName)
    case None => None
    case Some(t) => TopicAudioPath(t)
  }

  /** One row of `getAllAudioPaths`. */
  datatype AudioEntry = AudioEntry(topicId: string, path: string, name: string)

  function HasAudio(t: Topic): bool {
    Truthy(t.audioFileName)
  }

  /** The rows for `topics`: one per topic with a recording, in order. */
  function AudioEntries(topics: seq<Topic>): (r: seq<AudioEntry>)
    ensures |r| == |Filter(topics, HasAudio)|
    ensures forall k :: 0 <= k < |r| ==>
      var t := Filter(topics, HasAudio)[k];
      r[k] == AudioEntry(t.id, GetAudioPath(t.audioFileName.value), t.nameKo)
  {
    if |topics| == 0 then []
    else
      var t := topics[0];
      var rest := AudioEntries(topics[1..]);
      FilterCons(topics, HasAudio);
      if HasAudio(t) then [AudioEntry(t.id, GetAudioPath(t.audioFileName.value), t.nameKo)] + rest
      else rest
  }

  /** `getAllAudioPaths`: one row per table topic with a recording, in table order,
      named by the topic's Korean name. Every lecture has a recording, so there are 33. */
  function GetAllAudioPaths(): (r: seq<AudioEntry>)
    ensures |r| == |TopicTable| == 33
    ensures forall k :: 0 <= k < |r| ==>
      r[k] == AudioEntry(TopicTable[k].id, GetAudioPath(TopicTable[k].audioFileName.value), TopicTable[k].nameKo)
  {
    AllTopicsRecorded();
    AudioEntriesOfRecorded(GetAllTopics());
    AudioEntries(GetAllTopics())
  }

  /** Every topic of the table has a recording. */
  lemma AllTopicsRecorded()
    ensures forall i :: 0 <= i < |GetAllTopics()| ==> HasAudio(GetAllTopics()[i])
  {
    TopicFilesDistinct();
  }

  /** When every topic has a recording, the rows are the topics one for one. */
  lemma AudioEntriesOfRecorded(topics: seq<Topic>)
    requires forall i :: 0 <= i < |topics| ==> HasAudio(topics[i])
    ensures |AudioEntries(topics)| == |topics|
    ensures forall k :: 0 <= k < |topics| ==>
      AudioEntries(topics)[k] == AudioEntry(topics[k].id, GetAudioPath(topics[k].audioFileName.value), topics[k].nameKo)
  {
    AllHaveAudio(topics);
  }

  lemma {:induction false} AllHaveAudio(topics: seq<Topic>)
    requires forall i :: 0 <= i < |topics| ==> HasAudio(topics[i])
    ensures Filter(topics, HasAudio) == topics
  {
    if |topics| > 0 {
      AllHaveAudio(topics[1..]);
    }
  }
}

=== FILE: opic_questions.dfy ===
/** The built-in question bank of lib/opic-questions.ts and the merge that
    folds parsed lecture questions into it. The bank is mutable module state in
    the source; here it is a value that the merge returns updated. */
module OpicQuestions {
  import opened Wrappers
  import opened Strings
  import opened Seqs
  import opened Types

  /** A built-in question: it has a Korean description and a time limit, and no topic. */
  function Static(id: string, kind: QuestionType, texts: (string, string), timeLimit: int, level: Level): Question {
    Question(id, kind, texts.0, Some(texts.1), Some(timeLimit), level, None, None, None, None, None, None)
  }

  /** `OPIC_QUESTIONS`: one list of questions per level. */
  datatype QuestionBank = QuestionBank(ih: seq<Question>, al: seq<Question>)

  /** The English text and the Korean description of each built-in question, in
      bank order: the eight IH questions, then the eight AL questions. */
  const BuiltInTexts: seq<(string, string)> := [
    ("Please introduce yourself. Tell me about your name, where you're from, and what you do.",
     "자기소개를 해주세요. 이름, 출신지, 직업에 대해 말씀해주세요."),
    ("What are your hobbies or interests? Why do you enjoy them?",
     "취미나 관심사에 대해 말씀해주세요. 왜 그것들을 좋아하시나요?"),
    ("You are at a restaurant and the food you ordered is cold. Talk to the waiter about this situation and ask for a solution.",
     "레스토랑에서 주문한 음식이 차갑게 나왔습니다. 웨이터에게 상황을 설명하고 해결책을 요청하세요."),
    ("You need to return a product you bought online because it's defective. Call the customer service and explain the problem.",
     "온라인으로 구매한 제품이 불량이어서 반품해야 합니다. 고객 서비스에 전화하여 문제를 설명하세요."),
    ("Some people prefer to work from home, while others prefer to work in an office. What is your opinion on this?",
     "어떤 사람들은 재택근무를 선호하고, 다른 사람들은 사무실 근무를 선호합니다. 이에 대한 의견을 말씀해주세요."),
    ("Do you think social media has more positive or negative effects on society? Explain your reasoning.",
     "소셜 미디어가 사회에 긍정적인 영향이 더 큰지, 아니면 부정적인 영향이 더 큰지 생각하시나요? 이유를 설명해주세요."),
    ("Describe a memorable trip you took. What happened, who was with you, and why was it memorable?",
     "기억에 남는 여행에 대해 설명해주세요. 무슨 일이 있었고, 누구와 함께했으며, 왜 기억에 남는지 말씀해주세요."),
    ("Tell me about a time when you had to solve a difficult problem. What was the problem and how did you solve it?",
     "어려운 문제를 해결해야 했던 경험에 대해 말씀해주세요. 어떤 문제였고 어떻게 해결했는지 설명해주세요."),
    ("Please introduce yourself and tell me about your background, including your education and professional experience.",
     "자기소개를 해주시고, 교육 배경과 전문 경험을 포함하여 배경에 대해 말씀해주세요."),
    ("You are negotiating a contract with a client. The client wants to change some terms that you think are unreasonable. Discuss this professionally and try to reach a compromise.",
     "고객과 계약을 협상하고 있습니다. 고객이 불합리하다고 생각되는 조건을 변경하고자 합니다. 전문적으로 논의하고 타협점을 찾으세요."),
    ("You are a team leader and need to address a conflict between two team members. Facilitate a discussion to resolve the issue.",
     "팀 리더로서 두 팀원 간의 갈등을 해결해야 합니다. 문제를 해결하기 위한 논의를 진행하세요."),
    ("Some argue that artificial intelligence will replace many jobs, while others believe it will create new opportunities. What is your perspective on the future of work in the age of AI?",
     "일부는 인공지능이 많은 일자리를 대체할 것이라고 주장하고, 다른 사람들은 새로운 기회를 창출할 것이라고 믿습니다. AI 시대의 일의 미래에 대한 관점을 말씀해주세요."),
    ("Do you think globalization has been beneficial or harmful overall? Discuss both the advantages and disadvantages, and provide your balanced view.",
     "글로벌화가 전반적으로 유익했는지 해로운지 생각하시나요? 장단점을 모두 논의하고 균형 잡힌 관점을 제시해주세요."),
    ("Describe a complex project you managed or were involved in. Explain the challenges you faced, the strategies you used, and the outcomes.",
     "관리하거나 참여했던 복잡한 프로젝트에 대해 설명해주세요. 직면한 도전, 사용한 전략, 결과를 설명해주세요."),
    ("Tell me about a significant change you made in your life or career. What motivated you, what obstacles did you encounter, and what did you learn from the experience?",
     "생활이나 경력에서 만든 중요한 변화에 대해 말씀해주세요. 동기가 무엇이었고, 어떤 장애물을 만났으며, 경험에서 무엇을 배웠는지 설명해주세요."),
    ("Summarize a recent article or news story you read. Explain the main points and your thoughts on the topic.",
     "최근에 읽은 기사나 뉴스 기사를 요약해주세요. 주요 포인트와 주제에 대한 생각을 설명해주세요.")
  ]

  /** The `k`-th text pair, or blanks past the end. */
  function TextAt(texts: seq<(string, string)>, k: nat): (string, string) {
    if k < |texts| then texts[k] else ("", "")
  }

  /** The built-in bank with its texts taken from `texts`. Ids, kinds, time limits
      and levels are fixed; the properties proved below hold whatever the texts are. */
  function BuiltInBank(texts: seq<(string, string)>): QuestionBank {
    QuestionBank(
      [
      Static("ih-warmup-1", Warmup, TextAt(texts, 0), 60, IH),
      Static("ih-warmup-2", Warmup, TextAt(texts, 1), 60, IH),
      Static("ih-roleplay-1", Roleplay, TextAt(texts, 2), 90, IH),
      Static("ih-roleplay-2", Roleplay, TextAt(texts, 3), 90, IH),
      Static("ih-opinion-1", Opinion, TextAt(texts, 4), 120, IH),
      Static("ih-opinion-2", Opinion, TextAt(texts, 5), 120, IH),
      Static("ih-narration-1", Narration, TextAt(texts, 6), 120, IH),
      Static("ih-narration-2", Narration, TextAt(texts, 7), 120, IH)
      ],
      [
      Static("al-warmup-1", Warmup, TextAt(texts, 8), 90, AL),
      Static("al-roleplay-1", Roleplay, TextAt(texts, 9), 180, AL),
      Static("al-roleplay-2", Roleplay, TextAt(texts, 10), 180, AL),
      Static("al-opinion-1", Opinion, TextAt(texts, 11), 180, AL),
      Static("al-opinion-2", Opinion, TextAt(texts, 12), 180, AL),
      Static("al-narration-1", Narration, TextAt(texts, 13), 180, AL),
      Static("al-narration-2", Narration, TextAt(texts, 14), 180, AL),
      Static("al-summary-1", Summary, TextAt(texts, 15), 150, AL)
      ])
  }

  /** `OPIC_QUESTIONS` as the module starts out. */
  const InitialBank: QuestionBank := BuiltInBank(BuiltInTexts)

  function OtherLevel(level: Level): Level {
    if level == IH then AL else IH
  }

  /** `getQuestionsForLevel`: the list the bank keeps for `level`. */
  function GetQuestionsForLevel(bank: QuestionBank, level: Level): seq<Question> {
    match level
    case IH => bank.ih
    case AL => bank.al
  }

  /** The bank with the list for `level` replaced by `qs`. */
  function WithLevel(bank: QuestionBank, level: Level, qs: seq<Question>): (r: QuestionBank)
    ensures GetQuestionsForLevel(r, level) == qs
    ensures GetQuestionsForLevel(r, OtherLevel(level)) == GetQuestionsForLevel(bank, OtherLevel(level))
  {
    match level
    case IH => bank.(ih := qs)
    case AL => bank.(al := qs)
  }

  /** Every question sits in the list of its own level. */
  predicate LevelsConsistent(bank: QuestionBank) {
    && (forall i :: 0 <= i < |bank.ih| ==> bank.ih[i].level == IH)
    && (forall i :: 0 <= i < |bank.al| ==> bank.al[i].level == AL)
  }

  function Ids(qs: seq<Question>): (r: seq<string>)
    ensures |r| == |qs|
    ensures forall i :: 0 <= i < |qs| ==> r[i] == qs[i].id
  {
    seq(|qs|, i requires 0 <= i < |qs| => qs[i].id)
  }

  /** No id occurs twice in the whole bank. */
  predicate UniqueIds(bank: QuestionBank) {
    NoDup(Ids(bank.ih + bank.al))
  }

  /** The built-in bank keeps every question in its level's list. */
  lemma InitialLevelsConsistent(texts: seq<(string, string)>)
    ensures LevelsConsistent(BuiltInBank(texts))
  {
  }

  /** Every built-in question has a description and a time limit, and no topic. */
  lemma InitialQuestionFields(texts: seq<(string, string)>, level: Level)
    ensures forall i :: 0 <= i < |GetQuestionsForLevel(BuiltInBank(texts), level)| ==>
      var q := GetQuestionsForLevel(BuiltInBank(texts), level)[i];
      q.description.Some? && q.timeLimit.Some? && q.topic.None?
  {
  }

  const IhIds: seq<string> := ["ih-warmup-1", "ih-warmup-2", "ih-roleplay-1", "ih-roleplay-2",
                               "ih-opinion-1", "ih-opinion-2", "ih-narration-1", "ih-narration-2"]
  const AlIds: seq<string> := ["al-warmup-1", "al-roleplay-1", "al-roleplay-2", "al-opinion-1",
                               "al-opinion-2", "al-narration-1", "al-narration-2", "al-summary-1"]

  lemma InitialIds(texts: seq<(string, string)>)
    ensures Ids(BuiltInBank(texts).ih) == IhIds && Ids(BuiltInBank(texts).al) == AlIds
  {
  }

  lemma IhIdsDistinct()
    ensures NoDup(IhIds)
  {
  }

  lemma AlIdsDistinct()
    ensures NoDup(AlIds)
  {
  }

  /** Lists without repetitions that share nothing concatenate to one without repetitions. */
  lemma NoDupAppend<T>(a: seq<T>, b: seq<T>)
    requires NoDup(a) && NoDup(b)
    requires forall i, j :: 0 <= i < |a| && 0 <= j < |b| ==> a[i] != b[j]
    ensures NoDup(a + b)
  {
    forall i, j | 0 <= i < j < |a + b| ensures (a + b)[i] != (a + b)[j] {
      if j < |a| {
      } else if i >= |a| {
        assert (a + b)[i] == b[i - |a|] && (a + b)[j] == b[j - |a|];
      } else {
        assert (a + b)[j] == b[j - |a|];
      }
    }
  }

  /** No id is used twice in the built-in bank: the IH ids start with "i" and the AL ids with "a". */
  lemma InitialUniqueIds(texts: seq<(string, string)>)
    ensures UniqueIds(BuiltInBank(texts))
  {
    var bank := BuiltInBank(texts);
    InitialIds(texts);
    IhIdsDistinct();
    AlIdsDistinct();
    assert forall i :: 0 <= i < |IhIds| ==> |IhIds[i]| > 0 && IhIds[i][0] == 'i';
    assert forall j :: 0 <= j < |AlIds| ==> |AlIds[j]| > 0 && AlIds[j][0] == 'a';
    NoDupAppend(IhIds, AlIds);
    assert Ids(bank.ih + bank.al) == IhIds + AlIds;
  }

  /** `getQuestionById`: the first question with that id, searching the IH list
      before the AL list. */
  function GetQuestionById(bank: QuestionBank, id: string): (r: Option<Question>)
    ensures r.Some? ==> r.value.id == id && (r.value in bank.ih || r.value in bank.al)
    ensures (exists i :: 0 <= i < |bank.ih| && bank.ih[i].id == id) ==> r.Some? && r.value in bank.ih
    ensures r.None? <==> ((forall i :: 0 <= i < |bank.ih| ==> bank.ih[i].id != id)
                          && (forall i :: 0 <= i < |bank.al| ==> bank.al[i].id != id))
    ensures IdIndex(bank.ih, id).Some? ==> r == Some(bank.ih[IdIndex(bank.ih, id).value])
    ensures IdIndex(bank.ih, id).None? && IdIndex(bank.al, id).Some? ==> r == Some(bank.al[IdIndex(bank.al, id).value])
  {
    match Find(bank.ih, (q: Question) => q.id == id)
    case Some(q) => Some(q)
    case None => Find(bank.al, (q: Question) => q.id == id)
  }

  /** In a bank without repeated ids, every question is found by its own id. */
  lemma GetQuestionByIdFindsEach(bank: QuestionBank, q: Question)
    requires UniqueIds(bank)
    requires q in bank.ih + bank.al
    ensures GetQuestionById(bank, q.id) == Some(q)
  {
    var all := bank.ih + bank.al;
    var ids := Ids(all);
    var r := GetQuestionById(bank, q.id);
    assert r.value in all;
    var j :| 0 <= j < |all| && all[j] == q;
    var k :| 0 <= k < |all| && all[k] == r.value;
    assert ids[j] == ids[k];
  }

  /** `getQuestionsByTopic`: the questions of the level whose topic is `topic`, in order. */
  function GetQuestionsByTopic(bank: QuestionBank, level: Level, topic: string): (r: seq<Question>)
    ensures forall i :: 0 <= i < |r| ==> r[i] in GetQuestionsForLevel(bank, level) && r[i].topic == Some(topic)
    ensures var qs := GetQuestionsForLevel(bank, level);
      forall i :: 0 <= i < |qs| && qs[i].topic == Some(topic) ==> qs[i] in r
    ensures |r| <= |GetQuestionsForLevel(bank, level)|
    ensures Selects(r, GetQuestionsForLevel(bank, level), TopicIs(topic))
  {
    FilterSelects(GetQuestionsForLevel(bank, level), TopicIs(topic));
    Filter(GetQuestionsForLevel(bank, level), TopicIs(topic))
  }

  function TopicIs(topic: string): Question -> bool {
    (q: Question) => q.topic == Some(topic)
  }

  /** The non-empty topics of `qs`, in order, with repetitions. */
  function TopicsOf(qs: seq<Question>): (r: seq<string>)
    ensures forall i :: 0 <= i < |r| ==> r[i] != "" && exists j :: 0 <= j < |qs| && qs[j].topic == Some(r[i])
    ensures forall j :: 0 <= j < |qs| && Truthy(qs[j].topic) ==> qs[j].topic.value in r
  {
    if |qs| == 0 then []
    else
      var rest := TopicsOf(qs[1..]);
      assert forall i :: 0 <= i < |rest| ==> exists j :: 1 <= j < |qs| && qs[j].topic == Some(rest[i]) by {
        forall i | 0 <= i < |rest| ensures exists j :: 1 <= j < |qs| && qs[j].topic == Some(rest[i]) {
          var j :| 0 <= j < |qs[1..]| && qs[1..][j].topic == Some(rest[i]);
          assert qs[j + 1].topic == Some(rest[i]);
        }
      }
      if Truthy(qs[0].topic) then [qs[0].topic.value] + rest else rest
  }

  /** `getAllTopics`: each non-empty topic of the level once, in order of first use. */
  function GetAllTopics(bank: QuestionBank, level: Level): (r: seq<string>)
    ensures NoDup(r)
    ensures var qs := GetQuestionsForLevel(bank, level);
      forall i :: 0 <= i < |r| ==> r[i] != "" && exists j :: 0 <= j < |qs| && qs[j].topic == Some(r[i])
    ensures var qs := GetQuestionsForLevel(bank, level);
      forall j :: 0 <= j < |qs| && Truthy(qs[j].topic) ==> qs[j].topic.value in r
  {
    var all := TopicsOf(GetQuestionsForLevel(bank, level));
    var r := Dedup(all);
    assert forall i :: 0 <= i < |r| ==> r[i] in all;
    r
  }

  /** Topics listed earlier by `TopicsOf` are first used by earlier questions. */
  lemma {:induction false} TopicsOfOrder(qs: seq<Question>, t: string, u: string)
    requires t in TopicsOf(qs) && u in TopicsOf(qs)
    ensures IndexWhere(qs, TopicIs(t)).Some? && IndexWhere(qs, TopicIs(u)).Some?
    ensures FirstIndex(TopicsOf(qs), t) < FirstIndex(TopicsOf(qs), u) ==>
      IndexWhere(qs, TopicIs(t)).value < IndexWhere(qs, TopicIs(u)).value
  {
    var all := TopicsOf(qs);
    var rest := TopicsOf(qs[1..]);
    var jt :| 0 <= jt < |qs| && qs[jt].topic == Some(t);
    var ju :| 0 <= ju < |qs| && qs[ju].topic == Some(u);
    if Truthy(qs[0].topic) && (qs[0].topic.value == t || qs[0].topic.value == u) {
      assert all[0] == qs[0].topic.value;
      if qs[0].topic.value != t {
        assert FirstIndex(all, u) == 0;
      } else {
        assert FirstIndex(all, t) == 0;
      }
    } else {
      assert TopicIs(t)(qs[0]) == false && TopicIs(u)(qs[0]) == false;
      if Truthy(qs[0].topic) {
        assert all == [qs[0].topic.value] + rest;
        assert all[1..] == rest;
      } else {
        assert all == rest;
      }
      assert t in rest && u in rest;
      TopicsOfOrder(qs[1..], t, u);
    }
  }

  /** `getAllTopics` lists the topics in the order of the first question using each. */
  lemma GetAllTopicsFirstUse(bank: QuestionBank, level: Level)
    ensures var qs := GetQuestionsForLevel(bank, level);
      var r := GetAllTopics(bank, level);
      && (forall i :: 0 <= i < |r| ==> IndexWhere(qs, TopicIs(r[i])).Some?)
      && (forall i, j :: 0 <= i < j < |r| ==>
            IndexWhere(qs, TopicIs(r[i])).value < IndexWhere(qs, TopicIs(r[j])).value)
  {
    var qs := GetQuestionsForLevel(bank, level);
    var all := TopicsOf(qs);
    var r := GetAllTopics(bank, level);
    assert r == Dedup(all);
    forall i | 0 <= i < |r| ensures IndexWhere(qs, TopicIs(r[i])).Some? {
      TopicsOfOrder(qs, r[i], r[i]);
    }
    forall i, j | 0 <= i < j < |r|
      ensures IndexWhere(qs, TopicIs(r[i])).value < IndexWhere(qs, TopicIs(r[j])).value
    {
      TopicsOfOrder(qs, r[i], r[j]);
    }
  }

  /** A level whose questions carry no topic has no questions for any topic and no topics. */
  lemma NoTopicsNoMatches(bank: QuestionBank, level: Level, topic: string)
    requires forall i :: 0 <= i < |GetQuestionsForLevel(bank, level)| ==> GetQuestionsForLevel(bank, level)[i].topic.None?
    ensures GetQuestionsByTopic(bank, level, topic) == []
    ensures GetAllTopics(bank, level) == []
  {
    FilterNone(GetQuestionsForLevel(bank, level), TopicIs(topic));
    TopicsOfNone(GetQuestionsForLevel(bank, level));
  }

  lemma {:induction false} TopicsOfNone(qs: seq<Question>)
    requires forall i :: 0 <= i < |qs| ==> qs[i].topic.None?
    ensures TopicsOf(qs) == []
  {
    if |qs| > 0 {
      TopicsOfNone(qs[1..]);
    }
  }

  /** The built-in questions carry no topic, so no topic has questions and the topic lists are empty. */
  lemma InitialBankHasNoTopics(texts: seq<(string, string)>, level: Level, topic: string)
    ensures GetQuestionsByTopic(BuiltInBank(texts), level, topic) == []
    ensures GetAllTopics(BuiltInBank(texts), level) == []
  {
    InitialQuestionFields(texts, level);
    NoTopicsNoMatches(BuiltInBank(texts), level, topic);
  }

  // Merging parsed questions.

  /** `{ ...existing, ...incoming }`: every property the incoming question has wins;
      the existing question keeps the ones the incoming question lacks. */
  function MergeFields(existing: Question, incoming: Question): (r: Question)
    ensures (r.id, r.kind, r.text, r.level) == (incoming.id, incoming.kind, incoming.text, incoming.level)
    ensures incoming.description.Some? ==> r.description == incoming.description
    ensures incoming.description.None? ==> r.description == existing.description
    ensures incoming.sampleAnswer.Some? ==> r.sampleAnswer == incoming.sampleAnswer
    ensures incoming.sampleAnswer.None? ==> r.sampleAnswer == existing.sampleAnswer
    ensures incoming.timeLimit.Some? ==> r.timeLimit == incoming.timeLimit
    ensures incoming.timeLimit.None? ==> r.timeLimit == existing.timeLimit
    ensures incoming.topic.Some? ==> r.topic == incoming.topic
    ensures incoming.topic.None? ==> r.topic == existing.topic
    ensures incoming.usefulExpressions.Some? ==> r.usefulExpressions == incoming.usefulExpressions
    ensures incoming.usefulExpressions.None? ==> r.usefulExpressions == existing.usefulExpressions
    ensures incoming.audioPath.Some? ==> r.audioPath == incoming.audioPath
    ensures incoming.audioPath.None? ==> r.audioPath == existing.audioPath
    ensures incoming.sampleAnswerSource.Some? ==> r.sampleAnswerSource == incoming.sampleAnswerSource
    ensures incoming.sampleAnswerSource.None? ==> r.sampleAnswerSource == existing.sampleAnswerSource
    ensures incoming.sampleAnswerQuality.Some? ==> r.sampleAnswerQuality == incoming.sampleAnswerQuality
    ensures incoming.sampleAnswerQuality.None? ==> r.sampleAnswerQuality == existing.sampleAnswerQuality
  {
    Question(incoming.id, incoming.kind, incoming.text,
             incoming.description.Or(existing.description),
             incoming.timeLimit.Or(existing.timeLimit),
             incoming.level,
             incoming.topic.Or(existing.topic),
             incoming.sampleAnswer.Or(existing.sampleAnswer),
             incoming.usefulExpressions.Or(existing.usefulExpressions),
             incoming.audioPath.Or(existing.audioPath),
             incoming.sampleAnswerSource.Or(existing.sampleAnswerSource),
             incoming.sampleAnswerQuality.Or(existing.sampleAnswerQuality))
  }

  /** Merging in the same question again changes nothing, and merging a question
      over itself gives it back. */
  lemma MergeFieldsIdempotent(existing: Question, incoming: Question)
    ensures MergeFields(MergeFields(existing, incoming), incoming) == MergeFields(existing, incoming)
    ensures MergeFields(incoming, incoming) == incoming
  {
  }

  /** The position of the question with id `id` in `qs`, if any. */
  function IdIndex(qs: seq<Question>, id: string): (r: Option<nat>)
    ensures r.Some? ==> r.value < |qs| && qs[r.value].id == id
    ensures r.Some? ==> forall j :: 0 <= j < r.value ==> qs[j].id != id
    ensures r.None? <==> forall j :: 0 <= j < |qs| ==> qs[j].id != id
  {
    IndexWhere(qs, (q: Question) => q.id == id)
  }

  /** One step of `mergeHackersQuestions`: the first question of the incoming
      question's level with the same id is merged with it, otherwise it is appended. */
  function Upsert(bank: QuestionBank, hq: Question): (r: QuestionBank)
    ensures GetQuestionsForLevel(r, OtherLevel(hq.level)) == GetQuestionsForLevel(bank, OtherLevel(hq.level))
    ensures var before := GetQuestionsForLevel(bank, hq.level);
      var after := GetQuestionsForLevel(r, hq.level);
      && |before| <= |after| <= |before| + 1
      && (|after| == |before| <==> exists j :: 0 <= j < |before| && before[j].id == hq.id)
      && (forall j :: 0 <= j < |before| ==> after[j].id == before[j].id)
      && (exists j :: 0 <= j < |after| && after[j].id == hq.id)
    ensures var before := GetQuestionsForLevel(bank, hq.level);
      var after := GetQuestionsForLevel(r, hq.level);
      var i := IdIndex(before, hq.id);
      && (i.Some? ==> |after| == |before| && after[i.value] == MergeFields(before[i.value], hq)
                      && forall j :: 0 <= j < |before| && j != i.value ==> after[j] == before[j])
      && (i.None? ==> after == before + [hq])
  {
    var qs := GetQuestionsForLevel(bank, hq.level);
    match IdIndex(qs, hq.id)
    case Some(i) => WithLevel(bank, hq.level, qs[i := MergeFields(qs[i], hq)])
    case None =>
      var after := qs + [hq];
      assert after[|qs|].id == hq.id;
      WithLevel(bank, hq.level, after)
  }

  /** Upserting the same question twice is upserting it once. */
  lemma UpsertIdempotent(bank: QuestionBank, hq: Question)
    ensures Upsert(Upsert(bank, hq), hq) == Upsert(bank, hq)
  {
    var qs := GetQuestionsForLevel(bank, hq.level);
    var once := Upsert(bank, hq);
    var qs1 := GetQuestionsForLevel(once, hq.level);
    match IdIndex(qs, hq.id)
    case Some(i) =>
      assert qs1 == qs[i := MergeFields(qs[i], hq)];
      assert IdIndex(qs1, hq.id) == Some(i);
      MergeFieldsIdempotent(qs[i], hq);
      assert qs1[i := MergeFields(qs1[i], hq)] == qs1;
    case None =>
      assert qs1 == qs + [hq];
      assert IdIndex(qs1, hq.id) == Some(|qs|);
      MergeFieldsIdempotent(hq, hq);
      assert qs1[|qs| := MergeFields(qs1[|qs|], hq)] == qs1;
  }

  /** Upserting keeps a list free of repeated ids. */
  lemma UpsertKeepsIdsDistinct(bank: QuestionBank, hq: Question, level: Level)
    requires NoDup(Ids(GetQuestionsForLevel(bank, level)))
    ensures NoDup(Ids(GetQuestionsForLevel(Upsert(bank, hq), level)))
  {
    if level == hq.level {
      var before := GetQuestionsForLevel(bank, level);
      var after := GetQuestionsForLevel(Upsert(bank, hq), level);
      forall i, j | 0 <= i < j < |after| ensures after[i].id != after[j].id {
        if j < |before| {
          assert Ids(before)[i] != Ids(before)[j];
        }
      }
    } else {
      assert level == OtherLevel(hq.level);
    }
  }

  /** `mergeHackersQuestions`: the incoming questions upserted one after the other. */
  function MergeHackersQuestions(bank: QuestionBank, hqs: seq<Question>): (r: QuestionBank)
    ensures |hqs| == 0 ==> r == bank
    decreases |hqs|
  {
    if |hqs| == 0 then bank else MergeHackersQuestions(Upsert(bank, hqs[0]), hqs[1..])
  }

  /** Merging one question is upserting it; with `MergeAppend` this determines every merge. */
  lemma MergeOne(bank: QuestionBank, hq: Question)
    ensures MergeHackersQuestions(bank, [hq]) == Upsert(bank, hq)
  {
    assert [hq][1..] == [];
  }

  /** A question that no incoming question of its level names is left exactly as it was. */
  lemma {:induction false} MergeKeepsUntouched(bank: QuestionBank, hqs: seq<Question>, level: Level, j: nat)
    requires j < |GetQuestionsForLevel(bank, level)|
    requires forall k :: 0 <= k < |hqs| && hqs[k].level == level ==> hqs[k].id != GetQuestionsForLevel(bank, level)[j].id
    ensures var after := GetQuestionsForLevel(MergeHackersQuestions(bank, hqs), level);
      j < |after| && after[j] == GetQuestionsForLevel(bank, level)[j]
    decreases |hqs|
  {
    if |hqs| > 0 {
      var before := GetQuestionsForLevel(bank, level);
      var next := Upsert(bank, hqs[0]);
      if level != hqs[0].level {
        assert level == OtherLevel(hqs[0].level);
      }
      assert GetQuestionsForLevel(next, level)[j] == before[j];
      forall k | 0 <= k < |hqs[1..]| && hqs[1..][k].level == level
        ensures hqs[1..][k].id != GetQuestionsForLevel(next, level)[j].id
      {
        assert hqs[1..][k] == hqs[k + 1];
      }
      MergeKeepsUntouched(next, hqs[1..], level, j);
    }
  }

  /** Merging two batches is merging the first and then the second. */
  lemma {:induction false} MergeAppend(bank: QuestionBank, a: seq<Question>, b: seq<Question>)
    ensures MergeHackersQuestions(bank, a + b) == MergeHackersQuestions(MergeHackersQuestions(bank, a), b)
    decreases |a|
  {
    if |a| == 0 {
      assert a + b == b;
    } else {
      assert (a + b)[0] == a[0];
      assert (a + b)[1..] == a[1..] + b;
      MergeAppend(Upsert(bank, a[0]), a[1..], b);
    }
  }

  /** Merging never drops a question: every list keeps its ids at their places
      and can only grow. */
  lemma {:induction false} MergeKeepsIds(bank: QuestionBank, hqs: seq<Question>, level: Level)
    ensures var before := GetQuestionsForLevel(bank, level);
      var after := GetQuestionsForLevel(MergeHackersQuestions(bank, hqs), level);
      |before| <= |after| && forall j :: 0 <= j < |before| ==> after[j].id == before[j].id
    decreases |hqs|
  {
    if |hqs| > 0 {
      var next := Upsert(bank, hqs[0]);
      if level != hqs[0].level {
        assert level == OtherLevel(hqs[0].level);
      }
      MergeKeepsIds(next, hqs[1..], level);
    }
  }

  /** An id present at position `j` of a level's list stays there through a merge. */
  lemma MergeKeepsId(bank: QuestionBank, hqs: seq<Question>, level: Level, j: nat, id: string)
    requires j < |GetQuestionsForLevel(bank, level)| && GetQuestionsForLevel(bank, level)[j].id == id
    ensures var after := GetQuestionsForLevel(MergeHackersQuestions(bank, hqs), level);
      j < |after| && after[j].id == id
  {
    MergeKeepsIds(bank, hqs, level);
  }

  /** After a merge, every incoming question's id is in the list of its level. */
  lemma {:induction false} MergeAddsIds(bank: QuestionBank, hqs: seq<Question>, k: nat)
    requires k < |hqs|
    ensures var after := GetQuestionsForLevel(MergeHackersQuestions(bank, hqs), hqs[k].level);
      exists j :: 0 <= j < |after| && after[j].id == hqs[k].id
    decreases |hqs|
  {
    var next := Upsert(bank, hqs[0]);
    assert MergeHackersQuestions(bank, hqs) == MergeHackersQuestions(next, hqs[1..]);
    if k == 0 {
      var qs := GetQuestionsForLevel(next, hqs[0].level);
      var j :| 0 <= j < |qs| && qs[j].id == hqs[0].id;
      MergeKeepsId(next, hqs[1..], hqs[0].level, j, hqs[0].id);
    } else {
      assert hqs[1..][k - 1] == hqs[k];
      MergeAddsIds(next, hqs[1..], k - 1);
    }
  }

  /** Merging keeps every list free of repeated ids. */
  lemma {:induction false} MergeKeepsIdsDistinct(bank: QuestionBank, hqs: seq<Question>, level: Level)
    requires NoDup(Ids(GetQuestionsForLevel(bank, level)))
    ensures NoDup(Ids(GetQuestionsForLevel(MergeHackersQuestions(bank, hqs), level)))
    decreases |hqs|
  {
    if |hqs| > 0 {
      UpsertKeepsIdsDistinct(bank, hqs[0], level);
      MergeKeepsIdsDistinct(Upsert(bank, hqs[0]), hqs[1..], level);
    }
  }

  /** The ids of a list, as a set. */
  function IdSet(qs: seq<Question>): set<string> {
    set i | 0 <= i < |qs| :: qs[i].id
  }

  /** The ids of the incoming questions of `level`. */
  function Incoming(hqs: seq<Question>, level: Level): set<string> {
    set i | 0 <= i < |hqs| && hqs[i].level == level :: hqs[i].id
  }

  /** The id an upsert of `hq` adds to the list of `level`. */
  function LevelAdds(hq: Question, level: Level): (r: set<string>)
    ensures |r| <= 1
  {
    if hq.level == level then {hq.id} else {}
  }

  /** `after` holds the ids of `before` and the incoming ids `inc`, and is longer by
      the number of incoming ids `before` did not hold. */
  predicate Grows(before: seq<Question>, after: seq<Question>, inc: set<string>) {
    && IdSet(after) == IdSet(before) + inc
    && |after| == |before| + |inc - IdSet(before)|
  }

  /** A list that keeps the ids of `before` in place, holds `id`, and has one more
      element exactly when `id` is new, grows by `id`. */
  lemma GrowsByOne(before: seq<Question>, after: seq<Question>, id: string)
    requires |before| <= |after| <= |before| + 1
    requires |after| == |before| <==> exists j :: 0 <= j < |before| && before[j].id == id
    requires forall j :: 0 <= j < |before| ==> after[j].id == before[j].id
    requires exists j :: 0 <= j < |after| && after[j].id == id
    ensures Grows(before, after, {id})
  {
    forall x | x in IdSet(after) ensures x in IdSet(before) + {id} {
      var i :| 0 <= i < |after| && after[i].id == x;
      if i < |before| {
        assert x == before[i].id;
      } else {
        var j :| 0 <= j < |after| && after[j].id == id;
        assert j == i;
      }
    }
    forall x | x in IdSet(before) + {id} ensures x in IdSet(after) {
      if x != id {
        var i :| 0 <= i < |before| && before[i].id == x;
        assert after[i].id == x;
      }
    }
    if id in IdSet(before) {
      assert {id} - IdSet(before) == {};
    } else {
      assert {id} - IdSet(before) == {id};
    }
  }

  /** One upsert adds its id to the list of its level, growing it exactly when the
      id was new. */
  lemma UpsertGrowth(bank: QuestionBank, hq: Question, level: Level)
    ensures Grows(GetQuestionsForLevel(bank, level), GetQuestionsForLevel(Upsert(bank, hq), level), LevelAdds(hq, level))
  {
    var before := GetQuestionsForLevel(bank, level);
    if hq.level == level {
      GrowsByOne(before, GetQuestionsForLevel(Upsert(bank, hq), level), hq.id);
    } else {
      assert level == OtherLevel(hq.level);
      assert LevelAdds(hq, level) - IdSet(before) == {};
    }
  }

  lemma IncomingStep(hqs: seq<Question>, level: Level)
    requires |hqs| > 0
    ensures Incoming(hqs, level) == Incoming(hqs[1..], level) + LevelAdds(hqs[0], level)
  {
    var rest := hqs[1..];
    forall x | x in Incoming(hqs, level)
      ensures x in Incoming(rest, level) + LevelAdds(hqs[0], level)
    {
      var i :| 0 <= i < |hqs| && hqs[i].level == level && hqs[i].id == x;
      if i > 0 {
        assert rest[i - 1] == hqs[i];
      }
    }
    forall x | x in Incoming(rest, level) ensures x in Incoming(hqs, level) {
      var i :| 0 <= i < |rest| && rest[i].level == level && rest[i].id == x;
      assert hqs[i + 1] == rest[i];
    }
  }

  /** A merge adds exactly the incoming ids to each level's list, which grows by the
      number of distinct incoming ids it did not hold before. */
  lemma {:induction false} MergeGrowth(bank: QuestionBank, hqs: seq<Question>, level: Level)
    ensures Grows(GetQuestionsForLevel(bank, level), GetQuestionsForLevel(MergeHackersQuestions(bank, hqs), level),
                  Incoming(hqs, level))
    decreases |hqs|
  {
    var before := GetQuestionsForLevel(bank, level);
    if |hqs| == 0 {
      assert Incoming(hqs, level) == {};
      assert Incoming(hqs, level) - IdSet(before) == {};
    } else {
      var next := Upsert(bank, hqs[0]);
      assert MergeHackersQuestions(bank, hqs) == MergeHackersQuestions(next, hqs[1..]);
      UpsertGrowth(bank, hqs[0], level);
      IncomingStep(hqs, level);
      MergeGrowth(next, hqs[1..], level);
      var mid := GetQuestionsForLevel(next, level);
      var after := GetQuestionsForLevel(MergeHackersQuestions(next, hqs[1..]), level);
      GrowthCompose(IdSet(before), IdSet(mid), IdSet(after), |before|, |mid|, |after|,
                    LevelAdds(hqs[0], level), Incoming(hqs[1..], level), hqs[0].id);
    }
  }

  /** Growth composes: holding `h1` after adding `added` (at most the one id `x`)
      to `h0`, then `h2` after adding `rest`, is adding both, and the lengths add up. */
  lemma GrowthCompose(h0: set<string>, h1: set<string>, h2: set<string>, n0: int, n1: int, n2: int,
                      added: set<string>, rest: set<string>, x: string)
    requires added == {} || added == {x}
    requires h1 == h0 + added && n1 == n0 + |added - h0|
    requires h2 == h1 + rest && n2 == n1 + |rest - h1|
    ensures h2 == h0 + (rest + added) && n2 == n0 + |(rest + added) - h0|
  {
    if added == {} {
      assert rest + added == rest;
    } else {
      DiffAddOne(rest, h0, h1, x);
    }
  }

  /** The set arithmetic of one merge step that adds `x`. */
  lemma DiffAddOne(rest: set<string>, held: set<string>, held1: set<string>, x: string)
    requires held1 == held + {x}
    ensures |(rest + {x}) - held| == |rest - held1| + |{x} - held|
  {
    if x in held {
      assert held1 == held;
      assert (rest + {x}) - held == rest - held;
      assert {x} - held == {};
    } else {
      assert (rest + {x}) - held == (rest - held1) + {x};
      assert x !in rest - held1;
      assert {x} - held == {x};
    }
  }
}

=== FILE: patterns.dfy ===
/** The marker patterns of lib/pdf-parser.ts and a scanner that finds their
    matches the way `String.prototype.matchAll` does with the flags `gis`.

    Every marker pattern of the parser has the shape `HEAD\s*(.+?)(?=STOP|...|$)`,
    where HEAD is a sequence of the elements below. In each HEAD, every repeated
    element (`\s*`, `\s+`, `\d+`, `s?`) is followed by an element that cannot match
    the character that ends the repetition (white space is followed by a digit or a
    letter, digits by `:` or `.`, the optional `s` by `:` or `.`), so a greedy
    left-to-right match makes the only choice the backtracking engine can succeed
    with. What follows HEAD is modelled exactly: the greedy `\s*`, the lazy body of
    at least one character that stops at the first position where a stop pattern
    or the end of the text matches, and the single backtracking step the engine
    takes when the white space after HEAD runs to the end of the text. */
module Patterns {
  import opened Wrappers
  import opened Strings

  /** One element of a marker pattern. */
  datatype Elem =
    | Lit(c: char)      // one character; ASCII letters compare without case (the `i` flag)
    | AnySpaces         // `\s*`
    | SomeSpaces        // `\s+`
    | Digits            // `\d+`
    | Delim             // `[:\.]`
    | OptLit(c: char)   // `c?`

  type Pattern = seq<Elem>

  /** The pattern matching the characters of `w` in turn. */
  function Word(w: string): (p: Pattern)
    ensures |p| == |w|
    ensures forall k :: 0 <= k < |w| ==> p[k] == Lit(w[k])
  {
    seq(|w|, k requires 0 <= k < |w| => Lit(w[k]))
  }

  predicate IsAsciiLetter(c: char) {
    'a' <= c <= 'z' || 'A' <= c <= 'Z'
  }

  /** Character comparison under the `i` flag without the `u` flag: canonicalisation
      upper-cases, but never maps a non-ASCII character onto an ASCII one, so only
      ASCII letters are folded. */
  predicate CharMatches(c: char, p: char) {
    c == p || (IsAsciiLetter(c) && IsAsciiLetter(p) && LowerChar(c) == LowerChar(p))
  }

  /** Index of the first character at or after `i` that is not a decimal digit. */
  function SkipDigits(s: string, i: nat): (j: nat)
    requires i <= |s|
    ensures i <= j <= |s|
    ensures forall k :: i <= k < j ==> IsDigit(s[k])
    ensures j < |s| ==> !IsDigit(s[j])
    decreases |s| - i
  {
    if i < |s| && IsDigit(s[i]) then SkipDigits(s, i + 1) else i
  }

  /** The end of the match of `p` at position `i` of `t`, if `p` matches there. */
  function MatchAt(t: string, i: nat, p: Pattern): (r: Option<nat>)
    requires i <= |t|
    ensures r.Some? ==> i <= r.value <= |t|
    ensures r.Some? && |p| > 0 && p[0].Lit? ==> i < r.value
    decreases |p|
  {
    if |p| == 0 then Some(i)
    else match p[0]
      case Lit(c) =>
        if i < |t| && CharMatches(t[i], c) then MatchAt(t, i + 1, p[1..]) else None
      case AnySpaces =>
        MatchAt(t, SkipSpaces(t, i), p[1..])
      case SomeSpaces =>
        var j := SkipSpaces(t, i);
        if j > i then MatchAt(t, j, p[1..]) else None
      case Digits =>
        var j := SkipDigits(t, i);
        if j > i then MatchAt(t, j, p[1..]) else None
      case Delim =>
        if i < |t| && (t[i] == ':' || t[i] == '.') then MatchAt(t, i + 1, p[1..]) else None
      case OptLit(c) =>
        if i < |t| && CharMatches(t[i], c) then MatchAt(t, i + 1, p[1..]) else MatchAt(t, i, p[1..])
  }

  /** Matching a concatenation is matching its parts in turn. */
  lemma {:induction false} MatchAtAppend(t: string, i: nat, a: Pattern, b: Pattern)
    requires i <= |t|
    ensures MatchAt(t, i, a + b) ==
      match MatchAt(t, i, a)
      case None => None
      case Some(k) => MatchAt(t, k, b)
    decreases |a|
  {
    if |a| == 0 {
      assert a + b == b;
    } else {
      assert (a + b)[0] == a[0];
      assert (a + b)[1..] == a[1..] + b;
      match a[0]
      case Lit(c) =>
        if i < |t| && CharMatches(t[i], c) { MatchAtAppend(t, i + 1, a[1..], b); }
      case AnySpaces =>
        MatchAtAppend(t, SkipSpaces(t, i), a[1..], b);
      case SomeSpaces =>
        var j := SkipSpaces(t, i);
        if j > i { MatchAtAppend(t, j, a[1..], b); }
      case Digits =>
        var j := SkipDigits(t, i);
        if j > i { MatchAtAppend(t, j, a[1..], b); }
      case Delim =>
        if i < |t| && (t[i] == ':' || t[i] == '.') { MatchAtAppend(t, i + 1, a[1..], b); }
      case OptLit(c) =>
        if i < |t| && CharMatches(t[i], c) { MatchAtAppend(t, i + 1, a[1..], b); }
        else { MatchAtAppend(t, i, a[1..], b); }
    }
  }

  /** One marker family: the marker in front of the captured body, and the
      alternatives of the lookahead that ends the body (the end of the text
      always ends it). */
  datatype Family = Family(head: Pattern, stops: seq<Pattern>)

  /** Every marker starts with a literal character, so a match consumes at least one character. */
  predicate ValidFamily(fam: Family) {
    |fam.head| > 0 && fam.head[0].Lit?
  }

  /** The lookahead `(?=STOP|...|$)` holds at position `e`. */
  predicate StopsAt(t: string, e: nat, stops: seq<Pattern>)
    requires e <= |t|
  {
    e == |t| || exists k :: 0 <= k < |stops| && MatchAt(t, e, stops[k]).Some?
  }

  /** The whole marker pattern matches at position `i`: the head matches and at
      least one character follows it for the body. */
  predicate HeadAt(t: string, fam: Family, i: nat) {
    i < |t| && MatchAt(t, i, fam.head).Some? && MatchAt(t, i, fam.head).value < |t|
  }

  /** The marker pattern matches nowhere in `[lo, hi)`. */
  predicate NoHeadIn(t: string, fam: Family, lo: nat, hi: nat) {
    forall q :: lo <= q < hi ==> !HeadAt(t, fam, q)
  }

  /** The end of the lazy body `(.+?)`: the first position from `e` on where the lookahead holds. */
  function BodyEnd(t: string, stops: seq<Pattern>, e: nat): (r: nat)
    requires e <= |t|
    ensures e <= r <= |t| && StopsAt(t, r, stops)
    ensures forall k :: e <= k < r ==> !StopsAt(t, k, stops)
    decreases |t| - e
  {
    if StopsAt(t, e, stops) then e else BodyEnd(t, stops, e + 1)
  }

  /** One match: where the marker starts, and where the captured body starts and ends. */
  datatype Span = Span(start: nat, body: nat, end: nat)

  /** The match at `i`, given that the marker pattern matches there. */
  function MatchFrom(t: string, fam: Family, i: nat): (s: Span)
    requires ValidFamily(fam) && HeadAt(t, fam, i)
    ensures s.start == i < s.body < s.end <= |t|
    ensures StopsAt(t, s.end, fam.stops)
    ensures forall k :: s.body < k < s.end ==> !StopsAt(t, k, fam.stops)
  {
    var h := MatchAt(t, i, fam.head).value;
    var w := SkipSpaces(t, h);
    // `\s*` is greedy; only when it reaches the end of the text does the engine
    // give back one white-space character, which then forms the body.
    var b := if w < |t| then w else w - 1;
    Span(i, b, BodyEnd(t, fam.stops, b + 1))
  }

  /** `s` is the match the pattern makes at `s.start`. */
  predicate IsMatch(t: string, fam: Family, s: Span)
    requires ValidFamily(fam)
  {
    HeadAt(t, fam, s.start) && s == MatchFrom(t, fam, s.start)
  }

  /** The next match at or after `p`: the leftmost position where the pattern matches. */
  function NextMatch(t: string, fam: Family, p: nat): (r: Option<Span>)
    requires ValidFamily(fam) && p <= |t|
    ensures r.Some? ==> p <= r.value.start && IsMatch(t, fam, r.value)
    ensures r.Some? ==> NoHeadIn(t, fam, p, r.value.start)
    ensures r.None? ==> NoHeadIn(t, fam, p, |t|)
    decreases |t| - p
  {
    if p == |t| then None
    else if HeadAt(t, fam, p) then Some(MatchFrom(t, fam, p))
    else NextMatch(t, fam, p + 1)
  }

  /** The spans of all matches from `p` on, as `matchAll` yields them: each match is the
      leftmost one starting at or after the end of the previous one. */
  function Spans(t: string, fam: Family, p: nat): (r: seq<Span>)
    requires ValidFamily(fam) && p <= |t|
    ensures forall k :: 0 <= k < |r| ==> IsMatch(t, fam, r[k])
    ensures |r| > 0 ==> p <= r[0].start
    ensures forall k :: 0 < k < |r| ==> r[k - 1].end <= r[k].start
    decreases |t| - p
  {
    match NextMatch(t, fam, p)
    case None => []
    case Some(s) =>
      var rest := Spans(t, fam, s.end);
      assert forall k :: 0 < k < |rest| + 1 ==> ([s] + rest)[k] == rest[k - 1];
      [s] + rest
  }

  /** The scan misses no match: the pattern matches nowhere before the first span,
      between two spans, or after the last one. */
  lemma {:induction false} SpansComplete(t: string, fam: Family, p: nat)
    requires ValidFamily(fam) && p <= |t|
    ensures var r := Spans(t, fam, p);
      && (|r| == 0 ==> NoHeadIn(t, fam, p, |t|))
      && (|r| > 0 ==> NoHeadIn(t, fam, p, r[0].start))
      && (forall k :: 0 < k < |r| ==> NoHeadIn(t, fam, r[k - 1].end, r[k].start))
      && (|r| > 0 ==> NoHeadIn(t, fam, r[|r| - 1].end, |t|))
    decreases |t| - p
  {
    match NextMatch(t, fam, p)
    case None =>
    case Some(s) =>
      SpansComplete(t, fam, s.end);
      var rest := Spans(t, fam, s.end);
      var r := Spans(t, fam, p);
      assert r == [s] + rest;
      assert r[0] == s;
      forall k | 0 < k < |r|
        ensures NoHeadIn(t, fam, r[k - 1].end, r[k].start)
      {
        assert r[k] == rest[k - 1];
        if k > 1 {
          assert r[k - 1] == rest[k - 2];
        }
      }
      if |rest| > 0 {
        assert r[|r| - 1] == rest[|rest| - 1];
      }
  }

  /** The captured bodies (`match[1]`) of all matches in `t`, in text order. */
  function Bodies(t: string, fam: Family): (r: seq<string>)
    requires ValidFamily(fam)
    ensures |r| == |Spans(t, fam, 0)|
    ensures forall k :: 0 <= k < |r| ==>
      var s := Spans(t, fam, 0)[k]; 0 < s.body < s.end <= |t| && r[k] == t[s.body..s.end]
  {
    var spans := Spans(t, fam, 0);
    seq(|spans|, k requires 0 <= k < |spans| => t[spans[k].body..spans[k].end])
  }

  // The marker families of the parser.

  /** `Q\d+` */
  const QNumber: Pattern := [Lit('Q'), Digits]
  /** `Q\d+[:\.]` */
  const QMarker: Pattern := QNumber + [Delim]
  /** `Question\s+\d+[:\.]` */
  const QuestionMarker: Pattern := Word("Question") + [SomeSpaces, Digits, Delim]
  /** `질문\s*\d+[:\.]` */
  const QuestionKoMarker: Pattern := Word("질문") + [AnySpaces, Digits, Delim]
  /** `Sample\s+Answer\s*\d+[:\.]` */
  const SampleAnswerMarker: Pattern := Word("Sample") + [SomeSpaces] + Word("Answer") + [AnySpaces, Digits, Delim]
  /** `모범\s*답안\s*\d+[:\.]` */
  const ModelAnswerMarker: Pattern := Word("모범") + [AnySpaces] + Word("답안") + [AnySpaces, Digits, Delim]
  /** `Answer\s+\d+[:\.]` */
  const AnswerMarker: Pattern := Word("Answer") + [SomeSpaces, Digits, Delim]
  /** `Useful\s+Expressions?[:\.]` */
  const UsefulExpressionsMarker: Pattern := Word("Useful") + [SomeSpaces] + Word("Expression") + [OptLit('s'), Delim]
  /** `유용한\s*표현[:\.]` */
  const UsefulExpressionsKoMarker: Pattern := Word("유용한") + [AnySpaces] + Word("표현") + [Delim]
  /** `표현[:\.]` */
  const ExpressionsKoMarker: Pattern := Word("표현") + [Delim]

  /** The three question patterns, in the order the parser applies them. */
  const QuestionFamilies: seq<Family> := [
    Family(QMarker, [QMarker, Word("Sample"), Word("모범"), Word("답안")]),
    Family(QuestionMarker, [QuestionMarker, Word("Sample"), Word("모범"), Word("답안")]),
    Family(QuestionKoMarker, [QuestionKoMarker, Word("Sample"), Word("모범"), Word("답안")])
  ]

  /** The three sample-answer patterns, in the order the parser applies them. */
  const AnswerFamilies: seq<Family> := [
    Family(SampleAnswerMarker, [SampleAnswerMarker, QNumber]),
    Family(ModelAnswerMarker, [ModelAnswerMarker, QNumber]),
    Family(AnswerMarker, [AnswerMarker, QNumber])
  ]

  /** The three useful-expression patterns, in the order the parser applies them. */
  const ExpressionFamilies: seq<Family> := [
    Family(UsefulExpressionsMarker, [QNumber, Word("Sample"), Word("모범")]),
    Family(UsefulExpressionsKoMarker, [QNumber, Word("Sample"), Word("모범")]),
    Family(ExpressionsKoMarker, [QNumber, Word("Sample"), Word("모범")])
  ]

  lemma QuestionFamiliesValid()
    ensures forall k :: 0 <= k < |QuestionFamilies| ==> ValidFamily(QuestionFamilies[k])
  {
    assert Word("Question")[0] == Lit('Q');
    assert Word("질문")[0] == Lit('질');
  }

  lemma AnswerFamiliesValid()
    ensures forall k :: 0 <= k < |AnswerFamilies| ==> ValidFamily(AnswerFamilies[k])
  {
    assert Word("Sample")[0] == Lit('S');
    assert Word("모범")[0] == Lit('모');
    assert Word("Answer")[0] == Lit('A');
  }

  lemma ExpressionFamiliesValid()
    ensures forall k :: 0 <= k < |ExpressionFamilies| ==> ValidFamily(ExpressionFamilies[k])
  {
    assert Word("Useful")[0] == Lit('U');
    assert Word("유용한")[0] == Lit('유');
    assert Word("표현")[0] == Lit('표');
  }

  /** The captured bodies of every family in turn: all matches of the first
      pattern, then all of the second, then all of the third. */
  function AllBodies(t: string, fams: seq<Family>): (r: seq<string>)
    requires forall k :: 0 <= k < |fams| ==> ValidFamily(fams[k])
    ensures |fams| > 0 ==> r == Bodies(t, fams[0]) + AllBodies(t, fams[1..])
  {
    if |fams| == 0 then [] else Bodies(t, fams[0]) + AllBodies(t, fams[1..])
  }

  /** The bare `Answer\s+\d+[:\.]` marker also matches inside every
      `Sample\s+Answer\s*\d+[:\.]` marker that has white space before its number,
      and ends at the same place, so such an answer is captured by both families. */
  lemma SampleAnswerMarkerIsAnswerMarker(t: string, i: nat, j: nat)
    requires i <= |t|
    requires MatchAt(t, i, SampleAnswerMarker).Some?
    requires MatchAt(t, i, Word("Sample") + [SomeSpaces]) == Some(j)
    requires j + 6 < |t| && IsSpace(t[j + 6])
    ensures MatchAt(t, j, AnswerMarker) == MatchAt(t, i, SampleAnswerMarker)
  {
    var tail := [AnySpaces, Digits, Delim];
    assert SampleAnswerMarker == (Word("Sample") + [SomeSpaces]) + (Word("Answer") + tail);
    MatchAtAppend(t, i, Word("Sample") + [SomeSpaces], Word("Answer") + tail);
    MatchAtAppend(t, j, Word("Answer"), tail);
    MatchAtAppend(t, j, Word("Answer"), [SomeSpaces, Digits, Delim]);
    var k := MatchAt(t, j, Word("Answer")).value;
    WordMatchLength(t, j, "Answer");
    assert k == j + 6;
    var w := SkipSpaces(t, k);
    assert w > k;
    assert MatchAt(t, k, tail) == MatchAt(t, w, [Digits, Delim]);
    assert MatchAt(t, k, [SomeSpaces, Digits, Delim]) == MatchAt(t, w, [Digits, Delim]);
  }

  /** A word matches exactly as many characters as it has. */
  lemma {:induction false} WordMatchLength(t: string, i: nat, w: string)
    requires i <= |t|
    requires MatchAt(t, i, Word(w)).Some?
    ensures MatchAt(t, i, Word(w)).value == i + |w|
    decreases |w|
  {
    if |w| > 0 {
      assert Word(w)[1..] == Word(w[1..]);
      WordMatchLength(t, i + 1, w[1..]);
    }
  }

  // The splitting of an expression block: `split(/[•\-\*]\s*|\n+/)`.

  predicate IsBullet(c: char) {
    c == '•' || c == '-' || c == '*'
  }

  predicate IsSeparatorChar(c: char) {
    IsBullet(c) || c == '\n'
  }

  function SkipNewlines(s: string, i: nat): (j: nat)
    requires i <= |s|
    ensures i <= j <= |s|
    decreases |s| - i
  {
    if i < |s| && s[i] == '\n' then SkipNewlines(s, i + 1) else i
  }

  /** The end of the separator match at `q`: a bullet with the white space after it,
      or a run of line feeds. */
  function SeparatorAt(s: string, q: nat): (r: Option<nat>)
    requires q < |s|
    ensures r.Some? <==> IsSeparatorChar(s[q])
    ensures r.Some? ==> q < r.value <= |s|
  {
    if IsBullet(s[q]) then Some(SkipSpaces(s, q + 1))
    else if s[q] == '\n' then Some(SkipNewlines(s, q + 1))
    else None
  }

  predicate HasSeparator(s: string) {
    exists k :: 0 <= k < |s| && IsSeparatorChar(s[k])
  }

  /** The pieces of `s[p..]`, where `s[p..q]` holds no separator. */
  function SplitFrom(s: string, p: nat, q: nat): (r: seq<string>)
    requires p <= q <= |s|
    requires !HasSeparator(s[p..q])
    ensures |r| >= 1
    ensures forall k :: 0 <= k < |r| ==> !HasSeparator(r[k])
    ensures !HasSeparator(s[q..]) ==> r == [s[p..]]
    ensures HasSeparator(s[q..]) ==> |r| >= 2
    decreases |s| - q
  {
    if q == |s| then [s[p..]]
    else match SeparatorAt(s, q)
      case Some(e) =>
        assert s[e..e] == [];
        assert HasSeparator(s[q..]) by { assert s[q..][0] == s[q]; }
        [s[p..q]] + SplitFrom(s, e, e)
      case None =>
        assert s[p..q + 1] == s[p..q] + [s[q]];
        assert s[q..] == [s[q]] + s[q + 1..];
        SplitFrom(s, p, q + 1)
  }

  /** `starts` says where each piece of `r` begins in `s`: every piece is the slice of
      `s` at its start, it is followed by one separator match that ends where the
      next piece starts, and the last piece runs to the end of `s`. */
  ghost predicate CutsAt(s: string, r: seq<string>, starts: seq<nat>) {
    && |starts| == |r| > 0
    && (forall k :: 0 <= k < |r| ==> starts[k] + |r[k]| <= |s| && r[k] == s[starts[k]..starts[k] + |r[k]|])
    && (forall k :: 0 <= k < |r| - 1 ==>
          starts[k] + |r[k]| < |s| && SeparatorAt(s, starts[k] + |r[k]|) == Some(starts[k + 1]))
    && starts[|r| - 1] + |r[|r| - 1]| == |s|
  }

  /** Where each piece of `SplitFrom(s, p, q)` begins in `s`. */
  ghost function SplitStarts(s: string, p: nat, q: nat): seq<nat>
    requires p <= q <= |s|
    decreases |s| - q
  {
    if q == |s| then [p]
    else match SeparatorAt(s, q)
      case Some(e) => [p] + SplitStarts(s, e, e)
      case None => SplitStarts(s, p, q + 1)
  }

  /** The pieces `SplitFrom` yields cut `s[p..]` at its separator matches. */
  lemma {:induction false} SplitFromCuts(s: string, p: nat, q: nat)
    requires p <= q <= |s|
    requires !HasSeparator(s[p..q])
    ensures CutsAt(s, SplitFrom(s, p, q), SplitStarts(s, p, q)) && SplitStarts(s, p, q)[0] == p
    decreases |s| - q
  {
    if q == |s| {
      assert CutsAt(s, SplitFrom(s, p, q), [p]);
    } else if SeparatorAt(s, q).Some? {
      var e := SeparatorAt(s, q).value;
      assert s[e..e] == [];
      SplitFromCuts(s, e, e);
      SplitFromAtSeparator(s, p, q, SplitStarts(s, e, e));
    } else {
      assert s[p..q + 1] == s[p..q] + [s[q]];
      SplitFromCuts(s, p, q + 1);
    }
  }

  /** The step of `SplitFromCuts` at a separator match. */
  lemma SplitFromAtSeparator(s: string, p: nat, q: nat, st: seq<nat>)
    requires p <= q < |s| && !HasSeparator(s[p..q]) && SeparatorAt(s, q).Some?
    requires var e := SeparatorAt(s, q).value; e <= |s| && CutsAt(s, SplitFrom(s, e, e), st) && st[0] == e
    ensures CutsAt(s, SplitFrom(s, p, q), [p] + st)
  {
    var e := SeparatorAt(s, q).value;
    assert s[e..e] == [];
    assert SplitFrom(s, p, q) == [s[p..q]] + SplitFrom(s, e, e);
    CutsCons(s, s[p..q], p, SplitFrom(s, e, e), st);
  }

  /** A piece at `p` that ends at a separator match in front of cut pieces is one more cut piece. */
  lemma CutsCons(s: string, piece: string, p: nat, tail: seq<string>, st: seq<nat>)
    requires p + |piece| < |s| && piece == s[p..p + |piece|]
    requires CutsAt(s, tail, st) && SeparatorAt(s, p + |piece|) == Some(st[0])
    ensures CutsAt(s, [piece] + tail, [p] + st)
  {
    ConsSlices(s, piece, p, tail, st);
    ConsSeparated(s, piece, p, tail, st);
    assert ([piece] + tail)[|tail|] == tail[|tail| - 1] && ([p] + st)[|tail|] == st[|st| - 1];
  }

  /** The slice part of `CutsCons`. */
  lemma ConsSlices(s: string, piece: string, p: nat, tail: seq<string>, st: seq<nat>)
    requires p + |piece| < |s| && piece == s[p..p + |piece|]
    requires |st| == |tail| && forall k :: 0 <= k < |tail| ==> st[k] + |tail[k]| <= |s| && tail[k] == s[st[k]..st[k] + |tail[k]|]
    ensures var r := [piece] + tail; var starts := [p] + st;
      forall k :: 0 <= k < |r| ==> starts[k] + |r[k]| <= |s| && r[k] == s[starts[k]..starts[k] + |r[k]|]
  {
    var r, starts := [piece] + tail, [p] + st;
    forall k | 0 <= k < |r| ensures starts[k] + |r[k]| <= |s| && r[k] == s[starts[k]..starts[k] + |r[k]|] {
      if k > 0 {
        assert r[k] == tail[k - 1] && starts[k] == st[k - 1];
      }
    }
  }

  /** The separator part of `CutsCons`. */
  lemma ConsSeparated(s: string, piece: string, p: nat, tail: seq<string>, st: seq<nat>)
    requires p + |piece| < |s| && |st| == |tail| > 0 && SeparatorAt(s, p + |piece|) == Some(st[0])
    requires forall k :: 0 <= k < |tail| - 1 ==>
      st[k] + |tail[k]| < |s| && SeparatorAt(s, st[k] + |tail[k]|) == Some(st[k + 1])
    ensures var r := [piece] + tail; var starts := [p] + st;
      forall k :: 0 <= k < |r| - 1 ==> starts[k] + |r[k]| < |s| && SeparatorAt(s, starts[k] + |r[k]|) == Some(starts[k + 1])
  {
    var r, starts := [piece] + tail, [p] + st;
    forall k | 0 <= k < |r| - 1
      ensures starts[k] + |r[k]| < |s| && SeparatorAt(s, starts[k] + |r[k]|) == Some(starts[k + 1])
    {
      if k > 0 {
        assert r[k] == tail[k - 1] && starts[k] == st[k - 1] && starts[k + 1] == st[k];
      }
    }
  }

  /** `s.split(/[•\-\*]\s*|\n+/)`: the pieces between successive separator matches,
      in order, from the start of `s` to its end; no piece holds a bullet or a line
      feed, and a string without any is its own single piece. */
  function Split(s: string): (r: seq<string>)
    ensures |r| >= 1
    ensures forall k :: 0 <= k < |r| ==> !HasSeparator(r[k])
    ensures !HasSeparator(s) <==> r == [s]
    ensures exists starts :: CutsAt(s, r, starts) && starts[0] == 0
  {
    SplitFromCuts(s, 0, 0);
    assert CutsAt(s, SplitFrom(s, 0, 0), SplitStarts(s, 0, 0));
    SplitFrom(s, 0, 0)
  }
}

=== FILE: pdf_parser.dfy ===
/** The lecture-PDF parser of lib/pdf-parser.ts: questions, sample answers and
    useful expressions cut out of the extracted text by the marker patterns, joined
    into questions of one topic by position. */
module PdfParser {
  import opened Wrappers
  import opened Strings
  import opened Seqs
  import opened Types
  import opened Patterns
  import opened TopicCategories
  import opened AudioManager

  /** `match[1]?.trim()` for every match of every family. */
  function TrimAll(s: seq<string>): (r: seq<string>)
    ensures |r| == |s|
    ensures forall k :: 0 <= k < |s| ==> r[k] == Trim(s[k])
  {
    seq(|s|, k requires 0 <= k < |s| => Trim(s[k]))
  }

  /** Texts shorter than eleven characters are dropped as noise. */
  predicate LongEnough(s: string) {
    |s| > 10
  }

  // Questions.

  /** The captured bodies of the three question patterns, pattern by pattern. */
  function QuestionBodies(text: string): seq<string> {
    QuestionFamiliesValid();
    AllBodies(text, QuestionFamilies)
  }

  /** The question texts: of the trimmed bodies of the three question patterns,
      exactly those longer than ten characters, in the same order and as often as
      they are captured. */
  function QuestionTexts(text: string): (r: seq<string>)
    ensures forall k :: 0 <= k < |r| ==> IsTrimmed(r[k]) && |r[k]| > 10
    ensures Selects(r, TrimAll(QuestionBodies(text)), LongEnough)
  {
    FilterSelects(TrimAll(QuestionBodies(text)), LongEnough);
    Filter(TrimAll(QuestionBodies(text)), LongEnough)
  }

  /** The kind of a question, inferred from keywords in the order the source tries
      them; the English keywords are matched without regard to ASCII case. */
  function Classify(q: string): (k: QuestionType)
    ensures k == Roleplay <==> Contains(LowerAscii(q), "role") || Contains(q, "역할")
    ensures k == Narration <==> k != Roleplay && (Contains(LowerAscii(q), "describe") || Contains(q, "설명"))
    ensures k == Summary <==> k !in {Roleplay, Narration} && (Contains(LowerAscii(q), "summarize") || Contains(q, "요약"))
    ensures k == Warmup <==> k !in {Roleplay, Narration, Summary} && (Contains(LowerAscii(q), "introduce") || Contains(q, "소개"))
    ensures k == Opinion <==> k !in {Roleplay, Narration, Summary, Warmup}
  {
    var lower := LowerAscii(q);
    if Includes(lower, "role") || Includes(q, "역할") then Roleplay
    else if Includes(lower, "describe") || Includes(q, "설명") then Narration
    else if Includes(lower, "summarize") || Includes(q, "요약") then Summary
    else if Includes(lower, "introduce") || Includes(q, "소개") then Warmup
    else Opinion
  }

  /** A keyword written with capitals is still recognised: a question mentioning
      "Role" is a role-play. */
  lemma CapitalisedRoleIsRoleplay(q: string, i: nat)
    requires OccursAt(q, "Role", i)
    ensures Classify(q) == Roleplay
  {
    var lower := LowerAscii(q);
    assert lower[i..i + 4] == "role" by {
      assert q[i] == 'R' && q[i + 1] == 'o' && q[i + 2] == 'l' && q[i + 3] == 'e';
    }
    assert OccursAt(lower, "role", i);
  }

  /** Seconds allowed to answer a question of each kind. */
  function TimeLimitFor(k: QuestionType): (r: int)
    ensures r == 90 <==> k == Roleplay
    ensures r == 60 <==> k == Warmup
    ensures r == 120 <==> k !in {Roleplay, Warmup}
  {
    if k == Roleplay then 90 else if k == Warmup then 60 else 120
  }

  /** The id of the `n`-th question of a topic: `${topic}-q${n}`. */
  function QuestionId(topic: string, n: nat): string {
    topic + "-q" + NatToString(n)
  }

  /** Question ids of one topic are distinct for distinct counters. */
  lemma QuestionIdInjective(topic: string, m: nat, n: nat)
    requires QuestionId(topic, m) == QuestionId(topic, n)
    ensures m == n
  {
    PrefixCancel(topic + "-q", NatToString(m), NatToString(n));
    NatToStringInjective(m, n);
  }

  /** The question built for one extracted text. */
  function NewQuestion(text: string, topic: string, level: Level, n: nat): Question {
    var kind := Classify(text);
    Question(QuestionId(topic, n), kind, text, None, Some(TimeLimitFor(kind)), level, Some(topic),
             None, None, None, None, None)
  }

  /** The questions for `texts`, numbered from `next` on. */
  function NumberQuestions(texts: seq<string>, topic: string, level: Level, next: nat): (r: seq<Question>)
    ensures |r| == |texts|
    ensures forall k :: 0 <= k < |r| ==> r[k] == NewQuestion(texts[k], topic, level, next + k)
  {
    seq(|texts|, k requires 0 <= k < |texts| => NewQuestion(texts[k], topic, level, next + k))
  }

  /** `extractQuestions`: one question per question text, numbered from 1 in
      text order, of the given topic and level, typed by its keywords. */
  function ExtractQuestions(text: string, topic: string, level: Level): (r: seq<Question>)
    ensures |r| == |QuestionTexts(text)|
    ensures forall k :: 0 <= k < |r| ==>
      && r[k].id == QuestionId(topic, k + 1)
      && r[k].text == QuestionTexts(text)[k]
      && r[k].kind == Classify(r[k].text)
      && r[k].timeLimit == Some(TimeLimitFor(r[k].kind))
      && r[k].level == level
      && r[k].topic == Some(topic)
      && r[k].sampleAnswer.None? && r[k].usefulExpressions.None? && r[k].audioPath.None?
  {
    NumberQuestions(QuestionTexts(text), topic, level, 1)
  }

  /** No two numbered questions share an id. */
  lemma NumberedIdsDistinct(texts: seq<string>, topic: string, level: Level, next: nat)
    ensures var qs := NumberQuestions(texts, topic, level, next);
      forall i, j :: 0 <= i < j < |qs| ==> qs[i].id != qs[j].id
  {
    var qs := NumberQuestions(texts, topic, level, next);
    forall i, j | 0 <= i < j < |qs| ensures qs[i].id != qs[j].id {
      if qs[i].id == qs[j].id {
        QuestionIdInjective(topic, next + i, next + j);
      }
    }
  }

  /** No two extracted questions share an id. */
  lemma ExtractedQuestionIdsDistinct(text: string, topic: string, level: Level)
    ensures var qs := ExtractQuestions(text, topic, level);
      forall i, j :: 0 <= i < j < |qs| ==> qs[i].id != qs[j].id
  {
    NumberedIdsDistinct(QuestionTexts(text), topic, level, 1);
  }

  // Sample answers.

  /** The captured bodies of the three answer patterns, pattern by pattern. */
  function AnswerBodies(text: string): seq<string> {
    AnswerFamiliesValid();
    AllBodies(text, AnswerFamilies)
  }

  /** The answer texts: of the trimmed bodies of the three answer patterns,
      exactly those longer than ten characters, in the same order and as often as
      they are captured. */
  function AnswerTexts(text: string): (r: seq<string>)
    ensures forall k :: 0 <= k < |r| ==> IsTrimmed(r[k]) && |r[k]| > 10
    ensures Selects(r, TrimAll(AnswerBodies(text)), LongEnough)
  {
    FilterSelects(TrimAll(AnswerBodies(text)), LongEnough);
    Filter(TrimAll(AnswerBodies(text)), LongEnough)
  }

  /** The key of the `n`-th answer: `answer-${n}`. */
  function AnswerKey(n: nat): string {
    "answer-" + NatToString(n)
  }

  lemma AnswerKeyInjective(m: nat, n: nat)
    requires AnswerKey(m) == AnswerKey(n)
    ensures m == n
  {
    PrefixCancel("answer-", NatToString(m), NatToString(n));
    NatToStringInjective(m, n);
  }

  /** The answers `texts` under the keys numbered from `next` on. */
  function NumberAnswers(texts: seq<string>, next: nat): (m: map<string, string>)
    ensures forall n :: next <= n < next + |texts| ==> AnswerKey(n) in m && m[AnswerKey(n)] == texts[n - next]
    ensures forall key :: key in m ==> exists n :: next <= n < next + |texts| && key == AnswerKey(n)
    decreases |texts|
  {
    if |texts| == 0 then map[]
    else
      var rest := NumberAnswers(texts[1..], next + 1);
      forall n | next < n < next + |texts| ensures AnswerKey(n) != AnswerKey(next) {
        if AnswerKey(n) == AnswerKey(next) { AnswerKeyInjective(n, next); }
      }
      rest[AnswerKey(next) := texts[0]]
  }

  /** `extractSampleAnswers`: the `n`-th answer text under the key `answer-n`, and no other keys. */
  function ExtractSampleAnswers(text: string): (m: map<string, string>)
    ensures var a := AnswerTexts(text);
      forall n :: 1 <= n <= |a| ==> AnswerKey(n) in m && m[AnswerKey(n)] == a[n - 1]
    ensures var a := AnswerTexts(text);
      forall key :: key in m ==> exists n :: 1 <= n <= |a| && key == AnswerKey(n)
  {
    NumberAnswers(AnswerTexts(text), 1)
  }

  /** The key of the `n`-th answer is present exactly when there are at least `n` answers. */
  lemma AnswerKeyPresent(text: string, n: nat)
    requires n >= 1
    ensures AnswerKey(n) in ExtractSampleAnswers(text) <==> n <= |AnswerTexts(text)|
    ensures n <= |AnswerTexts(text)| ==> ExtractSampleAnswers(text)[AnswerKey(n)] == AnswerTexts(text)[n - 1]
  {
    var m := ExtractSampleAnswers(text);
    if AnswerKey(n) in m {
      var k :| 1 <= k <= |AnswerTexts(text)| && AnswerKey(n) == AnswerKey(k);
      AnswerKeyInjective(n, k);
    }
  }

  // Useful expressions.

  predicate LongerThanThree(s: string) {
    |s| > 3
  }

  /** The pieces of a block between bullets and line breaks, each trimmed. */
  function Pieces(block: string): (r: seq<string>)
    ensures forall k :: 0 <= k < |r| ==> IsTrimmed(r[k]) && !HasSeparator(r[k])
  {
    var pieces := Split(block);
    forall k | 0 <= k < |pieces| ensures !HasSeparator(Trim(pieces[k])) {
      TrimKeepsNoSeparator(pieces[k]);
    }
    TrimAll(pieces)
  }

  /** The expressions of one captured block: of its trimmed pieces between bullets
      and line breaks, exactly those longer than three characters, in order. */
  function BlockExpressions(block: string): (r: seq<string>)
    ensures forall k :: 0 <= k < |r| ==> IsTrimmed(r[k]) && |r[k]| > 3 && !HasSeparator(r[k])
    ensures Selects(r, Pieces(block), LongerThanThree)
  {
    FilterSelects(Pieces(block), LongerThanThree);
    Filter(Pieces(block), LongerThanThree)
  }

  /** Trimming cuts a slice, so it adds no bullet or line break. */
  lemma TrimKeepsNoSeparator(s: string)
    requires !HasSeparator(s)
    ensures !HasSeparator(Trim(s))
  {
    var i, j :| 0 <= i <= j <= |s| && Trim(s) == s[i..j] && AllSpaces(s[..i]) && AllSpaces(s[j..]);
    forall k | 0 <= k < j - i ensures !IsSeparatorChar(Trim(s)[k]) {
      assert Trim(s)[k] == s[i + k];
    }
  }

  /** The expressions one body contributes: those of its trimmed block, none when
      that is blank. */
  function BodyExpressions(b: string): (r: seq<string>)
    ensures forall k :: 0 <= k < |r| ==> IsTrimmed(r[k]) && |r[k]| > 3 && !HasSeparator(r[k])
    ensures Trim(b) == "" ==> r == []
    ensures Trim(b) != "" ==> Selects(r, Pieces(Trim(b)), LongerThanThree)
  {
    if Trim(b) != "" then BlockExpressions(Trim(b)) else []
  }

  /** `BodyExpressions` as a function value. */
  function BodyExpressionsOf(): string -> seq<string> {
    (b: string) => BodyExpressions(b)
  }

  /** The expressions of every captured body in turn. */
  function AllExpressions(bodies: seq<string>): (r: seq<string>)
    ensures forall k :: 0 <= k < |r| ==> IsTrimmed(r[k]) && |r[k]| > 3 && !HasSeparator(r[k])
  {
    var r := Flatten(bodies, BodyExpressionsOf());
    forall x | x in r ensures IsTrimmed(x) && |x| > 3 && !HasSeparator(x) {
      FlattenMember(bodies, BodyExpressionsOf(), x);
    }
    r
  }

  /** Expressions of consecutive runs of bodies follow each other. */
  lemma AllExpressionsAppend(a: seq<string>, b: seq<string>)
    ensures AllExpressions(a + b) == AllExpressions(a) + AllExpressions(b)
  {
    FlattenAppend(a, b, BodyExpressionsOf());
  }

  /** One body yields the expressions of its trimmed block, or none when that is blank. */
  lemma AllExpressionsOne(b: string)
    ensures AllExpressions([b]) == if Trim(b) != "" then BlockExpressions(Trim(b)) else []
  {
    assert Flatten([b][1..], BodyExpressionsOf()) == [];
  }

  /** An expression comes from some body, and every expression of every body is
      among them. */
  lemma AllExpressionsMember(bodies: seq<string>, x: string)
    ensures x in AllExpressions(bodies) <==> exists k :: 0 <= k < |bodies| && x in BodyExpressions(bodies[k])
  {
    FlattenMember(bodies, BodyExpressionsOf(), x);
  }

  /** The captured bodies of the three expression patterns, pattern by pattern. */
  function ExpressionBodies(text: string): seq<string> {
    ExpressionFamiliesValid();
    AllBodies(text, ExpressionFamilies)
  }

  /** `extractUsefulExpressions`: every expression of every captured block exactly
      once, in the order of first occurrence; none is blank, has surrounding white
      space, holds a bullet or a line break, or is shorter than four characters. */
  function ExtractUsefulExpressions(text: string): (r: seq<string>)
    ensures NoDup(r)
    ensures forall x :: x in r <==> x in AllExpressions(ExpressionBodies(text))
    ensures var all := AllExpressions(ExpressionBodies(text));
      forall i, j :: 0 <= i < j < |r| ==> r[i] in all && r[j] in all && FirstIndex(all, r[i]) < FirstIndex(all, r[j])
    ensures forall k :: 0 <= k < |r| ==> IsTrimmed(r[k]) && |r[k]| > 3 && !HasSeparator(r[k])
  {
    var all := AllExpressions(ExpressionBodies(text));
    var r := Dedup(all);
    assert forall k :: 0 <= k < |r| ==> r[k] in all;
    r
  }

  /** `extractUsefulExpressions` in terms of the bodies: a string is an expression
      exactly when some captured body contributes it. */
  lemma ExpressionsOfBodies(text: string, x: string)
    ensures var bodies := ExpressionBodies(text);
      x in ExtractUsefulExpressions(text) <==> exists k :: 0 <= k < |bodies| && x in BodyExpressions(bodies[k])
  {
    AllExpressionsMember(ExpressionBodies(text), x);
  }

  // Whole files.

  /** What a parsed file yields. */
  datatype ParsedPdfData = ParsedPdfData(
    topic: string,
    questions: seq<Question>,
    sampleAnswers: map<string, string>,
    usefulExpressions: seq<string>)

  /** The extras attached to the question at `index`: the answer with the matching
      key, the expressions when there are any, and the topic's recording. */
  function AttachExtras(q: Question, index: nat, answers: map<string, string>, expressions: seq<string>, topic: Topic): Question {
    var key := AnswerKey(index + 1);
    q.(sampleAnswer := if key in answers then Some(answers[key]) else q.sampleAnswer,
       usefulExpressions := if |expressions| > 0 then Some(expressions) else q.usefulExpressions,
       audioPath := if Truthy(topic.audioFileName) then Some(GetAudioPath(topic.audioFileName.value)) else q.audioPath)
  }

  function AttachAll(qs: seq<Question>, answers: map<string, string>, expressions: seq<string>, topic: Topic): (r: seq<Question>)
    ensures |r| == |qs|
    ensures forall i :: 0 <= i < |qs| ==> r[i] == AttachExtras(qs[i], i, answers, expressions, topic)
  {
    seq(|qs|, i requires 0 <= i < |qs| => AttachExtras(qs[i], i, answers, expressions, topic))
  }

  /** `parsePDFFile`: nothing when no topic names the file or its text cannot be
      read; otherwise the topic's questions, each carrying the answer of the same
      position, the expressions and the recording path. `extract` stands for the
      PDF text extraction, failing with `None`. */
  function ParsePdfFile(fileName: string, level: Level := IH, extract: string -> Option<string>): (r: Option<ParsedPdfData>)
    ensures r.Some? <==> GetTopicByPdfFileName(fileName).Some? && extract(fileName).Some?
    ensures r.Some? ==> r.value.topic == GetTopicByPdfFileName(fileName).value.id
    ensures r.Some? ==>
      var text := extract(fileName).value;
      && |r.value.questions| == |QuestionTexts(text)|
      && r.value.sampleAnswers == ExtractSampleAnswers(text)
      && r.value.usefulExpressions == ExtractUsefulExpressions(text)
  {
    match GetTopicByPdfFileName(fileName)
    case None => None
    case Some(topic) => ParseTopicFile(fileName, topic, level, extract)
  }

  /** `parsePDFFile` once the topic is known: nothing when the text cannot be read. */
  function ParseTopicFile(fileName: string, topic: Topic, level: Level, extract: string -> Option<string>): (r: Option<ParsedPdfData>)
    ensures r.Some? <==> extract(fileName).Some?
    ensures r.Some? ==> r.value == ParseText(extract(fileName).value, topic, level)
  {
    match extract(fileName)
    case None => None
    case Some(text) => Some(ParseText(text, topic, level))
  }

  /** What one document's text yields for its topic: the topic's id, one question per
      kept question text carrying the extras of its position, the answers and the
      expressions. */
  function ParseText(text: string, topic: Topic, level: Level): (r: ParsedPdfData)
    ensures r.topic == topic.id
    ensures |r.questions| == |QuestionTexts(text)|
    ensures r.sampleAnswers == ExtractSampleAnswers(text)
    ensures r.usefulExpressions == ExtractUsefulExpressions(text)
  {
    var questions := ExtractQuestions(text, topic.id, level);
    var answers := ExtractSampleAnswers(text);
    var expressions := ExtractUsefulExpressions(text);
    ParsedPdfData(topic.id, AttachAll(questions, answers, expressions, topic), answers, expressions)
  }

  /** Attaching by position: the question at `i` receives the `i`-th of the
      numbered answers `a` when there is one, and the expressions when there are any. */
  lemma AttachedByPosition(qs: seq<Question>, answers: map<string, string>, a: seq<string>,
                           expressions: seq<string>, topic: Topic, i: nat)
    requires i < |qs| && qs[i].sampleAnswer.None? && qs[i].usefulExpressions.None?
    requires forall n :: 1 <= n <= |a| ==> AnswerKey(n) in answers && answers[AnswerKey(n)] == a[n - 1]
    requires forall key :: key in answers ==> exists n :: 1 <= n <= |a| && key == AnswerKey(n)
    ensures var q := AttachAll(qs, answers, expressions, topic)[i];
      && q.sampleAnswer == (if i < |a| then Some(a[i]) else None)
      && q.usefulExpressions == (if |expressions| > 0 then Some(expressions) else None)
      && (q.id, q.text, q.level, q.topic) == (qs[i].id, qs[i].text, qs[i].level, qs[i].topic)
  {
    var key := AnswerKey(i + 1);
    if key in answers {
      var n :| 1 <= n <= |a| && key == AnswerKey(n);
      AnswerKeyInjective(i + 1, n);
    }
  }

  /** Every question of a file carries the recording path of the file's topic. */
  lemma AttachedAudioPath(qs: seq<Question>, answers: map<string, string>, expressions: seq<string>, topic: Topic, i: nat)
    requires i < |qs| && qs[i].audioPath.None?
    ensures AttachAll(qs, answers, expressions, topic)[i].audioPath == TopicAudioPath(topic)
  {
  }

  /** What a parsed file says about its `i`-th question: it is the `i`-th question
      text of the topic, carries the `i`-th answer text when there is one, the
      expressions when there are any, and the path `getAudioPathByTopicId` gives
      for the topic. */
  lemma ParsedQuestion(fileName: string, level: Level, extract: string -> Option<string>, i: nat)
    requires ParsePdfFile(fileName, level, extract).Some?
    requires i < |ParsePdfFile(fileName, level, extract).value.questions|
    ensures var topic := GetTopicByPdfFileName(fileName).value;
      var text := extract(fileName).value;
      var q := ParsePdfFile(fileName, level, extract).value.questions[i];
      && i < |QuestionTexts(text)|
      && q.id == QuestionId(topic.id, i + 1)
      && q.text == QuestionTexts(text)[i]
      && q.level == level
      && q.topic == Some(topic.id)
      && q.sampleAnswer == (if i < |AnswerTexts(text)| then Some(AnswerTexts(text)[i]) else None)
      && q.usefulExpressions == (if |ExtractUsefulExpressions(text)| > 0 then Some(ExtractUsefulExpressions(text)) else None)
      && q.audioPath == GetAudioPathByTopicId(topic.id)
  {
    var topic := GetTopicByPdfFileName(fileName).value;
    var text := extract(fileName).value;
    var qs := ExtractQuestions(text, topic.id, level);
    AttachedByPosition(qs, ExtractSampleAnswers(text), AnswerTexts(text), ExtractUsefulExpressions(text), topic, i);
    AttachedAudioPath(qs, ExtractSampleAnswers(text), ExtractUsefulExpressions(text), topic, i);
    TopicOfPdfAudio(fileName);
  }

  /** The recording of the topic found by file name is the one found by its id. */
  lemma TopicOfPdfAudio(fileName: string)
    requires GetTopicByPdfFileName(fileName).Some?
    ensures var topic := GetTopicByPdfFileName(fileName).value;
      TopicAudioPath(topic) == GetAudioPathByTopicId(topic.id)
  {
    var topic := GetTopicByPdfFileName(fileName).value;
    var k :| 0 <= k < |TopicTable| && TopicTable[k] == topic && TopicTable[k].pdfFileName == Some(fileName);
    AudioPathByTopicIdOfEntry(k);
  }

  predicate IsPdfName(f: string) {
    EndsWith(f, ".pdf")
  }

  /** The questions one file contributes to the batch. */
  function FileQuestions(fileName: string, level: Level, extract: string -> Option<string>): seq<Question> {
    match ParsePdfFile(fileName, level, extract)
    case Some(parsed) => if |parsed.questions| > 0 then parsed.questions else []
    case None => []
  }

  /** Every question of a parsed file belongs to a table topic and has the requested level. */
  lemma FileQuestionsBelong(fileName: string, level: Level, extract: string -> Option<string>, i: nat)
    requires i < |FileQuestions(fileName, level, extract)|
    ensures var q := FileQuestions(fileName, level, extract)[i];
      q.level == level && q.topic.Some? && exists k :: 0 <= k < |TopicTable| && TopicTable[k].id == q.topic.value
  {
    ParsedQuestion(fileName, level, extract, i);
  }

  /** The questions of each file, as one function of the file name. */
  function FileParser(level: Level, extract: string -> Option<string>): string -> seq<Question> {
    (fileName: string) => FileQuestions(fileName, level, extract)
  }

  /** The questions a batch yields for the per-file parser `parse`: those of every
      `.pdf` name of the listing, file by file, and none for an unreadable listing. */
  function Batch(files: Option<seq<string>>, parse: string -> seq<Question>): seq<Question> {
    match files
    case None => []
    case Some(names) => Flatten(Filter(names, IsPdfName), parse)
  }

  /** A batch over a listing split anywhere is the two batches in turn. */
  lemma BatchAppend(a: seq<string>, b: seq<string>, parse: string -> seq<Question>)
    ensures Batch(Some(a + b), parse) == Batch(Some(a), parse) + Batch(Some(b), parse)
  {
    FilterAppend(a, b, IsPdfName);
    FlattenAppend(Filter(a, IsPdfName), Filter(b, IsPdfName), parse);
  }

  /** A batch over one name is that file's questions when it is a `.pdf` name. */
  lemma BatchOne(f: string, parse: string -> seq<Question>)
    ensures Batch(Some([f]), parse) == if IsPdfName(f) then parse(f) else []
  {
    FilterOne(f, IsPdfName);
    if IsPdfName(f) {
      FlattenOne(f, parse);
    }
  }

  /** `parseAllPDFs`: the questions of every `.pdf` name of the directory listing,
      file by file. `files` is the listing, `None` when the directory cannot be read,
      which yields no questions. */
  function ParseAllPdfs(files: Option<seq<string>>, level: Level := IH, extract: string -> Option<string>): (r: seq<Question>)
    ensures files.None? ==> r == []
  {
    Batch(files, FileParser(level, extract))
  }

  /** A listing of one file yields that file's questions when its name ends in
      `.pdf`, and nothing otherwise. */
  lemma ParseAllPdfsOne(f: string, level: Level, extract: string -> Option<string>)
    ensures ParseAllPdfs(Some([f]), level, extract) == if IsPdfName(f) then FileQuestions(f, level, extract) else []
  {
    BatchOne(f, FileParser(level, extract));
  }

  /** A name without the `.pdf` suffix contributes nothing, wherever it is listed. */
  lemma NonPdfNamesIgnored(before: seq<string>, f: string, after: seq<string>, level: Level, extract: string -> Option<string>)
    requires !IsPdfName(f)
    ensures ParseAllPdfs(Some(before + [f] + after), level, extract) == ParseAllPdfs(Some(before + after), level, extract)
  {
    var parse := FileParser(level, extract);
    BatchAppend(before + [f], after, parse);
    BatchAppend(before, [f], parse);
    BatchAppend(before, after, parse);
    BatchOne(f, parse);
    assert Batch(Some(before), parse) + [] == Batch(Some(before), parse);
  }

  /** The batch is the concatenation of what the listed files yield one by one. */
  lemma ParseAllPdfsAppend(a: seq<string>, b: seq<string>, level: Level, extract: string -> Option<string>)
    ensures ParseAllPdfs(Some(a + b), level, extract) == ParseAllPdfs(Some(a), level, extract) + ParseAllPdfs(Some(b), level, extract)
  {
    BatchAppend(a, b, FileParser(level, extract));
  }
}

=== FILE: progress_tracker.dfy ===
/** Learning-progress statistics of lib/progress-tracker.ts. The source reads the
    test results from browser storage; here they are a parameter. */
module ProgressTracker {
  import opened Wrappers
  import opened Strings
  import opened Seqs
  import opened Types

  /** Progress on one topic. `averageScore` and `lastPracticed` are the optional
      properties of the source record. */
  datatype TopicProgress = TopicProgress(
    topicId: string,
    topicName: string,
    totalQuestions: nat,
    answeredQuestions: nat,
    averageScore: Option<real>,
    lastPracticed: Option<int>)

  /** Progress over all tests of one level. */
  datatype LearningProgress = LearningProgress(
    level: Level,
    totalTests: nat,
    averageScore: real,
    topics: seq<TopicProgress>,
    weakTopics: seq<string>,
    strongTopics: seq<string>)

  /** Whether a result takes part in the statistics of `level`: it is of that level
      and completed. */
  function CountedAt(level: Level): TestResult -> bool {
    (r: TestResult) => r.level == level && r.completed
  }

  /** The results the statistics are computed over, in order. */
  function Counted(results: seq<TestResult>, level: Level): seq<TestResult> {
    Filter(results, CountedAt(level))
  }

  /** A result the statistics of `level` ignore changes none of them. */
  lemma CountedIgnores(results: seq<TestResult>, level: Level, r: TestResult)
    requires !CountedAt(level)(r)
    ensures Counted(results + [r], level) == Counted(results, level)
  {
    FilterAppend(results, [r], CountedAt(level));
    assert Filter([r], CountedAt(level)) == [];
  }

  // ----- calculateTopicProgress -----

  function HasId(id: string): Question -> bool {
    (q: Question) => q.id == id
  }

  /** Whether an answer of `result` belongs to `topicId`: the first question of the
      result with the answer's id has that topic. */
  function AnswerOnTopic(result: TestResult, topicId: string): Answer -> bool {
    (a: Answer) =>
      match Find(result.questions, HasId(a.questionId))
      case None => false
      case Some(q) => q.topic == Some(topicId)
  }

  /** The number of answers of `result` on the topic. */
  function TopicAnswerCount(result: TestResult, topicId: string): (n: nat)
    ensures n <= |result.answers|
  {
    |Filter(result.answers, AnswerOnTopic(result, topicId))|
  }

  /** The running totals of the source's loop over the results. */
  datatype Tally = Tally(answered: nat, totalScore: real, scoreCount: nat, lastPracticed: Option<int>)

  /** One step of the loop. A result with no answer on the topic changes nothing;
      otherwise its answers are added, its overall score is added when it has an
      evaluation, and its date replaces the latest date when there is none yet, when
      that date is 0 (which the source's falsy test reads as unset) or when the new
      date is later. */
  function Step(t: Tally, result: TestResult, topicId: string): (u: Tally)
    ensures TopicAnswerCount(result, topicId) == 0 ==> u == t
    ensures TopicAnswerCount(result, topicId) > 0 ==>
      && u.answered == t.answered + TopicAnswerCount(result, topicId)
      && u.scoreCount == t.scoreCount + (if result.feedback.Some? then 1 else 0)
      && u.lastPracticed.Some?
  {
    var n := TopicAnswerCount(result, topicId);
    if n == 0 then t
    else
      var scored := result.feedback.Some?;
      Tally(
        t.answered + n,
        if scored then t.totalScore + result.feedback.value.overallScore else t.totalScore,
        if scored then t.scoreCount + 1 else t.scoreCount,
        if t.lastPracticed.None? || t.lastPracticed.value == 0 || result.testDate > t.lastPracticed.value
        then Some(result.testDate) else t.lastPracticed)
  }

  /** The loop over `results`, in order, from the totals `t`. */
  function TallyFrom(t: Tally, results: seq<TestResult>, topicId: string): Tally
    decreases |results|
  {
    if |results| == 0 then t else TallyFrom(Step(t, results[0], topicId), results[1..], topicId)
  }

  /** Whether `result` has an answer on the topic. */
  predicate Contributes(result: TestResult, topicId: string) {
    TopicAnswerCount(result, topicId) > 0
  }

  /** The number of answers on the topic over all of `results`. */
  function AnswersOnTopic(results: seq<TestResult>, topicId: string): nat {
    if |results| == 0 then 0 else TopicAnswerCount(results[0], topicId) + AnswersOnTopic(results[1..], topicId)
  }

  /** The latest date of a result with an answer on the topic, if there is one. */
  function LatestContribution(results: seq<TestResult>, topicId: string): (r: Option<int>)
    ensures r.Some? <==> exists i :: 0 <= i < |results| && Contributes(results[i], topicId)
    ensures r.Some? ==> exists i :: 0 <= i < |results| && Contributes(results[i], topicId) && results[i].testDate == r.value
    ensures r.Some? ==> forall i :: 0 <= i < |results| && Contributes(results[i], topicId) ==> results[i].testDate <= r.value
  {
    if |results| == 0 then None
    else
      var rest := LatestContribution(results[1..], topicId);
      LatestCons(results, topicId, rest);
      MaxOpt(Offered(results[0], topicId), rest)
  }

  /** `r` is the latest date of a result with an answer on the topic, if any. */
  predicate IsLatest(results: seq<TestResult>, topicId: string, r: Option<int>) {
    && (r.Some? <==> exists i :: 0 <= i < |results| && Contributes(results[i], topicId))
    && (r.Some? ==> exists i :: 0 <= i < |results| && Contributes(results[i], topicId) && results[i].testDate == r.value)
    && (r.Some? ==> forall i :: 0 <= i < |results| && Contributes(results[i], topicId) ==> results[i].testDate <= r.value)
  }

  /** The latest date of the rest, combined with the first result's own. */
  lemma LatestCons(results: seq<TestResult>, topicId: string, rest: Option<int>)
    requires |results| > 0 && IsLatest(results[1..], topicId, rest)
    ensures IsLatest(results, topicId, MaxOpt(Offered(results[0], topicId), rest))
  {
    var r := MaxOpt(Offered(results[0], topicId), rest);
    LatestConsPresent(results, topicId, rest);
    if r.Some? {
      LatestConsWitness(results, topicId, rest);
      LatestConsBound(results, topicId, rest);
    }
  }

  lemma LatestConsPresent(results: seq<TestResult>, topicId: string, rest: Option<int>)
    requires |results| > 0 && IsLatest(results[1..], topicId, rest)
    ensures MaxOpt(Offered(results[0], topicId), rest).Some? <==>
      exists i :: 0 <= i < |results| && Contributes(results[i], topicId)
  {
    var tail := results[1..];
    if i :| 0 <= i < |results| && Contributes(results[i], topicId) {
      if i > 0 {
        assert tail[i - 1] == results[i];
      }
    }
    if rest.Some? {
      var j :| 0 <= j < |tail| && Contributes(tail[j], topicId);
      assert results[j + 1] == tail[j];
    }
  }

  lemma LatestConsWitness(results: seq<TestResult>, topicId: string, rest: Option<int>)
    requires |results| > 0 && IsLatest(results[1..], topicId, rest)
    requires MaxOpt(Offered(results[0], topicId), rest).Some?
    ensures var r := MaxOpt(Offered(results[0], topicId), rest);
      exists i :: 0 <= i < |results| && Contributes(results[i], topicId) && results[i].testDate == r.value
  {
    var tail := results[1..];
    var r := MaxOpt(Offered(results[0], topicId), rest);
    if r == Offered(results[0], topicId) {
      assert Contributes(results[0], topicId) && results[0].testDate == r.value;
    } else {
      var j :| 0 <= j < |tail| && Contributes(tail[j], topicId) && tail[j].testDate == rest.value;
      assert results[j + 1] == tail[j];
    }
  }

  lemma LatestConsBound(results: seq<TestResult>, topicId: string, rest: Option<int>)
    requires |results| > 0 && IsLatest(results[1..], topicId, rest)
    requires MaxOpt(Offered(results[0], topicId), rest).Some?
    ensures var r := MaxOpt(Offered(results[0], topicId), rest);
      forall i :: 0 <= i < |results| && Contributes(results[i], topicId) ==> results[i].testDate <= r.value
  {
    var tail := results[1..];
    forall i | 0 <= i < |results| && Contributes(results[i], topicId)
      ensures results[i].testDate <= MaxOpt(Offered(results[0], topicId), rest).value
    {
      if i > 0 {
        assert tail[i - 1] == results[i];
      }
    }
  }

  /** The later of two optional dates. */
  function MaxOpt(a: Option<int>, b: Option<int>): (r: Option<int>)
    ensures r.None? <==> a.None? && b.None?
    ensures r == a || r == b
    ensures r.Some? ==> (a.Some? ==> a.value <= r.value) && (b.Some? ==> b.value <= r.value)
  {
    if a.None? then b else if b.None? then a else if a.value >= b.value then a else b
  }

  /** The date one result offers the loop: its own when it answered the topic. */
  function Offered(result: TestResult, topicId: string): Option<int> {
    if Contributes(result, topicId) then Some(result.testDate) else None
  }

  /** `calculateTopicProgress`: the answers on the topic and the evaluation scores of
      the completed tests of `level` that answered it. The name is the id and the
      question total is 0, both left to the caller. */
  function CalculateTopicProgress(results: seq<TestResult>, level: Level, topicId: string): (p: TopicProgress)
    ensures p.topicId == topicId && p.topicName == topicId && p.totalQuestions == 0
    ensures p.lastPracticed.Some? <==> p.answeredQuestions > 0
  {
    var t := TallyFrom(Tally(0, 0.0, 0, None), Counted(results, level), topicId);
    TallyAnsweredLatest(Tally(0, 0.0, 0, None), Counted(results, level), topicId);
    TopicProgress(topicId, topicId, 0, t.answered,
                  if t.scoreCount > 0 then Some(t.totalScore / t.scoreCount as real) else None,
                  t.lastPracticed)
  }

  /** The loop adds the answers of every result to the running count, and ends with a
      latest date exactly when it started with one or met an answer on the topic. */
  lemma {:induction false} TallyAnsweredLatest(t: Tally, results: seq<TestResult>, topicId: string)
    requires t.lastPracticed.Some? <==> t.answered > 0
    ensures TallyFrom(t, results, topicId).answered == t.answered + AnswersOnTopic(results, topicId)
    ensures TallyFrom(t, results, topicId).lastPracticed.Some? <==> TallyFrom(t, results, topicId).answered > 0
    decreases |results|
  {
    if |results| > 0 {
      TallyAnsweredLatest(Step(t, results[0], topicId), results[1..], topicId);
    }
  }

  /** With no negative dates, one step keeps the later of the running date and the
      offered one; the source's test for an unset date then never misfires. */
  lemma StepLatest(t: Tally, result: TestResult, topicId: string)
    requires t.lastPracticed.Some? ==> t.lastPracticed.value >= 0
    requires result.testDate >= 0
    ensures Step(t, result, topicId).lastPracticed == MaxOpt(t.lastPracticed, Offered(result, topicId))
  {
  }

  lemma MaxOptAssoc(a: Option<int>, b: Option<int>, c: Option<int>)
    ensures MaxOpt(MaxOpt(a, b), c) == MaxOpt(a, MaxOpt(b, c))
  {
  }

  /** The loop's latest date is the latest of its start and the dates of the results
      with an answer on the topic, when no date is negative. */
  lemma {:induction false} TallyLatest(t: Tally, results: seq<TestResult>, topicId: string)
    requires t.lastPracticed.Some? ==> t.lastPracticed.value >= 0
    requires forall i :: 0 <= i < |results| ==> results[i].testDate >= 0
    ensures TallyFrom(t, results, topicId).lastPracticed == MaxOpt(t.lastPracticed, LatestContribution(results, topicId))
    decreases |results|
  {
    if |results| > 0 {
      var u := Step(t, results[0], topicId);
      StepLatest(t, results[0], topicId);
      assert forall i :: 0 <= i < |results[1..]| ==> results[1..][i] == results[i + 1];
      TallyLatest(u, results[1..], topicId);
      MaxOptAssoc(t.lastPracticed, Offered(results[0], topicId), LatestContribution(results[1..], topicId));
    }
  }

  /** The topic's answer count sums the answers on it over the counted results, and
      its last practice date is the latest date among those results that answered it
      (test dates being timestamps, none negative). */
  lemma TopicProgressCounts(results: seq<TestResult>, level: Level, topicId: string)
    requires forall i :: 0 <= i < |results| ==> results[i].testDate >= 0
    ensures var p := CalculateTopicProgress(results, level, topicId);
      && p.answeredQuestions == AnswersOnTopic(Counted(results, level), topicId)
      && p.lastPracticed == LatestContribution(Counted(results, level), topicId)
  {
    var counted := Counted(results, level);
    TallyAnsweredLatest(Tally(0, 0.0, 0, None), counted, topicId);
    forall i | 0 <= i < |counted| ensures counted[i].testDate >= 0 {
      assert counted[i] in results;
    }
    TallyLatest(Tally(0, 0.0, 0, None), counted, topicId);
  }

  /** The average score is present exactly when some counted result that answered the
      topic has an evaluation. */
  lemma TallyScored(t: Tally, results: seq<TestResult>, topicId: string)
    ensures TallyFrom(t, results, topicId).scoreCount > 0 <==>
      t.scoreCount > 0 || exists i :: 0 <= i < |results| && Contributes(results[i], topicId) && results[i].feedback.Some?
  {
    var scored := Filter(results, ScoredOn(topicId));
    TallyScores(t, results, topicId);
    if i :| 0 <= i < |results| && Contributes(results[i], topicId) && results[i].feedback.Some? {
      assert ScoredOn(topicId)(results[i]);
      assert results[i] in scored;
    }
    if |scored| > 0 {
      assert scored[0] in results && ScoredOn(topicId)(scored[0]);
      var i :| 0 <= i < |results| && results[i] == scored[0];
      assert Contributes(results[i], topicId) && results[i].feedback.Some?;
    }
  }

  lemma TopicProgressScored(results: seq<TestResult>, level: Level, topicId: string)
    ensures var counted := Counted(results, level);
      CalculateTopicProgress(results, level, topicId).averageScore.Some? <==>
      exists i :: 0 <= i < |counted| && Contributes(counted[i], topicId) && counted[i].feedback.Some?
  {
    TallyScored(Tally(0, 0.0, 0, None), Counted(results, level), topicId);
  }

  /** Whether a result's evaluation enters the topic's average: it answered the topic
      and was evaluated. */
  function ScoredOn(topicId: string): TestResult -> bool {
    (r: TestResult) => Contributes(r, topicId) && r.feedback.Some?
  }

  /** One step counts the result's score exactly when it enters the average. */
  lemma StepScores(t: Tally, result: TestResult, topicId: string)
    ensures var u := Step(t, result, topicId);
      && u.scoreCount == t.scoreCount + (if ScoredOn(topicId)(result) then 1 else 0)
      && u.totalScore == t.totalScore + (if ScoredOn(topicId)(result) then ScoreOf(result) else 0.0)
  {
  }

  /** The loop counts the evaluated results that answered the topic and adds up their
      overall scores. */
  lemma {:induction false} TallyScores(t: Tally, results: seq<TestResult>, topicId: string)
    ensures var u := TallyFrom(t, results, topicId);
      var scored := Filter(results, ScoredOn(topicId));
      && u.scoreCount == t.scoreCount + |scored|
      && u.totalScore == t.totalScore + ScoreSum(scored)
    decreases |results|
  {
    if |results| > 0 {
      var r0 := results[0];
      var t1 := Step(t, r0, topicId);
      var rest := Filter(results[1..], ScoredOn(topicId));
      assert TallyFrom(t, results, topicId) == TallyFrom(t1, results[1..], topicId);
      FilterCons(results, ScoredOn(topicId));
      StepScores(t, r0, topicId);
      TallyScores(t1, results[1..], topicId);
      if ScoredOn(topicId)(r0) {
        assert Filter(results, ScoredOn(topicId)) == [r0] + rest;
        ScoreSumCons(r0, rest);
      } else {
        assert Filter(results, ScoredOn(topicId)) == rest;
      }
    }
  }

  lemma ScoreSumCons(r: TestResult, rs: seq<TestResult>)
    ensures ScoreSum([r] + rs) == ScoreOf(r) + ScoreSum(rs)
  {
    assert ([r] + rs)[1..] == rs;
  }

  /** The topic's average score is the mean overall score of the counted results that
      answered it and were evaluated, and absent when there are none. */
  lemma TopicAverage(results: seq<TestResult>, level: Level, topicId: string)
    ensures var scored := Filter(Counted(results, level), ScoredOn(topicId));
      CalculateTopicProgress(results, level, topicId).averageScore ==
        if |scored| > 0 then Some(AverageScore(scored)) else None
  {
    TallyScores(Tally(0, 0.0, 0, None), Counted(results, level), topicId);
  }

  /** Scores within `[0, hi]` give a topic average within `[0, hi]`. */
  lemma TopicAverageBounds(results: seq<TestResult>, level: Level, topicId: string, hi: real)
    requires 0.0 <= hi
    requires forall i :: 0 <= i < |results| ==> 0.0 <= ScoreOf(results[i]) <= hi
    ensures var avg := CalculateTopicProgress(results, level, topicId).averageScore;
      avg.Some? ==> 0.0 <= avg.value <= hi
  {
    var scored := Filter(Counted(results, level), ScoredOn(topicId));
    TopicAverage(results, level, topicId);
    forall i | 0 <= i < |scored| ensures 0.0 <= ScoreOf(scored[i]) <= hi {
      assert scored[i] in Counted(results, level);
      assert scored[i] in results;
    }
    MeanBounds(scored, hi);
  }

  // ----- calculateLearningProgress -----

  /** One (result, question) pair of the source's nested loop whose question has a
      non-empty topic, with whether the result has an answer to that question. */
  datatype Observation = Observation(topic: string, answered: bool)

  predicate HasAnswer(result: TestResult, questionId: string) {
    exists a :: a in result.answers && a.questionId == questionId
  }

  function QuestionObservations(result: TestResult, qs: seq<Question>): seq<Observation> {
    if |qs| == 0 then []
    else
      (if Truthy(qs[0].topic) then [Observation(qs[0].topic.value, HasAnswer(result, qs[0].id))] else [])
      + QuestionObservations(result, qs[1..])
  }

  /** The pairs of the nested loop, results outer and questions inner. */
  function Observations(results: seq<TestResult>): seq<Observation> {
    if |results| == 0 then [] else QuestionObservations(results[0], results[0].questions) + Observations(results[1..])
  }

  function TopicsOf(obs: seq<Observation>): seq<string> {
    seq(|obs|, i requires 0 <= i < |obs| => obs[i].topic)
  }

  /** The number of observations of a topic. */
  function CountTopic(obs: seq<Observation>, topic: string): nat {
    if |obs| == 0 then 0
    else CountTopic(obs[..|obs| - 1], topic) + (if obs[|obs| - 1].topic == topic then 1 else 0)
  }

  /** The number of answered observations of a topic. */
  function CountAnswered(obs: seq<Observation>, topic: string): nat {
    if |obs| == 0 then 0
    else CountAnswered(obs[..|obs| - 1], topic) + (if obs[|obs| - 1].topic == topic && obs[|obs| - 1].answered then 1 else 0)
  }

  function IdIs(topic: string): TopicProgress -> bool {
    (e: TopicProgress) => e.topicId == topic
  }

  function Ids(es: seq<TopicProgress>): seq<string> {
    seq(|es|, i requires 0 <= i < |es| => es[i].topicId)
  }

  /** The entry a topic starts with when the loop first meets it. */
  function NewTopic(topic: string): TopicProgress {
    TopicProgress(topic, topic, 0, 0, None, None)
  }

  function Bump(e: TopicProgress, o: Observation): TopicProgress {
    e.(totalQuestions := e.totalQuestions + 1, answeredQuestions := e.answeredQuestions + if o.answered then 1 else 0)
  }

  /** One pass of the inner loop: the topic's entry, created at the end when absent,
      counts one more question and, when answered, one more answer. */
  function AddObservation(es: seq<TopicProgress>, o: Observation): seq<TopicProgress> {
    match IndexWhere(es, IdIs(o.topic))
    case None => es + [Bump(NewTopic(o.topic), o)]
    case Some(i) => es[i := Bump(es[i], o)]
  }

  /** The topic map after the nested loop, in insertion order. */
  function TopicEntries(obs: seq<Observation>): seq<TopicProgress> {
    if |obs| == 0 then [] else AddObservation(TopicEntries(obs[..|obs| - 1]), obs[|obs| - 1])
  }

  /** The facts the topic map keeps about each entry. */
  predicate EntryCounts(e: TopicProgress, obs: seq<Observation>) {
    && e.totalQuestions == CountTopic(obs, e.topicId)
    && e.answeredQuestions == CountAnswered(obs, e.topicId)
    && e.topicName == e.topicId
    && e.averageScore.None? && e.lastPracticed.None?
  }

  lemma {:induction false} CountAbsent(obs: seq<Observation>, topic: string)
    requires topic !in TopicsOf(obs)
    ensures CountTopic(obs, topic) == 0 && CountAnswered(obs, topic) == 0
  {
    if |obs| > 0 {
      assert TopicsOf(obs[..|obs| - 1]) == TopicsOf(obs)[..|obs| - 1];
      assert obs[|obs| - 1].topic == TopicsOf(obs)[|obs| - 1];
      CountAbsent(obs[..|obs| - 1], topic);
    }
  }

  /** The topic map has one entry per distinct topic, in the order topics are first
      met, each counting the pairs of its topic and the answered ones among them. */
  lemma TopicEntriesSpec(obs: seq<Observation>)
    ensures Ids(TopicEntries(obs)) == Dedup(TopicsOf(obs))
    ensures forall i :: 0 <= i < |TopicEntries(obs)| ==> EntryCounts(TopicEntries(obs)[i], obs)
  {
    TopicEntriesInvariant(obs);
  }

  /** The loop keeps the topic map's invariant, pair by pair. */
  lemma {:induction false} TopicEntriesInvariant(obs: seq<Observation>)
    ensures MapInvariant(TopicEntries(obs), obs)
  {
    if |obs| > 0 {
      var init := obs[..|obs| - 1];
      var o := obs[|obs| - 1];
      assert obs == init + [o];
      TopicEntriesInvariant(init);
      var es0 := TopicEntries(init);
      assert TopicEntries(obs) == AddObservation(es0, o);
      if IndexWhere(es0, IdIs(o.topic)).None? {
        AddNewTopic(es0, init, o);
      } else {
        AddKnownTopic(es0, init, o);
      }
    }
  }

  /** The invariant of the topic map over the pairs seen so far. */
  predicate MapInvariant(es: seq<TopicProgress>, obs: seq<Observation>) {
    && Ids(es) == Dedup(TopicsOf(obs))
    && forall i :: 0 <= i < |es| ==> EntryCounts(es[i], obs)
  }

  lemma DedupStep(init: seq<Observation>, o: Observation)
    ensures var ts := TopicsOf(init + [o]);
      var d := Dedup(TopicsOf(init));
      Dedup(ts) == if o.topic in d then d else d + [o.topic]
  {
    var ts := TopicsOf(init + [o]);
    assert ts[..|ts| - 1] == TopicsOf(init);
    assert ts[|ts| - 1] == o.topic;
  }

  lemma CountStep(init: seq<Observation>, o: Observation, topic: string)
    ensures CountTopic(init + [o], topic) == CountTopic(init, topic) + (if o.topic == topic then 1 else 0)
    ensures CountAnswered(init + [o], topic) == CountAnswered(init, topic) + (if o.topic == topic && o.answered then 1 else 0)
  {
    assert (init + [o])[..|init|] == init;
  }

  /** An entry of another topic keeps its counts when a pair is seen. */
  lemma KeepEntry(e: TopicProgress, init: seq<Observation>, o: Observation)
    requires EntryCounts(e, init) && e.topicId != o.topic
    ensures EntryCounts(e, init + [o])
  {
    CountStep(init, o, e.topicId);
  }

  /** A topic the map has no entry for has not been seen. */
  lemma UnseenTopic(es0: seq<TopicProgress>, init: seq<Observation>, topic: string)
    requires Ids(es0) == Dedup(TopicsOf(init))
    requires IndexWhere(es0, IdIs(topic)).None?
    ensures topic !in Dedup(TopicsOf(init))
    ensures topic !in TopicsOf(init)
  {
    var d := Dedup(TopicsOf(init));
    forall j | 0 <= j < |d| ensures d[j] != topic {
      assert d[j] == Ids(es0)[j] == es0[j].topicId;
      assert !IdIs(topic)(es0[j]);
    }
  }

  /** A pair whose topic is not yet in the map appends a fresh entry. */
  lemma AddNewTopic(es0: seq<TopicProgress>, init: seq<Observation>, o: Observation)
    requires MapInvariant(es0, init)
    requires IndexWhere(es0, IdIs(o.topic)).None?
    ensures MapInvariant(AddObservation(es0, o), init + [o])
  {
    AddNewTopicIds(es0, init, o);
    AddNewTopicCounts(es0, init, o);
  }

  lemma AddNewTopicIds(es0: seq<TopicProgress>, init: seq<Observation>, o: Observation)
    requires Ids(es0) == Dedup(TopicsOf(init))
    requires IndexWhere(es0, IdIs(o.topic)).None?
    ensures Ids(AddObservation(es0, o)) == Dedup(TopicsOf(init + [o]))
  {
    assert AddObservation(es0, o) == es0 + [Bump(NewTopic(o.topic), o)];
    UnseenTopic(es0, init, o.topic);
    DedupStep(init, o);
    IdsSnoc(es0, Bump(NewTopic(o.topic), o));
  }

  /** The ids of entries followed by one more. */
  lemma IdsSnoc(es: seq<TopicProgress>, e: TopicProgress)
    ensures Ids(es + [e]) == Ids(es) + [e.topicId]
  {
    assert forall i :: 0 <= i < |es| ==> (es + [e])[i] == es[i];
  }

  lemma AddNewTopicCounts(es0: seq<TopicProgress>, init: seq<Observation>, o: Observation)
    requires MapInvariant(es0, init)
    requires IndexWhere(es0, IdIs(o.topic)).None?
    ensures var es := AddObservation(es0, o);
      forall i :: 0 <= i < |es| ==> EntryCounts(es[i], init + [o])
  {
    assert AddObservation(es0, o) == es0 + [Bump(NewTopic(o.topic), o)];
    UnseenTopic(es0, init, o.topic);
    forall i | 0 <= i < |es0| ensures es0[i].topicId != o.topic {
      assert Ids(es0)[i] == es0[i].topicId;
    }
    CountAbsent(init, o.topic);
    CountStep(init, o, o.topic);
    AppendedEntries(es0, init, o);
  }

  lemma AppendedEntries(es0: seq<TopicProgress>, init: seq<Observation>, o: Observation)
    requires forall i :: 0 <= i < |es0| ==> EntryCounts(es0[i], init) && es0[i].topicId != o.topic
    requires CountTopic(init + [o], o.topic) == 1
    requires CountAnswered(init + [o], o.topic) == if o.answered then 1 else 0
    ensures forall i :: 0 <= i < |es0| + 1 ==> EntryCounts((es0 + [Bump(NewTopic(o.topic), o)])[i], init + [o])
  {
    forall i | 0 <= i < |es0| ensures EntryCounts((es0 + [Bump(NewTopic(o.topic), o)])[i], init + [o]) {
      KeepEntry(es0[i], init, o);
    }
  }

  /** A pair whose topic is in the map bumps that entry only. */
  lemma AddKnownTopic(es0: seq<TopicProgress>, init: seq<Observation>, o: Observation)
    requires MapInvariant(es0, init)
    requires IndexWhere(es0, IdIs(o.topic)).Some?
    ensures MapInvariant(AddObservation(es0, o), init + [o])
  {
    var k := IndexWhere(es0, IdIs(o.topic)).value;
    var es := AddObservation(es0, o);
    assert es == es0[k := Bump(es0[k], o)];
    IdsUpdate(es0, k, Bump(es0[k], o));
    assert Ids(es0)[k] == o.topic;
    DedupStep(init, o);
    CountStep(init, o, o.topic);
    OthersDiffer(es0, k);
    BumpedEntries(es0, es, init, o, k);
  }

  /** Replacing an entry by one with the same topic keeps the topic list. */
  lemma IdsUpdate(es: seq<TopicProgress>, k: nat, e: TopicProgress)
    requires k < |es| && e.topicId == es[k].topicId
    ensures Ids(es[k := e]) == Ids(es)
  {
  }

  /** In a map whose topics are distinct, no other entry has the topic of entry `k`. */
  lemma OthersDiffer(es: seq<TopicProgress>, k: nat)
    requires k < |es| && NoDup(Ids(es))
    ensures forall i :: 0 <= i < |es| && i != k ==> es[i].topicId != es[k].topicId
  {
    forall i | 0 <= i < |es| && i != k ensures es[i].topicId != es[k].topicId {
      assert Ids(es)[i] == es[i].topicId && Ids(es)[k] == es[k].topicId;
    }
  }

  lemma BumpedEntries(es0: seq<TopicProgress>, es: seq<TopicProgress>, init: seq<Observation>, o: Observation, k: nat)
    requires k < |es0| && es0[k].topicId == o.topic && es == es0[k := Bump(es0[k], o)]
    requires forall i :: 0 <= i < |es0| ==> EntryCounts(es0[i], init)
    requires forall i :: 0 <= i < |es0| && i != k ==> es0[i].topicId != o.topic
    requires CountTopic(init + [o], o.topic) == CountTopic(init, o.topic) + 1
    requires CountAnswered(init + [o], o.topic) == CountAnswered(init, o.topic) + if o.answered then 1 else 0
    ensures forall i :: 0 <= i < |es| ==> EntryCounts(es[i], init + [o])
  {
    forall i | 0 <= i < |es0| && i != k ensures EntryCounts(es0[i], init + [o]) {
      KeepEntry(es0[i], init, o);
    }
  }

  lemma {:induction false} CountAnsweredAtMost(obs: seq<Observation>, topic: string)
    ensures CountAnswered(obs, topic) <= CountTopic(obs, topic)
  {
    if |obs| > 0 {
      CountAnsweredAtMost(obs[..|obs| - 1], topic);
    }
  }

  lemma {:induction false} CountPresent(obs: seq<Observation>, topic: string)
    requires topic in TopicsOf(obs)
    ensures CountTopic(obs, topic) >= 1
  {
    var init := obs[..|obs| - 1];
    assert TopicsOf(init) == TopicsOf(obs)[..|obs| - 1];
    if obs[|obs| - 1].topic != topic {
      assert TopicsOf(obs)[|obs| - 1] == obs[|obs| - 1].topic;
      CountPresent(init, topic);
    }
  }

  function Unanswered(e: TopicProgress): bool {
    e.answeredQuestions == 0
  }

  /** The weak and strong topics as the source's loop sorts them: a scored topic is
      weak below 3 and strong from 4; an unscored one is weak when nothing was answered. */
  function ClassifyTopics(es: seq<TopicProgress>): (seq<string>, seq<string>) {
    if |es| == 0 then ([], [])
    else
      var (weak, strong) := ClassifyTopics(es[1..]);
      var e := es[0];
      if e.averageScore.Some? then
        if e.averageScore.value < 3.0 then ([e.topicId] + weak, strong)
        else if e.averageScore.value >= 4.0 then (weak, [e.topicId] + strong)
        else (weak, strong)
      else if e.answeredQuestions == 0 then ([e.topicId] + weak, strong)
      else (weak, strong)
  }

  /** Over entries without scores, as the topic map's are, no topic is strong and the
      weak ones are exactly those with nothing answered, in order. */
  lemma {:induction false} ClassifyUnscored(es: seq<TopicProgress>)
    requires forall i :: 0 <= i < |es| ==> es[i].averageScore.None?
    ensures ClassifyTopics(es).1 == []
    ensures ClassifyTopics(es).0 == Ids(Filter(es, Unanswered))
  {
    if |es| > 0 {
      ClassifyUnscored(es[1..]);
      FilterCons(es, Unanswered);
      IdsCons(es[0], Filter(es[1..], Unanswered));
    }
  }

  /** The ids of an entry in front of others. */
  lemma IdsCons(e: TopicProgress, es: seq<TopicProgress>)
    ensures Ids([e] + es) == [e.topicId] + Ids(es)
  {
    assert forall i :: 0 < i < |es| + 1 ==> ([e] + es)[i] == es[i - 1];
  }

  /** What a result adds to the overall score: its evaluation's score, or 0. */
  function ScoreOf(r: TestResult): real {
    if r.feedback.Some? then r.feedback.value.overallScore else 0.0
  }

  function ScoreSum(rs: seq<TestResult>): real {
    if |rs| == 0 then 0.0 else ScoreOf(rs[0]) + ScoreSum(rs[1..])
  }

  /** The mean score of the results, 0 when there are none. */
  function AverageScore(rs: seq<TestResult>): real {
    if |rs| > 0 then ScoreSum(rs) / |rs| as real else 0.0
  }

  /** `calculateLearningProgress`: the number and mean score of the counted tests,
      the topic map, and the weak and strong topics. */
  function CalculateLearningProgress(results: seq<TestResult>, level: Level): (p: LearningProgress)
    ensures p.level == level
    ensures p.totalTests == |Counted(results, level)| <= |results|
    ensures p.totalTests == 0 ==> p.averageScore == 0.0
    ensures |p.topics| <= |Observations(Counted(results, level))|
  {
    var counted := Counted(results, level);
    var topics := TopicEntries(Observations(counted));
    TopicEntriesSpec(Observations(counted));
    assert |topics| == |Ids(topics)|;
    var (weak, strong) := ClassifyTopics(topics);
    LearningProgress(level, |counted|, AverageScore(counted), topics, weak, strong)
  }

  /** The topics of the learning progress: one entry per distinct topic of the counted
      (result, question) pairs, in first-seen order, counting those pairs and the
      answered ones (never more), each with at least one question; no strong topic,
      and the weak ones exactly those with nothing answered. */
  lemma LearningTopics(results: seq<TestResult>, level: Level)
    ensures var p := CalculateLearningProgress(results, level);
      var obs := Observations(Counted(results, level));
      && Ids(p.topics) == Dedup(TopicsOf(obs))
      && (forall i :: 0 <= i < |p.topics| ==>
            && p.topics[i].totalQuestions == CountTopic(obs, p.topics[i].topicId)
            && p.topics[i].answeredQuestions == CountAnswered(obs, p.topics[i].topicId)
            && 1 <= p.topics[i].totalQuestions
            && p.topics[i].answeredQuestions <= p.topics[i].totalQuestions)
      && p.strongTopics == []
      && p.weakTopics == Ids(Filter(p.topics, Unanswered))
  {
    var p := CalculateLearningProgress(results, level);
    var obs := Observations(Counted(results, level));
    TopicEntriesSpec(obs);
    forall i | 0 <= i < |p.topics|
      ensures 1 <= p.topics[i].totalQuestions <= p.topics[i].totalQuestions
      ensures p.topics[i].answeredQuestions <= p.topics[i].totalQuestions
    {
      assert EntryCounts(p.topics[i], obs);
      assert Ids(p.topics)[i] == p.topics[i].topicId;
      CountPresent(obs, p.topics[i].topicId);
      CountAnsweredAtMost(obs, p.topics[i].topicId);
    }
    ClassifyUnscored(p.topics);
  }

  lemma {:induction false} ScoreSumBounds(rs: seq<TestResult>, hi: real)
    requires forall i :: 0 <= i < |rs| ==> 0.0 <= ScoreOf(rs[i]) <= hi
    ensures 0.0 <= ScoreSum(rs) <= hi * |rs| as real
  {
    if |rs| > 0 {
      assert forall i :: 0 <= i < |rs[1..]| ==> rs[1..][i] == rs[i + 1];
      ScoreSumBounds(rs[1..], hi);
    }
  }

  lemma DivBound(sum: real, n: real, hi: real)
    requires n > 0.0 && 0.0 <= sum <= hi * n
    ensures 0.0 <= sum / n <= hi
  {
    var q := sum / n;
    assert q * n == sum;
    if q > hi {
      assert (q - hi) * n > 0.0;
    }
  }

  /** When every score lies between 0 and `hi`, so does the mean score. */
  lemma AverageScoreBounds(results: seq<TestResult>, level: Level, hi: real)
    requires 0.0 <= hi
    requires forall i :: 0 <= i < |results| ==> 0.0 <= ScoreOf(results[i]) <= hi
    ensures 0.0 <= CalculateLearningProgress(results, level).averageScore <= hi
  {
    var counted := Counted(results, level);
    forall i | 0 <= i < |counted| ensures 0.0 <= ScoreOf(counted[i]) <= hi {
      assert counted[i] in results;
    }
    MeanBounds(counted, hi);
  }

  lemma MeanBounds(rs: seq<TestResult>, hi: real)
    requires 0.0 <= hi
    requires forall i :: 0 <= i < |rs| ==> 0.0 <= ScoreOf(rs[i]) <= hi
    ensures 0.0 <= AverageScore(rs) <= hi
  {
    ScoreSumBounds(rs, hi);
    if |rs| > 0 {
      DivBound(ScoreSum(rs), |rs| as real, hi);
    }
  }

  // ----- getTopicCompletionRate -----

  /** `getTopicCompletionRate`: the answered share of the topic's questions, in
      percent; 0 for a topic without questions. */
  function GetTopicCompletionRate(t: TopicProgress): (rate: real)
    ensures t.totalQuestions == 0 ==> rate == 0.0
    ensures t.answeredQuestions <= t.totalQuestions ==> 0.0 <= rate <= 100.0
    ensures t.totalQuestions > 0 ==> (rate == 100.0 <==> t.answeredQuestions == t.totalQuestions)
    ensures t.totalQuestions > 0 ==> (rate == 0.0 <==> t.answeredQuestions == 0)
  {
    if t.totalQuestions == 0 then 0.0
    else
      var a := t.answeredQuestions as real;
      var n := t.totalQuestions as real;
      assert a / n * 100.0 == 100.0 ==> a == n by {
        if a / n * 100.0 == 100.0 { assert a / n == 1.0; }
      }
      a / n * 100.0
  }
}

=== FILE: sample_answers.dfy ===
/** The sample-answer store of lib/sample-answers.ts. The source keeps the store in
    a JSON file that every operation loads and writes back; here the store is a
    map passed in and returned, and the clock reading is a parameter. */
module SampleAnswers {
  import opened Wrappers
  import opened Strings
  import opened Seqs
  import opened Types

  /** One stored answer. The timestamps are the ISO strings the source writes. */
  datatype SampleAnswerData = SampleAnswerData(
    text: string,
    source: Source,
    quality: Quality,
    extractedAt: Option<string>,
    updatedAt: Option<string>)

  /** The store: question id to stored answer. */
  type Store = map<string, SampleAnswerData>

  /** `getSampleAnswer`: the entry stored under the id, or nothing. */
  function GetSampleAnswer(store: Store, questionId: string): (r: Option<SampleAnswerData>)
    ensures r.Some? <==> questionId in store
    ensures r.Some? ==> r.value == store[questionId]
  {
    if questionId in store then Some(store[questionId]) else None
  }

  /** The entry written for `text` over what was stored before: the first
      extraction time survives when it is a non-empty string, otherwise it is `now`. */
  function NewEntry(existing: Option<SampleAnswerData>, text: string, source: Source, quality: Quality, now: string): (d: SampleAnswerData)
    ensures (d.text, d.source, d.quality, d.updatedAt) == (text, source, quality, Some(now))
    ensures existing.Some? && Truthy(existing.value.extractedAt) ==> d.extractedAt == existing.value.extractedAt
    ensures !(existing.Some? && Truthy(existing.value.extractedAt)) ==> d.extractedAt == Some(now)
  {
    var extractedAt := if existing.Some? && Truthy(existing.value.extractedAt) then existing.value.extractedAt else Some(now);
    SampleAnswerData(text, source, quality, extractedAt, Some(now))
  }

  /** `saveSampleAnswer`: stores `answer` under the id, keeping the first
      extraction time, and leaves every other entry as it was. */
  function SaveSampleAnswer(store: Store, questionId: string, answer: string, now: string,
                            source: Source := Pdf, quality: Quality := Unverified): (r: Store)
    ensures r.Keys == store.Keys + {questionId}
    ensures r[questionId] == NewEntry(GetSampleAnswer(store, questionId), answer, source, quality, now)
    ensures forall k :: k in store && k != questionId ==> r[k] == store[k]
  {
    store[questionId := NewEntry(GetSampleAnswer(store, questionId), answer, source, quality, now)]
  }

  /** The first save of an id fixes its extraction time: a later save of the same id
      replaces the text but keeps that time. */
  lemma SaveKeepsFirstExtraction(store: Store, questionId: string, first: string, second: string,
                                 now1: string, now2: string, source: Source, quality: Quality)
    requires questionId !in store && now1 != ""
    ensures var once := SaveSampleAnswer(store, questionId, first, now1, source, quality);
      var twice := SaveSampleAnswer(once, questionId, second, now2, source, quality);
      twice[questionId].extractedAt == Some(now1) && twice[questionId].text == second
  {
  }

  /** `saveSampleAnswers`: every answer of the batch stored under its id with the
      same source, quality and time, each keeping its first extraction time; ids
      outside the batch keep their entries. */
  function SaveSampleAnswers(store: Store, answers: map<string, string>, now: string,
                             source: Source := Pdf, quality: Quality := Unverified): (r: Store)
    ensures r.Keys == store.Keys + answers.Keys
    ensures forall k :: k in answers ==> r[k] == NewEntry(GetSampleAnswer(store, k), answers[k], source, quality, now)
    ensures forall k :: k in store && k !in answers ==> r[k] == store[k]
  {
    map k | k in store.Keys + answers.Keys ::
      if k in answers then NewEntry(GetSampleAnswer(store, k), answers[k], source, quality, now) else store[k]
  }

  /** Saving the answers one by one, in the order `ids` lists them. */
  function SaveEach(store: Store, ids: seq<string>, answers: map<string, string>, now: string,
                    source: Source, quality: Quality): Store
    requires forall i :: 0 <= i < |ids| ==> ids[i] in answers
    decreases |ids|
  {
    if |ids| == 0 then store
    else SaveEach(SaveSampleAnswer(store, ids[0], answers[ids[0]], now, source, quality), ids[1..], answers, now, source, quality)
  }

  /** The batch save is the single save repeated over the batch in any order that
      lists each id once. */
  lemma {:induction false} SaveSampleAnswersIsSaveEach(store: Store, ids: seq<string>, answers: map<string, string>,
                                                       now: string, source: Source, quality: Quality)
    requires NoDup(ids)
    requires forall i :: 0 <= i < |ids| ==> ids[i] in answers
    requires forall k :: k in answers ==> k in ids
    ensures SaveEach(store, ids, answers, now, source, quality) == SaveSampleAnswers(store, answers, now, source, quality)
    decreases |ids|
  {
    if |ids| == 0 {
      assert answers.Keys == {};
      assert SaveSampleAnswers(store, answers, now, source, quality) == store;
    } else {
      var id := ids[0];
      var once := SaveSampleAnswer(store, id, answers[id], now, source, quality);
      var rest := answers - {id};
      TailCoversRest(ids, answers);
      SaveSampleAnswersIsSaveEach(once, ids[1..], rest, now, source, quality);
      SaveEachIgnoresRemoved(once, ids[1..], answers, rest, now, source, quality);
      SaveBatchStep(store, id, answers, now, source, quality);
    }
  }

  /** Removing the first of a duplicate-free list of the batch's ids leaves a list of
      exactly the other ids. */
  lemma TailCoversRest(ids: seq<string>, answers: map<string, string>)
    requires |ids| > 0 && NoDup(ids)
    requires forall i :: 0 <= i < |ids| ==> ids[i] in answers
    requires forall k :: k in answers ==> k in ids
    ensures NoDup(ids[1..])
    ensures forall i :: 0 <= i < |ids[1..]| ==> ids[1..][i] in answers - {ids[0]}
    ensures forall k :: k in answers - {ids[0]} ==> k in ids[1..]
  {
    forall k | k in answers - {ids[0]} ensures k in ids[1..] {
      var i :| 0 <= i < |ids| && ids[i] == k;
      assert ids[1..][i - 1] == k;
    }
    forall i | 0 <= i < |ids[1..]| ensures ids[1..][i] in answers - {ids[0]} {
      assert ids[1..][i] == ids[i + 1];
    }
    forall i, j | 0 <= i < j < |ids[1..]| ensures ids[1..][i] != ids[1..][j] {
      assert ids[1..][i] == ids[i + 1] && ids[1..][j] == ids[j + 1];
    }
  }

  /** Saving one answer of the batch and then the rest is saving the whole batch. */
  lemma SaveBatchStep(store: Store, id: string, answers: map<string, string>, now: string, source: Source, quality: Quality)
    requires id in answers
    ensures SaveSampleAnswers(SaveSampleAnswer(store, id, answers[id], now, source, quality), answers - {id}, now, source, quality)
         == SaveSampleAnswers(store, answers, now, source, quality)
  {
    var once := SaveSampleAnswer(store, id, answers[id], now, source, quality);
    var rest := answers - {id};
    var lhs := SaveSampleAnswers(once, rest, now, source, quality);
    var rhs := SaveSampleAnswers(store, answers, now, source, quality);
    assert lhs.Keys == rhs.Keys;
    forall k | k in lhs.Keys ensures lhs[k] == rhs[k] {
      if k == id {
        assert k !in rest;
      } else if k in rest {
        assert GetSampleAnswer(once, k) == GetSampleAnswer(store, k);
      }
    }
  }

  /** Saving over ids that both maps hold with the same answers gives the same store. */
  lemma {:induction false} SaveEachIgnoresRemoved(store: Store, ids: seq<string>, answers: map<string, string>,
                                                  fewer: map<string, string>, now: string, source: Source, quality: Quality)
    requires forall i :: 0 <= i < |ids| ==> ids[i] in fewer
    requires forall k :: k in fewer ==> k in answers && answers[k] == fewer[k]
    ensures SaveEach(store, ids, answers, now, source, quality) == SaveEach(store, ids, fewer, now, source, quality)
    decreases |ids|
  {
    if |ids| > 0 {
      SaveEachIgnoresRemoved(SaveSampleAnswer(store, ids[0], fewer[ids[0]], now, source, quality),
                             ids[1..], answers, fewer, now, source, quality);
    }
  }

  /** `matchAnswersToQuestions`: the answers, under the same id, of the questions
      that have a non-empty one. */
  function MatchAnswersToQuestions(questions: seq<Question>, answers: map<string, string>): (r: map<string, string>)
    ensures forall id :: id in r <==>
      (exists i :: 0 <= i < |questions| && questions[i].id == id) && id in answers && answers[id] != ""
    ensures forall id :: id in r ==> r[id] == answers[id]
  {
    if |questions| == 0 then map[]
    else
      var init := questions[..|questions| - 1];
      var q := questions[|questions| - 1];
      var rest := MatchAnswersToQuestions(init, answers);
      assert forall i :: 0 <= i < |init| ==> init[i] == questions[i];
      if q.id in answers && answers[q.id] != "" then rest[q.id := answers[q.id]] else rest
  }

  /** The fields a stored entry spreads onto its question. */
  function WithStoredAnswer(q: Question, d: SampleAnswerData): Question {
    q.(sampleAnswer := Some(d.text), sampleAnswerSource := Some(d.source), sampleAnswerQuality := Some(d.quality))
  }

  /** `loadSampleAnswersForQuestions`: the questions in order, those with a stored
      entry carrying its text, source and quality and nothing else changed. */
  function LoadSampleAnswersForQuestions(store: Store, questions: seq<Question>): (r: seq<Question>)
    ensures |r| == |questions|
    ensures forall i :: 0 <= i < |r| && questions[i].id in store ==>
      && r[i].sampleAnswer == Some(store[questions[i].id].text)
      && r[i].sampleAnswerSource == Some(store[questions[i].id].source)
      && r[i].sampleAnswerQuality == Some(store[questions[i].id].quality)
      && r[i] == questions[i].(sampleAnswer := r[i].sampleAnswer, sampleAnswerSource := r[i].sampleAnswerSource,
                               sampleAnswerQuality := r[i].sampleAnswerQuality)
    ensures forall i :: 0 <= i < |r| && questions[i].id !in store ==> r[i] == questions[i]
  {
    seq(|questions|, i requires 0 <= i < |questions| =>
      if questions[i].id in store then WithStoredAnswer(questions[i], store[questions[i].id]) else questions[i])
  }

  /** Loading twice is loading once. */
  lemma LoadIdempotent(store: Store, questions: seq<Question>)
    ensures LoadSampleAnswersForQuestions(store, LoadSampleAnswersForQuestions(store, questions))
         == LoadSampleAnswersForQuestions(store, questions)
  {
  }

  /** After an answer is saved for an id, every question with that id loads it. */
  lemma SaveThenLoad(store: Store, questionId: string, answer: string, now: string, source: Source, quality: Quality,
                     questions: seq<Question>, i: nat)
    requires i < |questions| && questions[i].id == questionId
    ensures var loaded := LoadSampleAnswersForQuestions(SaveSampleAnswer(store, questionId, answer, now, source, quality), questions);
      loaded[i].sampleAnswer == Some(answer) && loaded[i].sampleAnswerSource == Some(source)
      && loaded[i].sampleAnswerQuality == Some(quality)
  {
  }

  /** `deleteSampleAnswer`: removes the entry and reports whether there was one. */
  function DeleteSampleAnswer(store: Store, questionId: string): (r: (Store, bool))
    ensures r.1 <==> questionId in store
    ensures r.0.Keys == store.Keys - {questionId}
    ensures forall k :: k in r.0 ==> r.0[k] == store[k]
    ensures !r.1 ==> r.0 == store
  {
    if questionId in store then (store - {questionId}, true) else (store, false)
  }

  /** Deleting what was just saved under a new id gives the store back. */
  lemma DeleteUndoesSave(store: Store, questionId: string, answer: string, now: string, source: Source, quality: Quality)
    requires questionId !in store
    ensures DeleteSampleAnswer(SaveSampleAnswer(store, questionId, answer, now, source, quality), questionId) == (store, true)
  {
    var saved := SaveSampleAnswer(store, questionId, answer, now, source, quality);
    assert saved - {questionId} == store by {
      assert (saved - {questionId}).Keys == store.Keys;
    }
  }

  /** Whether `getUnverifiedAnswers` lists the entry stored under `k`. */
  predicate UnverifiedListed(store: Store, k: string) {
    k in store && store[k].quality == Unverified
  }

  /** `getUnverifiedAnswers`: each unverified entry once, paired with its id. The
      order of the source's `Object.entries` is not modelled. */
  method GetUnverifiedAnswers(store: Store) returns (r: seq<(string, SampleAnswerData)>)
    ensures forall i :: 0 <= i < |r| ==> UnverifiedListed(store, r[i].0) && r[i].1 == store[r[i].0]
    ensures forall k :: UnverifiedListed(store, k) ==> (k, store[k]) in r
    ensures forall i, j :: 0 <= i < j < |r| ==> r[i].0 != r[j].0
  {
    r := [];
    var todo := store.Keys;
    while todo != {}
      invariant todo <= store.Keys
      invariant forall i :: 0 <= i < |r| ==> r[i].0 in store && r[i].0 !in todo && r[i].1 == store[r[i].0] && r[i].1.quality == Unverified
      invariant forall k :: k in store && k !in todo && store[k].quality == Unverified ==> (k, store[k]) in r
      invariant forall i, j :: 0 <= i < j < |r| ==> r[i].0 != r[j].0
      decreases todo
    {
      var k :| k in todo;
      if store[k].quality == Unverified {
        r := r + [(k, store[k])];
      }
      todo := todo - {k};
    }
  }

  /** `updateAnswerQuality`: sets the quality and the update time of a stored entry
      and reports whether there was one; nothing else changes. */
  function UpdateAnswerQuality(store: Store, questionId: string, quality: Quality, now: string): (r: (Store, bool))
    ensures r.1 <==> questionId in store
    ensures !r.1 ==> r.0 == store
    ensures r.0.Keys == store.Keys
    ensures r.1 ==> r.0[questionId] == store[questionId].(quality := quality, updatedAt := Some(now))
    ensures forall k :: k in store && k != questionId ==> r.0[k] == store[k]
  {
    if questionId in store then
      (store[questionId := store[questionId].(quality := quality, updatedAt := Some(now))], true)
    else (store, false)
  }

  /** Marking an entry verified takes it out of the unverified listing, and marking it
      unverified puts it in, text untouched. */
  lemma UpdateQualityDecidesListing(store: Store, questionId: string, quality: Quality, now: string)
    requires questionId in store
    ensures var after := UpdateAnswerQuality(store, questionId, quality, now).0;
      && (UnverifiedListed(after, questionId) <==> quality == Unverified)
      && (forall k :: k != questionId ==> (UnverifiedListed(after, k) <==> UnverifiedListed(store, k)))
      && after[questionId].text == store[questionId].text
  {
  }
}

=== FILE: sample_answers_route.dfy ===
/** The HTTP handlers of app/api/sample-answers/route.ts over the sample-answer
    store. A request is given by the fields the handler reads, each an Option
    (absent, or `null` for a query parameter, is None); a handler returns its
    response together with the store as it leaves it. */
module SampleAnswersRoute {
  import opened Wrappers
  import opened Strings
  import opened Types
  import opened SampleAnswers

  /** The JSON body of a response. */
  datatype Body =
    | Failure(error: string)
    | Found(questionId: string, answer: SampleAnswerData)
    | UnverifiedList(count: nat, entries: seq<(string, SampleAnswerData)>)
    | All(count: nat, answers: Store)
    | Done(message: string, questionId: string)
    | BatchSaved(count: nat)
    | QualitySet(questionId: string, quality: Quality)

  datatype Response = Response(status: int, body: Body)

  const NotFound := Response(404, Failure("Sample answer not found"))

  /** The single-answer branch of GET: the stored entry, or 404. */
  function GetOne(store: Store, questionId: string): (r: Response)
    ensures r.status == 200 <==> questionId in store
    ensures r.status == 200 ==> r.body == Found(questionId, store[questionId])
    ensures r.status != 200 ==> r.status == 404
  {
    match GetSampleAnswer(store, questionId)
    case None => NotFound
    case Some(d) => Response(200, Found(questionId, d))
  }

  /** GET: one answer when a non-empty `questionId` is given, else the unverified
      answers when `unverifiedOnly` is exactly "true", else the whole store with the
      number of its ids. The store is only read. */
  method Get(store: Store, questionId: Option<string>, unverifiedOnly: Option<string>) returns (r: Response)
    ensures Truthy(questionId) ==> r == GetOne(store, questionId.value)
    ensures !Truthy(questionId) && unverifiedOnly == Some("true") ==>
      && r.status == 200 && r.body.UnverifiedList? && r.body.count == |r.body.entries|
      && (forall i :: 0 <= i < |r.body.entries| ==>
            var e := r.body.entries[i]; e.0 in store && e.1 == store[e.0] && e.1.quality == Unverified)
      && (forall k :: k in store && store[k].quality == Unverified ==> (k, store[k]) in r.body.entries)
      && (forall i, j :: 0 <= i < j < |r.body.entries| ==> r.body.entries[i].0 != r.body.entries[j].0)
    ensures !Truthy(questionId) && unverifiedOnly != Some("true") ==> r == Response(200, All(|store.Keys|, store))
  {
    if Truthy(questionId) {
      return GetOne(store, questionId.value);
    }
    if unverifiedOnly == Some("true") {
      var unverified := GetUnverifiedAnswers(store);
      return Response(200, UnverifiedList(|unverified|, unverified));
    }
    return Response(200, All(|store.Keys|, store));
  }

  /** POST: saves one answer, by default as a manual, unverified one; a missing or
      empty id or answer is refused with 400 and nothing stored. */
  function Post(store: Store, questionId: Option<string>, answer: Option<string>,
                source: Option<Source>, quality: Option<Quality>, now: string): (r: (Response, Store))
    ensures r.0.status == 400 <==> !Truthy(questionId) || !Truthy(answer)
    ensures r.0.status != 400 ==> r.0.status == 200
    ensures r.0.status == 400 ==> r.1 == store
    ensures r.0.status == 200 ==>
      && r.0.body == Done("Sample answer saved", questionId.value)
      && r.1 == SaveSampleAnswer(store, questionId.value, answer.value, now, source.GetOr(Manual), quality.GetOr(Unverified))
  {
    if !Truthy(questionId) || !Truthy(answer) then
      (Response(400, Failure("questionId and answer are required")), store)
    else
      var saved := SaveSampleAnswer(store, questionId.value, answer.value, now, source.GetOr(Manual), quality.GetOr(Unverified));
      (Response(200, Done("Sample answer saved", questionId.value)), saved)
  }

  /** An answer accepted by POST is what a following GET of its id returns, marked
      manual and unverified when the request named neither. */
  lemma PostThenGet(store: Store, questionId: string, answer: string, now: string)
    requires questionId != "" && answer != ""
    ensures var after := Post(store, Some(questionId), Some(answer), None, None, now).1;
      var got := GetOne(after, questionId);
      got.status == 200 && got.body.answer.text == answer
      && got.body.answer.source == Manual && got.body.answer.quality == Unverified
  {
  }

  /** One element of the PUT `answers` array. */
  datatype Item = Item(questionId: Option<string>, answer: Option<string>)

  function ValidItem(item: Item): bool {
    Truthy(item.questionId) && Truthy(item.answer)
  }

  /** Item `i` is valid, has id `k`, and no later valid item has that id. */
  predicate LastValidFor(items: seq<Item>, i: nat, k: string)
    requires i < |items|
  {
    && ValidFor(items, i, k)
    && forall j :: i < j < |items| && ValidItem(items[j]) ==> items[j].questionId.value != k
  }

  /** The map PUT builds: each valid item sets its id, so a later item for the same
      id overwrites an earlier one. */
  function ItemsMap(items: seq<Item>): map<string, string> {
    if |items| == 0 then map[]
    else
      var last := items[|items| - 1];
      var m := ItemsMap(items[..|items| - 1]);
      if ValidItem(last) then m[last.questionId.value := last.answer.value] else m
  }

  /** Item `i` is valid and has id `k`. */
  predicate ValidFor(items: seq<Item>, i: nat, k: string)
    requires i < |items|
  {
    ValidItem(items[i]) && items[i].questionId.value == k
  }

  /** The ids of the PUT map are exactly those of the valid items, and each maps to
      the answer of the last valid item with that id. */
  lemma {:induction false} ItemsMapLastWins(items: seq<Item>)
    ensures forall k :: k in ItemsMap(items) <==> exists i :: 0 <= i < |items| && ValidFor(items, i, k)
    ensures forall k :: k in ItemsMap(items) ==>
      exists i :: 0 <= i < |items| && LastValidFor(items, i, k) && ItemsMap(items)[k] == items[i].answer.value
  {
    if |items| > 0 {
      var init := items[..|items| - 1];
      var last := items[|items| - 1];
      ItemsMapLastWins(init);
      var m0 := ItemsMap(init);
      var m := ItemsMap(items);
      assert forall i :: 0 <= i < |init| ==> init[i] == items[i];
      forall k
        ensures k in m <==> exists i :: 0 <= i < |items| && ValidFor(items, i, k)
        ensures k in m ==> exists i :: 0 <= i < |items| && LastValidFor(items, i, k) && m[k] == items[i].answer.value
      {
        if ValidItem(last) && last.questionId.value == k {
          assert ValidFor(items, |items| - 1, k);
          assert LastValidFor(items, |items| - 1, k);
        } else {
          assert k in m <==> k in m0;
          if k in m0 {
            var i :| 0 <= i < |init| && ValidFor(init, i, k);
            assert ValidFor(items, i, k);
            var w :| 0 <= w < |init| && LastValidFor(init, w, k) && m0[k] == init[w].answer.value;
            assert LastValidFor(items, w, k);
          }
          if exists i :: 0 <= i < |items| && ValidFor(items, i, k) {
            var i :| 0 <= i < |items| && ValidFor(items, i, k);
            assert i < |init|;
            assert ValidFor(init, i, k);
          }
        }
      }
    }
  }

  /** PUT: saves every valid item of the array in one batch, by default as manual,
      unverified answers, and reports how many distinct ids it saved; a missing array
      or one without a valid item is refused with 400 and nothing stored. */
  function Put(store: Store, answers: Option<seq<Item>>, source: Option<Source>, quality: Option<Quality>,
               now: string): (r: (Response, Store))
    ensures r.0.status == 400 <==> answers.None? || ItemsMap(answers.value) == map[]
    ensures r.0.status != 400 ==> r.0.status == 200
    ensures r.0.status == 400 ==> r.1 == store
    ensures r.0.status == 200 ==>
      var m := ItemsMap(answers.value);
      && r.0.body == BatchSaved(|m.Keys|)
      && r.1 == SaveSampleAnswers(store, m, now, source.GetOr(Manual), quality.GetOr(Unverified))
  {
    if answers.None? then (Response(400, Failure("answers must be an array")), store)
    else
      var m := ItemsMap(answers.value);
      if |m.Keys| == 0 then
        assert m == map[];
        (Response(400, Failure("No valid answers provided")), store)
      else
        (Response(200, BatchSaved(|m.Keys|)), SaveSampleAnswers(store, m, now, source.GetOr(Manual), quality.GetOr(Unverified)))
  }

  /** A PUT whose array repeats an id stores the answer of its last valid item. */
  lemma PutLastItemWins(store: Store, items: seq<Item>, i: nat, now: string)
    requires i < |items| && ValidItem(items[i])
    requires forall j :: i < j < |items| && ValidItem(items[j]) ==> items[j].questionId != items[i].questionId
    ensures var r := Put(store, Some(items), None, None, now);
      var k := items[i].questionId.value;
      r.0.status == 200 && k in r.1 && r.1[k].text == items[i].answer.value
  {
    var m := ItemsMap(items);
    var k := items[i].questionId.value;
    ItemsMapLastWins(items);
    assert ValidFor(items, i, k);
    assert k in m;
    var w :| 0 <= w < |items| && LastValidFor(items, w, k) && m[k] == items[w].answer.value;
    assert w == i;
  }

  /** DELETE: removes the entry of a non-empty id, 404 when there is none and 400
      when no id is given; the store changes only on success. */
  function Delete(store: Store, questionId: Option<string>): (r: (Response, Store))
    ensures r.0.status == 400 <==> !Truthy(questionId)
    ensures r.0.status == 404 <==> Truthy(questionId) && questionId.value !in store
    ensures r.0.status == 200 <==> Truthy(questionId) && questionId.value in store
    ensures r.0.status != 200 ==> r.1 == store
    ensures r.0.status == 200 ==> r.1 == store - {questionId.value} && r.0.body == Done("Sample answer deleted", questionId.value)
  {
    if !Truthy(questionId) then (Response(400, Failure("questionId is required")), store)
    else
      var (after, deleted) := DeleteSampleAnswer(store, questionId.value);
      if !deleted then (NotFound, store)
      else (Response(200, Done("Sample answer deleted", questionId.value)), after)
  }

  /** After a successful DELETE, a GET of the same id is 404, and a second DELETE too. */
  lemma DeleteThenGet(store: Store, questionId: string)
    requires questionId in store && questionId != ""
    ensures var after := Delete(store, Some(questionId)).1;
      GetOne(after, questionId).status == 404 && Delete(after, Some(questionId)).0.status == 404
  {
  }

  /** The quality a PATCH names, when it is one of the two the store knows. */
  function ParseQuality(s: string): (r: Option<Quality>)
    ensures r == Some(Verified) <==> s == "verified"
    ensures r == Some(Unverified) <==> s == "unverified"
  {
    if s == "verified" then Some(Verified)
    else if s == "unverified" then Some(Unverified)
    else None
  }

  /** PATCH: sets the quality of a stored entry. A missing or empty id or quality,
      or a quality other than "verified" or "unverified", is 400; an id with no entry
      is 404; the store changes only on success. */
  function Patch(store: Store, questionId: Option<string>, quality: Option<string>, now: string): (r: (Response, Store))
    ensures r.0.status == 400 <==> !Truthy(questionId) || !Truthy(quality) || ParseQuality(quality.value).None?
    ensures r.0.status == 404 <==> Truthy(questionId) && Truthy(quality) && ParseQuality(quality.value).Some?
                                   && questionId.value !in store
    ensures r.0.status != 400 && r.0.status != 404 ==> r.0.status == 200
    ensures r.0.status != 200 ==> r.1 == store
    ensures r.0.status == 200 ==>
      var q := ParseQuality(quality.value).value;
      && r.1.Keys == store.Keys
      && r.1[questionId.value] == store[questionId.value].(quality := q, updatedAt := Some(now))
      && (forall k :: k in store && k != questionId.value ==> r.1[k] == store[k])
      && r.0.body == QualitySet(questionId.value, q)
  {
    if !Truthy(questionId) || !Truthy(quality) then
      (Response(400, Failure("questionId and quality are required")), store)
    else match ParseQuality(quality.value)
      case None => (Response(400, Failure("quality must be 'verified' or 'unverified'")), store)
      case Some(q) =>
        var (after, updated) := UpdateAnswerQuality(store, questionId.value, q, now);
        if !updated then (NotFound, store)
        else (Response(200, QualitySet(questionId.value, q)), after)
  }

  /** Verifying an answer through PATCH keeps its text and leaves every other entry
      as it was. */
  lemma PatchKeepsOthers(store: Store, questionId: string, now: string, other: string)
    requires questionId in store && questionId != "" && other != questionId && other in store
    ensures var after := Patch(store, Some(questionId), Some("verified"), now).1;
      after[questionId].quality == Verified && after[questionId].text == store[questionId].text
      && after[other] == store[other]
  {
  }
}

=== FILE: seqs.dfy ===
/** Sequence operations behind the source's `Array.prototype.find`/`findIndex`,
    `filter`, and `[...new Set(xs)]` / `Array.from(set)`. */
module Seqs {
  import opened Wrappers

  predicate NoDup<T(==)>(s: seq<T>) {
    forall i, j :: 0 <= i < j < |s| ==> s[i] != s[j]
  }

  /** `findIndex`: the position of the first element satisfying `p`. */
  function IndexWhere<T>(s: seq<T>, p: T -> bool): (r: Option<nat>)
    ensures r.Some? ==> r.value < |s| && p(s[r.value])
    ensures r.Some? ==> forall j :: 0 <= j < r.value ==> !p(s[j])
    ensures r.None? <==> forall j :: 0 <= j < |s| ==> !p(s[j])
  {
    if |s| == 0 then None
    else if p(s[0]) then Some(0)
    else match IndexWhere(s[1..], p)
      case None => None
      case Some(i) => Some(i + 1)
  }

  /** `find`: the first element satisfying `p`, if any. */
  function Find<T>(s: seq<T>, p: T -> bool): (r: Option<T>)
    ensures r.Some? ==> exists i :: 0 <= i < |s| && s[i] == r.value && p(s[i]) && forall j :: 0 <= j < i ==> !p(s[j])
    ensures r.None? <==> forall j :: 0 <= j < |s| ==> !p(s[j])
  {
    match IndexWhere(s, p)
    case None => None
    case Some(i) => Some(s[i])
  }

  /** `filter`: the elements satisfying `p`, in their original order. */
  function Filter<T>(s: seq<T>, p: T -> bool): (r: seq<T>)
    ensures |r| <= |s|
    ensures forall i :: 0 <= i < |r| ==> r[i] in s && p(r[i])
    ensures forall i :: 0 <= i < |s| && p(s[i]) ==> s[i] in r
  {
    if |s| == 0 then [] else (if p(s[0]) then [s[0]] else []) + Filter(s[1..], p)
  }

  /** `idx` lists, in increasing order, exactly the positions of `s` whose element
      satisfies `p`, and `r` holds the elements at those positions. */
  ghost predicate Selection<T>(r: seq<T>, s: seq<T>, p: T -> bool, idx: seq<nat>) {
    && |idx| == |r|
    && (forall k :: 0 <= k < |idx| ==> idx[k] < |s| && r[k] == s[idx[k]] && p(s[idx[k]]))
    && (forall k, l :: 0 <= k < l < |idx| ==> idx[k] < idx[l])
    && (forall i :: 0 <= i < |s| && p(s[i]) ==> i in idx)
  }

  /** `r` is the subsequence of `s` made of every element satisfying `p`, each as often
      as it occurs there and in the same order. */
  ghost predicate Selects<T>(r: seq<T>, s: seq<T>, p: T -> bool) {
    exists idx :: Selection(r, s, p, idx)
  }

  /** The positions of a selection shifted by one, as after dropping a first element. */
  function Shift(idx: seq<nat>): (r: seq<nat>)
    ensures |r| == |idx|
    ensures forall k :: 0 <= k < |idx| ==> r[k] == idx[k] + 1
  {
    seq(|idx|, k requires 0 <= k < |idx| => idx[k] + 1)
  }

  /** `Filter` keeps exactly the elements satisfying `p`, with their multiplicity and order. */
  lemma {:induction false} FilterSelects<T>(s: seq<T>, p: T -> bool)
    ensures Selects(Filter(s, p), s, p)
  {
    if |s| == 0 {
      assert Selection(Filter(s, p), s, p, []);
    } else {
      FilterSelects(s[1..], p);
      var idx0 :| Selection(Filter(s[1..], p), s[1..], p, idx0);
      var idx := SelectionCons(s, p, Filter(s[1..], p), idx0);
      assert Filter(s, p) == (if p(s[0]) then [s[0]] else []) + Filter(s[1..], p);
    }
  }

  /** A selection from the tail extends to one from the whole sequence. */
  lemma SelectionCons<T>(s: seq<T>, p: T -> bool, rest: seq<T>, idx0: seq<nat>) returns (idx: seq<nat>)
    requires |s| > 0 && Selection(rest, s[1..], p, idx0)
    ensures Selection((if p(s[0]) then [s[0]] else []) + rest, s, p, idx)
  {
    var head: seq<nat> := if p(s[0]) then [0] else [];
    idx := head + Shift(idx0);
    ConsElements(s, p, rest, idx0, head);
    ConsOrdered(idx0, head);
    ConsCovers(s, p, rest, idx0, head);
  }

  /** The picked elements part of `SelectionCons`. */
  lemma ConsElements<T>(s: seq<T>, p: T -> bool, rest: seq<T>, idx0: seq<nat>, head: seq<nat>)
    requires |s| > 0 && Selection(rest, s[1..], p, idx0)
    requires head == if p(s[0]) then [0] else []
    ensures var idx := head + Shift(idx0);
      var r := (if p(s[0]) then [s[0]] else []) + rest;
      |idx| == |r| && forall k :: 0 <= k < |idx| ==> idx[k] < |s| && r[k] == s[idx[k]] && p(s[idx[k]])
  {
    var idx := head + Shift(idx0);
    var r := (if p(s[0]) then [s[0]] else []) + rest;
    forall k | 0 <= k < |idx| ensures idx[k] < |s| && r[k] == s[idx[k]] && p(s[idx[k]]) {
      if k >= |head| {
        assert idx[k] == idx0[k - |head|] + 1;
        assert r[k] == rest[k - |head|];
        assert s[1..][idx0[k - |head|]] == s[idx[k]];
      }
    }
  }

  /** The increasing positions part of `SelectionCons`. */
  lemma ConsOrdered(idx0: seq<nat>, head: seq<nat>)
    requires forall k, l :: 0 <= k < l < |idx0| ==> idx0[k] < idx0[l]
    requires head == [] || head == [0]
    ensures var idx := head + Shift(idx0);
      forall k, l :: 0 <= k < l < |idx| ==> idx[k] < idx[l]
  {
    var idx := head + Shift(idx0);
    forall k, l | 0 <= k < l < |idx| ensures idx[k] < idx[l] {
      if k >= |head| {
        assert idx0[k - |head|] < idx0[l - |head|];
      }
    }
  }

  /** The every-match-is-picked part of `SelectionCons`. */
  lemma ConsCovers<T>(s: seq<T>, p: T -> bool, rest: seq<T>, idx0: seq<nat>, head: seq<nat>)
    requires |s| > 0 && Selection(rest, s[1..], p, idx0)
    requires head == if p(s[0]) then [0] else []
    ensures var idx := head + Shift(idx0);
      forall i :: 0 <= i < |s| && p(s[i]) ==> i in idx
  {
    var idx := head + Shift(idx0);
    forall i | 0 <= i < |s| && p(s[i]) ensures i in idx {
      if i > 0 {
        assert s[1..][i - 1] == s[i];
        assert i - 1 in idx0;
        var k :| 0 <= k < |idx0| && idx0[k] == i - 1;
        assert idx[|head| + k] == i;
      } else {
        assert idx[0] == 0;
      }
    }
  }

  /** `Filter` neither drops nor merges repeated elements: each passing element
      occurs in the result as often as in the input. */
  lemma {:induction false} FilterCount<T>(s: seq<T>, p: T -> bool)
    ensures forall x :: multiset(Filter(s, p))[x] == if p(x) then multiset(s)[x] else 0
  {
    if |s| > 0 {
      FilterCount(s[1..], p);
      assert s == [s[0]] + s[1..];
      assert multiset(s) == multiset([s[0]]) + multiset(s[1..]);
      assert Filter(s, p) == (if p(s[0]) then [s[0]] else []) + Filter(s[1..], p);
    }
  }

  /** Filtering a non-empty sequence decides its first element, then filters the rest. */
  lemma FilterCons<T>(s: seq<T>, p: T -> bool)
    requires |s| > 0
    ensures Filter(s, p) == (if p(s[0]) then [s[0]] else []) + Filter(s[1..], p)
  {
  }

  /** A one-element sequence is kept whole or dropped. */
  lemma FilterOne<T>(x: T, p: T -> bool)
    ensures Filter([x], p) == if p(x) then [x] else []
  {
    FilterCons([x], p);
    assert [x][1..] == [];
  }

  /** Nothing passes a filter that no element satisfies. */
  lemma {:induction false} FilterNone<T>(s: seq<T>, p: T -> bool)
    requires forall i :: 0 <= i < |s| ==> !p(s[i])
    ensures Filter(s, p) == []
  {
    if |s| > 0 {
      FilterNone(s[1..], p);
    }
  }

  /** Filtering distributes over concatenation, so it keeps the relative order of what it keeps. */
  lemma {:induction false} FilterAppend<T>(a: seq<T>, b: seq<T>, p: T -> bool)
    ensures Filter(a + b, p) == Filter(a, p) + Filter(b, p)
  {
    if |a| > 0 {
      assert (a + b)[0] == a[0];
      assert (a + b)[1..] == a[1..] + b;
      FilterAppend(a[1..], b, p);
    } else {
      assert a + b == b;
    }
  }

  /** Position of the first occurrence of `x`. */
  function FirstIndex<T(==)>(s: seq<T>, x: T): (i: nat)
    requires x in s
    ensures i < |s| && s[i] == x && x !in s[..i]
  {
    if s[0] == x then 0 else FirstIndex(s[1..], x) + 1
  }

  lemma FirstIndexPrefix<T>(s: seq<T>, t: seq<T>, x: T)
    requires x in s
    ensures FirstIndex(s + t, x) == FirstIndex(s, x)
  {
    var i := FirstIndex(s, x);
    assert (s + t)[i] == x;
  }

  /** `[...new Set(s)]`: the elements of `s` without repetition, each at the place
      of its first occurrence. */
  function Dedup<T(==)>(s: seq<T>): (r: seq<T>)
    ensures NoDup(r)
    ensures forall i :: 0 <= i < |r| ==> r[i] in s
    ensures forall i :: 0 <= i < |s| ==> s[i] in r
    ensures |r| <= |s|
    ensures forall i, j :: 0 <= i < j < |r| ==> FirstIndex(s, r[i]) < FirstIndex(s, r[j])
  {
    if |s| == 0 then []
    else
      var init := s[..|s| - 1];
      var x := s[|s| - 1];
      var d := Dedup(init);
      assert s == init + [x];
      forall y | y in init ensures FirstIndex(s, y) == FirstIndex(init, y) {
        FirstIndexPrefix(init, [x], y);
      }
      if x in d then d
      else
        assert FirstIndex(s, x) == |s| - 1;
        d + [x]
  }

  /** `flatMap`: the pieces `f` yields for the elements of `s`, joined in order.
      The two postconditions only unfold one step for callers; what the result
      means is stated by `FlattenMember` and `FlattenAppend`. */
  function Flatten<T, U>(s: seq<T>, f: T -> seq<U>): (r: seq<U>)
    ensures |s| == 0 ==> r == []
    ensures |s| > 0 ==> r == f(s[0]) + Flatten(s[1..], f)
  {
    if |s| == 0 then [] else f(s[0]) + Flatten(s[1..], f)
  }

  /** An element of a flattening comes from the image of some element, and every
      element of every image is in it. */
  lemma {:induction false} FlattenMember<T, U>(s: seq<T>, f: T -> seq<U>, x: U)
    ensures x in Flatten(s, f) <==> exists k :: 0 <= k < |s| && x in f(s[k])
  {
    if |s| > 0 {
      var rest := s[1..];
      FlattenMember(rest, f, x);
      if exists k :: 0 <= k < |s| && x in f(s[k]) {
        var k :| 0 <= k < |s| && x in f(s[k]);
        if k > 0 {
          assert rest[k - 1] == s[k];
        }
      }
      if x in Flatten(rest, f) {
        var k :| 0 <= k < |rest| && x in f(rest[k]);
        assert s[k + 1] == rest[k];
      }
    }
  }

  /** A one-element sequence flattens to the image of its element. */
  lemma FlattenOne<T, U>(x: T, f: T -> seq<U>)
    ensures Flatten([x], f) == f(x)
  {
    assert [x][1..] == [];
    assert Flatten([x][1..], f) == [];
  }

  /** Flattening distributes over concatenation. */
  lemma {:induction false} FlattenAppend<T, U>(a: seq<T>, b: seq<T>, f: T -> seq<U>)
    ensures Flatten(a + b, f) == Flatten(a, f) + Flatten(b, f)
  {
    if |a| == 0 {
      assert a + b == b;
    } else {
      assert (a + b)[0] == a[0];
      assert (a + b)[1..] == a[1..] + b;
      FlattenAppend(a[1..], b, f);
    }
  }
}

=== FILE: strings.dfy ===
/** String helpers with the JavaScript meaning the source relies on: `trim`,
    `includes`, `startsWith`, `endsWith`, truthiness of optional strings,
    ASCII lower-casing and decimal rendering of counters. */
module Strings {
  import opened Wrappers

  /** The characters matched by JavaScript's `\s` class, which are also the ones
      `String.prototype.trim` removes (WhiteSpace and LineTerminator). */
  predicate IsSpace(c: char) {
    || c == '\t' || c == '\n' || c == '\U{000B}' || c == '\U{000C}' || c == '\r'
    || c == ' ' || c == '\U{00A0}' || c == '\U{1680}'
    || ('\U{2000}' <= c <= '\U{200A}')
    || c == '\U{2028}' || c == '\U{2029}' || c == '\U{202F}' || c == '\U{205F}'
    || c == '\U{3000}' || c == '\U{FEFF}'
  }

  predicate AllSpaces(s: string) {
    forall k :: 0 <= k < |s| ==> IsSpace(s[k])
  }

  /** A string `trim` leaves as it is. */
  predicate IsTrimmed(s: string) {
    |s| == 0 || (!IsSpace(s[0]) && !IsSpace(s[|s| - 1]))
  }

  /** The value of an optional string in a JavaScript condition: absent and empty are false. */
  predicate Truthy(o: Option<string>) {
    o.Some? && o.value != ""
  }

  /** Index of the first character at or after `i` that is not white space. */
  function SkipSpaces(s: string, i: nat): (j: nat)
    requires i <= |s|
    ensures i <= j <= |s|
    ensures forall k :: i <= k < j ==> IsSpace(s[k])
    ensures j < |s| ==> !IsSpace(s[j])
    decreases |s| - i
  {
    if i < |s| && IsSpace(s[i]) then SkipSpaces(s, i + 1) else i
  }

  /** Index just past the last character that is not white space, searching below `j`. */
  function TrailingStart(s: string, lo: nat, j: nat): (k: nat)
    requires lo <= j <= |s|
    ensures lo <= k <= j
    ensures forall m :: k <= m < j ==> IsSpace(s[m])
    ensures k > lo ==> !IsSpace(s[k - 1])
    decreases j
  {
    if j > lo && IsSpace(s[j - 1]) then TrailingStart(s, lo, j - 1) else j
  }

  /** `String.prototype.trim`: the longest slice with no leading or trailing white space. */
  function Trim(s: string): (r: string)
    ensures IsTrimmed(r)
    ensures |r| <= |s|
    ensures exists i, j :: 0 <= i <= j <= |s| && r == s[i..j] && AllSpaces(s[..i]) && AllSpaces(s[j..])
  {
    var i := SkipSpaces(s, 0);
    var j := TrailingStart(s, i, |s|);
    assert AllSpaces(s[..i]) && AllSpaces(s[j..]);
    assert j > i ==> !IsSpace(s[i]);
    s[i..j]
  }

  lemma TrimOfTrimmed(s: string)
    requires IsTrimmed(s)
    ensures Trim(s) == s
  {
  }

  /** `trim` is idempotent. */
  lemma TrimIdempotent(s: string)
    ensures Trim(Trim(s)) == Trim(s)
  {
    TrimOfTrimmed(Trim(s));
  }

  function LowerChar(c: char): char {
    if 'A' <= c <= 'Z' then (c as int + 32) as char else c
  }

  /** Lower-casing as far as it matters for the English keywords of the source:
      no capital A-Z is left, each one becomes its small letter, and every other
      character stays as it was. */
  function LowerAscii(s: string): (r: string)
    ensures |r| == |s|
    ensures forall k :: 0 <= k < |s| ==> !('A' <= r[k] <= 'Z')
    ensures forall k :: 0 <= k < |s| ==>
      if 'A' <= s[k] <= 'Z' then r[k] as int == s[k] as int + 32 else r[k] == s[k]
  {
    seq(|s|, k requires 0 <= k < |s| => LowerChar(s[k]))
  }

  predicate StartsWith(s: string, prefix: string) {
    |prefix| <= |s| && s[..|prefix|] == prefix
  }

  predicate EndsWith(s: string, suffix: string) {
    |suffix| <= |s| && s[|s| - |suffix|..] == suffix
  }

  /** `sub` occurs in `s` at position `i`. */
  predicate OccursAt(s: string, sub: string, i: int) {
    0 <= i && i + |sub| <= |s| && s[i..i + |sub|] == sub
  }

  /** The declarative meaning of `includes`. */
  ghost predicate Contains(s: string, sub: string) {
    exists i :: OccursAt(s, sub, i)
  }

  /** `String.prototype.includes`, searching left to right from `from`. */
  function IncludesFrom(s: string, sub: string, from: nat): (b: bool)
    requires from <= |s|
    ensures b <==> exists i :: from <= i && OccursAt(s, sub, i)
    decreases |s| - from
  {
    if from + |sub| > |s| then false
    else if s[from..from + |sub|] == sub then assert OccursAt(s, sub, from); true
    else IncludesFrom(s, sub, from + 1)
  }

  function Includes(s: string, sub: string): (b: bool)
    ensures b <==> Contains(s, sub)
  {
    IncludesFrom(s, sub, 0)
  }

  // Decimal rendering of the source's numeric counters (template literals `${n}`).

  predicate IsDigit(c: char) {
    '0' <= c <= '9'
  }

  function DigitChar(d: nat): (c: char)
    requires d < 10
    ensures IsDigit(c)
  {
    ('0' as int + d) as char
  }

  function DigitValue(c: char): nat
    requires IsDigit(c)
  {
    c as int - '0' as int
  }

  /** The decimal numeral of `n`, as `String(n)` renders it. */
  function NatToString(n: nat): (s: string)
    ensures |s| > 0
    ensures forall k :: 0 <= k < |s| ==> IsDigit(s[k])
  {
    if n < 10 then [DigitChar(n)] else NatToString(n / 10) + [DigitChar(n % 10)]
  }

  /** The value of a string of decimal digits. */
  function ParseNat(s: string): nat
    requires forall k :: 0 <= k < |s| ==> IsDigit(s[k])
  {
    if |s| == 0 then 0 else ParseNat(s[..|s| - 1]) * 10 + DigitValue(s[|s| - 1])
  }

  /** Reading back a rendered counter gives the counter. */
  lemma {:induction false} ParseNatToString(n: nat)
    ensures ParseNat(NatToString(n)) == n
  {
    if n >= 10 {
      var s := NatToString(n);
      assert s[..|s| - 1] == NatToString(n / 10);
      ParseNatToString(n / 10);
    }
  }

  /** Distinct counters render to distinct numerals. */
  lemma NatToStringInjective(m: nat, n: nat)
    requires NatToString(m) == NatToString(n)
    ensures m == n
  {
    ParseNatToString(m);
    ParseNatToString(n);
  }

  /** Appending to a fixed prefix is injective. */
  lemma PrefixCancel(p: string, a: string, b: string)
    requires p + a == p + b
    ensures a == b
  {
    assert a == (p + a)[|p|..];
    assert b == (p + b)[|p|..];
  }
}

=== FILE: topic_categories.dfy ===
/** The static lesson-topic table of lib/topic-categories.ts and its lookups. */
module TopicCategories {
  import opened Wrappers
  import opened Strings
  import opened Seqs

  /** One lesson topic: its id, English and Korean names, and the lesson's
      document and audio file names. */
  datatype Topic = Topic(
    id: string,
    name: string,
    nameKo: string,
    description: Option<string>,
    pdfFileName: Option<string>,
    audioFileName: Option<string>)

  /** The (id, name, Korean name) of each lecture, in lecture order. */
  const Lectures: seq<(string, string, string)> := [
    ("school", "School & Classes", "학교, 수업"),
    ("work", "Work & Office", "직장, 업무"),
    ("living", "Living Place", "사는 곳"),
    ("neighborhood", "Neighborhood", "동네 및 이웃"),
    ("movies", "Watching Movies", "영화 관람"),
    ("park", "Going to Park", "공원가기"),
    ("beach", "Beach & Camping", "해변, 캠핑 가기"),
    ("sports-watching", "Watching Sports", "스포츠 관람"),
    ("shopping", "Shopping", "쇼핑하기"),
    ("tv", "TV & Reality Shows", "TV, 리얼리티 쇼 시청하기"),
    ("cafe", "Cafe & Coffee Shop", "카페, 커피전문점에 가기"),
    ("sns", "Posting on SNS", "SNS에 글 올리기"),
    ("music", "Listening to Music", "음악 감상하기"),
    ("instruments", "Playing Instruments", "악기 연주하기"),
    ("cooking", "Cooking", "요리하기"),
    ("reading", "Reading", "독서"),
    ("sports-playing", "Playing Sports (Basketball, Baseball, Soccer)", "농구, 야구, 축구"),
    ("yoga-fitness", "Yoga & Fitness", "요가, 헬스"),
    ("swimming", "Swimming", "수영"),
    ("biking", "Biking", "자전거"),
    ("travel", "Domestic & International Travel", "국내, 해외 여행"),
    ("business-trip", "Business Trip", "국내, 해외 출장"),
    ("staycation", "Staycation", "집에서 보내는 휴가"),
    ("surprise-1", "Surprise Topics 1", "돌발주제-집안일, 외식, 인터넷 서핑, 명절"),
    ("surprise-2", "Surprise Topics 2", "돌발주제-교통수단, 프로젝트, 날씨, 도서관"),
    ("surprise-3", "Surprise Topics 3", "돌발주제-산업, 가구, 약속, 은행"),
    ("surprise-4", "Surprise Topics 4", "돌발주제-지역축제, 지형, 패션, 전화통화"),
    ("surprise-5", "Surprise Topics 5", "돌발주제-호텔, 기술, 건강, 재활용"),
    ("roleplay-questions", "Role-play: Asking Questions", "롤플레이-질문하기"),
    ("roleplay-solving", "Role-play: Problem Solving", "롤플레이-문제 해결하기"),
    ("important-types", "Important Question Types", "OPIc 중요 유형들 정리"),
    ("common-topics", "Common Topics Summary", "OPIc 빈출 주제들 정리"),
    ("tips", "High Score Tips & Emergency Phrases", "실전 시험 고득점 Tip & 위기탈출 문장 특강")
  ]

  /** Every lesson document of the table is named `<n>강_<Korean name>_unlocked-ocr.pdf`. */
  function LecturePdf(n: nat, nameKo: string): string {
    NatToString(n) + "강_" + nameKo + "_unlocked-ocr.pdf"
  }

  /** Every lesson recording of the table is named `<n>강_<Korean name>.mp3`. */
  function LectureAudio(n: nat, nameKo: string): string {
    NatToString(n) + "강_" + nameKo + ".mp3"
  }

  /** The table entry of lecture `n`. */
  function Lecture(n: nat, id: string, name: string, nameKo: string): Topic {
    Topic(id, name, nameKo, None, Some(LecturePdf(n, nameKo)), Some(LectureAudio(n, nameKo)))
  }

  /** The table entries of the first `n` lectures. */
  function LecturesUpTo(n: nat): (r: seq<Topic>)
    requires n <= |Lectures|
    ensures |r| == n
    ensures forall i :: 0 <= i < n ==> r[i] == Lecture(i + 1, Lectures[i].0, Lectures[i].1, Lectures[i].2)
  {
    if n == 0 then [] else LecturesUpTo(n - 1) + [Lecture(n, Lectures[n - 1].0, Lectures[n - 1].1, Lectures[n - 1].2)]
  }

  /** `TOPIC_CATEGORIES`: entry `i` is lecture `i + 1`. */
  const TopicTable: seq<Topic> := LecturesUpTo(|Lectures|)

  // The distinctness of the 33 ids is checked in slices of the table, each a
  // proof obligation of its own.

  lemma LectureIdsDistinct0()
    ensures forall i, j :: 0 <= i < 3 && i < j < |Lectures| ==> Lectures[i].0 != Lectures[j].0
  {
  }

  lemma LectureIdsDistinct1()
    ensures forall i, j :: 3 <= i < 6 && i < j < |Lectures| ==> Lectures[i].0 != Lectures[j].0
  {
  }

  lemma LectureIdsDistinct2()
    ensures forall i, j :: 6 <= i < 10 && i < j < |Lectures| ==> Lectures[i].0 != Lectures[j].0
  {
  }

  lemma LectureIdsDistinct3()
    ensures forall i, j :: 10 <= i < 15 && i < j < |Lectures| ==> Lectures[i].0 != Lectures[j].0
  {
  }

  lemma LectureIdsDistinct4()
    ensures forall i, j :: 15 <= i < 22 && i < j < |Lectures| ==> Lectures[i].0 != Lectures[j].0
  {
  }

  lemma LectureIdsDistinct5()
    ensures forall i, j :: 22 <= i < 33 && i < j < |Lectures| ==> Lectures[i].0 != Lectures[j].0
  {
  }

  /** No two entries of the table share an id. */
  lemma TopicIdsDistinct()
    ensures |TopicTable| == 33
    ensures forall i, j :: 0 <= i < j < |TopicTable| ==> TopicTable[i].id != TopicTable[j].id
  {
    LectureIdsDistinct0();
    LectureIdsDistinct1();
    LectureIdsDistinct2();
    LectureIdsDistinct3();
    LectureIdsDistinct4();
    LectureIdsDistinct5();
  }

  /** The length of the run of decimal digits that `s` starts with. */
  function LeadingDigits(s: string): (n: nat)
    ensures n <= |s|
  {
    if |s| > 0 && IsDigit(s[0]) then 1 + LeadingDigits(s[1..]) else 0
  }

  lemma {:induction false} LeadingDigitsOfNumeral(x: string, u: string)
    requires forall k :: 0 <= k < |x| ==> IsDigit(x[k])
    requires |u| > 0 && !IsDigit(u[0])
    ensures LeadingDigits(x + u) == |x|
  {
    if |x| == 0 {
      assert x + u == u;
    } else {
      assert (x + u)[1..] == x[1..] + u;
      LeadingDigitsOfNumeral(x[1..], u);
    }
  }

  /** A numeral followed by a non-digit can be read back unambiguously. */
  lemma NumeralPrefixCancel(x: string, u: string, y: string, v: string)
    requires forall k :: 0 <= k < |x| ==> IsDigit(x[k])
    requires forall k :: 0 <= k < |y| ==> IsDigit(y[k])
    requires |u| > 0 && !IsDigit(u[0]) && |v| > 0 && !IsDigit(v[0])
    requires x + u == y + v
    ensures x == y
  {
    LeadingDigitsOfNumeral(x, u);
    LeadingDigitsOfNumeral(y, v);
    assert x == (x + u)[..|x|];
    assert y == (y + v)[..|y|];
  }

  /** Lesson documents of different lectures have different names. */
  lemma LecturePdfInjective(m: nat, a: string, n: nat, b: string)
    requires LecturePdf(m, a) == LecturePdf(n, b)
    ensures m == n
  {
    assert LecturePdf(m, a) == NatToString(m) + ("강_" + a + "_unlocked-ocr.pdf");
    assert LecturePdf(n, b) == NatToString(n) + ("강_" + b + "_unlocked-ocr.pdf");
    NumeralPrefixCancel(NatToString(m), "강_" + a + "_unlocked-ocr.pdf", NatToString(n), "강_" + b + "_unlocked-ocr.pdf");
    NatToStringInjective(m, n);
  }

  /** Lesson recordings of different lectures have different names. */
  lemma LectureAudioInjective(m: nat, a: string, n: nat, b: string)
    requires LectureAudio(m, a) == LectureAudio(n, b)
    ensures m == n
  {
    assert LectureAudio(m, a) == NatToString(m) + ("강_" + a + ".mp3");
    assert LectureAudio(n, b) == NatToString(n) + ("강_" + b + ".mp3");
    NumeralPrefixCancel(NatToString(m), "강_" + a + ".mp3", NatToString(n), "강_" + b + ".mp3");
    NatToStringInjective(m, n);
  }

  /** Every entry names a lesson document and a recording, both non-empty, and no
      two entries name the same document or the same recording. */
  lemma TopicFilesDistinct()
    ensures forall i :: 0 <= i < |TopicTable| ==>
      Truthy(TopicTable[i].pdfFileName) && Truthy(TopicTable[i].audioFileName)
    ensures forall i, j :: 0 <= i < j < |TopicTable| ==> TopicTable[i].pdfFileName != TopicTable[j].pdfFileName
    ensures forall i, j :: 0 <= i < j < |TopicTable| ==> TopicTable[i].audioFileName != TopicTable[j].audioFileName
  {
    forall i, j | 0 <= i < j < |TopicTable|
      ensures TopicTable[i].pdfFileName != TopicTable[j].pdfFileName
      ensures TopicTable[i].audioFileName != TopicTable[j].audioFileName
    {
      if TopicTable[i].pdfFileName == TopicTable[j].pdfFileName {
        LecturePdfInjective(i + 1, TopicTable[i].nameKo, j + 1, TopicTable[j].nameKo);
      }
      if TopicTable[i].audioFileName == TopicTable[j].audioFileName {
        LectureAudioInjective(i + 1, TopicTable[i].nameKo, j + 1, TopicTable[j].nameKo);
      }
    }
  }

  /** `getTopicById`: the first entry with that id. */
  function GetTopicById(id: string): (r: Option<Topic>)
    ensures r.Some? ==> (exists i :: 0 <= i < |TopicTable| && TopicTable[i] == r.value && r.value.id == id
                          && forall j :: 0 <= j < i ==> TopicTable[j].id != id)
    ensures r.None? <==> forall i :: 0 <= i < |TopicTable| ==> TopicTable[i].id != id
  {
    Find(TopicTable, (t: Topic) => t.id == id)
  }

  /** `getTopicByPdfFileName`: the first entry whose document name is exactly `fileName`. */
  function GetTopicByPdfFileName(fileName: string): (r: Option<Topic>)
    ensures r.Some? ==> (exists i :: 0 <= i < |TopicTable| && TopicTable[i] == r.value
                          && r.value.pdfFileName == Some(fileName)
                          && forall j :: 0 <= j < i ==> TopicTable[j].pdfFileName != Some(fileName))
    ensures r.None? <==> forall i :: 0 <= i < |TopicTable| ==> TopicTable[i].pdfFileName != Some(fileName)
  {
    Find(TopicTable, (t: Topic) => t.pdfFileName == Some(fileName))
  }

  /** `getTopicByAudioFileName`: the first entry whose recording name is exactly `fileName`. */
  function GetTopicByAudioFileName(fileName: string): (r: Option<Topic>)
    ensures r.Some? ==> (exists i :: 0 <= i < |TopicTable| && TopicTable[i] == r.value
                          && r.value.audioFileName == Some(fileName)
                          && forall j :: 0 <= j < i ==> TopicTable[j].audioFileName != Some(fileName))
    ensures r.None? <==> forall i :: 0 <= i < |TopicTable| ==> TopicTable[i].audioFileName != Some(fileName)
  {
    Find(TopicTable, (t: Topic) => t.audioFileName == Some(fileName))
  }

  /** Looking an entry up by its own id finds that entry. */
  lemma GetTopicByIdOfEntry(i: nat)
    requires i < |TopicTable|
    ensures GetTopicById(TopicTable[i].id) == Some(TopicTable[i])
  {
    TopicIdsDistinct();
    var r := GetTopicById(TopicTable[i].id);
    assert r.Some?;
    var k :| 0 <= k < |TopicTable| && TopicTable[k] == r.value && r.value.id == TopicTable[i].id
      && forall j :: 0 <= j < k ==> TopicTable[j].id != TopicTable[i].id;
    assert k == i;
  }

  /** Looking an entry up by its own document name finds that entry. */
  lemma GetTopicByPdfFileNameOfEntry(i: nat)
    requires i < |TopicTable|
    ensures GetTopicByPdfFileName(TopicTable[i].pdfFileName.value) == Some(TopicTable[i])
  {
    TopicFilesDistinct();
    var f := TopicTable[i].pdfFileName.value;
    var r := GetTopicByPdfFileName(f);
    assert r.Some?;
    var k :| 0 <= k < |TopicTable| && TopicTable[k] == r.value && r.value.pdfFileName == Some(f)
      && forall j :: 0 <= j < k ==> TopicTable[j].pdfFileName != Some(f);
    assert k == i;
  }

  /** Looking an entry up by its own recording name finds that entry. */
  lemma GetTopicByAudioFileNameOfEntry(i: nat)
    requires i < |TopicTable|
    ensures GetTopicByAudioFileName(TopicTable[i].audioFileName.value) == Some(TopicTable[i])
  {
    TopicFilesDistinct();
    var f := TopicTable[i].audioFileName.value;
    var r := GetTopicByAudioFileName(f);
    assert r.Some?;
    var k :| 0 <= k < |TopicTable| && TopicTable[k] == r.value && r.value.audioFileName == Some(f)
      && forall j :: 0 <= j < k ==> TopicTable[j].audioFileName != Some(f);
    assert k == i;
  }

  /** `getAllTopics`: the table itself. */
  function GetAllTopics(): (r: seq<Topic>)
    ensures |r| == 33
    ensures forall i :: 0 <= i < |r| ==> r[i] == TopicTable[i]
  {
    TopicIdsDistinct();
    TopicTable
  }

  predicate IsSurpriseId(id: string) {
    StartsWith(id, "surprise")
  }

  predicate IsRoleplayId(id: string) {
    StartsWith(id, "roleplay")
  }

  predicate IsSummaryId(id: string) {
    Includes(id, "types") || Includes(id, "common") || Includes(id, "tips")
  }

  /** The "main" filter of the source, written out as it is there. */
  predicate IsMainId(id: string) {
    !StartsWith(id, "surprise") && !StartsWith(id, "roleplay")
      && !Includes(id, "types") && !Includes(id, "common") && !Includes(id, "tips")
  }

  /** Membership of a category as the four filters of `getTopicsByCategory` decide it;
      any other category name selects nothing. */
  predicate InCategory(id: string, category: string) {
    if category == "main" then IsMainId(id)
    else if category == "surprise" then IsSurpriseId(id)
    else if category == "roleplay" then IsRoleplayId(id)
    else if category == "summary" then IsSummaryId(id)
    else false
  }

  /** The test `getTopicsByCategory` applies to each table entry. */
  function CategoryTest(category: string): Topic -> bool {
    (t: Topic) => InCategory(t.id, category)
  }

  /** `getTopicsByCategory`: the table entries of one category, in table order. */
  function GetTopicsByCategory(category: string): (r: seq<Topic>)
    ensures forall i :: 0 <= i < |r| ==> r[i] in TopicTable && InCategory(r[i].id, category)
    ensures forall i :: 0 <= i < |TopicTable| && InCategory(TopicTable[i].id, category) ==> TopicTable[i] in r
    ensures Selects(r, TopicTable, CategoryTest(category))
    ensures category != "main" && category != "surprise" && category != "roleplay" && category != "summary" ==> r == []
  {
    FilterSelects(TopicTable, CategoryTest(category));
    if category != "main" && category != "surprise" && category != "roleplay" && category != "summary" then
      FilterNone(TopicTable, CategoryTest(category));
      Filter(TopicTable, CategoryTest(category))
    else
      Filter(TopicTable, CategoryTest(category))
  }

  /** "main" is exactly what none of the other three categories takes, so every
      id lies in "main" or in another category, never in both. */
  lemma MainIsRest(id: string)
    ensures InCategory(id, "main") <==>
      !(InCategory(id, "surprise") || InCategory(id, "roleplay") || InCategory(id, "summary"))
  {
  }
}

=== FILE: types.dfy ===
/** The shared records of the application (types/index.ts and the record shapes of
    lib/sample-answers.ts): test levels, question kinds, questions, recorded answers
    and test results. */
module Types {
  import opened Wrappers

  /** The two proficiency levels a test is taken at. */
  datatype Level = IH | AL

  /** The five question kinds of the exam. */
  datatype QuestionType = Warmup | Roleplay | Opinion | Narration | Summary

  /** Where a stored sample answer came from. */
  datatype Source = Pdf | Manual | Ai

  /** Whether a stored sample answer has been reviewed. */
  datatype Quality = Verified | Unverified

  /** A question. Every optional property of the source record is an Option;
      `sampleAnswerSource` and `sampleAnswerQuality` are the two extra properties
      the sample-answer loader spreads onto a question. */
  datatype Question = Question(
    id: string,
    kind: QuestionType,
    text: string,
    description: Option<string>,
    timeLimit: Option<int>,
    level: Level,
    topic: Option<string>,
    sampleAnswer: Option<string>,
    usefulExpressions: Option<seq<string>>,
    audioPath: Option<string>,
    sampleAnswerSource: Option<Source>,
    sampleAnswerQuality: Option<Quality>)

  /** One recorded answer of a test. The audio payload is not modelled. */
  datatype Answer = Answer(questionId: string, transcript: Option<string>, duration: int, timestamp: int)

  /** The evaluation of a test; only the overall score is read by the code modelled here. */
  datatype Feedback = Feedback(overallScore: real)

  /** One taken test. */
  datatype TestResult = TestResult(
    id: string,
    testDate: int,
    level: Level,
    questions: seq<Question>,
    answers: seq<Answer>,
    feedback: Option<Feedback>,
    completed: bool)
}

=== FILE: wrappers.dfy ===
/** The optional-value type used for the source's optional fields, its `undefined`
    returns and its `null` returns. */
module Wrappers {

  datatype Option<+T> = None | Some(value: T) {

    /** Returns the value held in Some, or `default` when None. */
    function GetOr(default: T): T {
      match this
      case Some(v) => v
      case None => default
    }

    /** The object-spread rule for one optional property: a property present on
        `this` wins, otherwise the property of `fallback` is kept. */
    function Or(fallback: Option<T>): (r: Option<T>)
      ensures this.Some? ==> r == this
      ensures this.None? ==> r == fallback
    {
      if this.Some? then this else fallback
    }
  }
}
